=== FILE: README.md ===
# AI-generation metadata: a Dafny model

This project models the pure logic under a Krita AI-diffusion plugin extension. The extension stores generation metadata in saved images and reads it back. It covers:

- **Clean.** Cleans metadata text (`_clean_metadata_value`).
- **Record.** Builds the JSON record written into each auto-saved image, including the LoRA filter, the `param_` copies capped at 500 characters and the 4000-character fallback to an essential record.
- **Naming.** The category folder (`Upscale`, `Refine`, `ImgGenerate`), the file name and the per-document folder.
- **AutoSave.** Saves a job's images and the whole history, in both implementations:
  - the document synchroniser in `persistence.py`;
  - `AutoSaveManager` in `auto_save.py`.

  Every write is an oracle that succeeds or fails, and the count covers only the successful writes.
- **History.** The document synchroniser's storage bookkeeping: slots, `memory_used`, `_prune`, `_save_results`, `_remove_results`, `_remove_image`, the history part of `_load`, and `_find_annotation`.
- **PromptImport.** Imports prompts from an image's text metadata: the A1111 `parameters` split and the ComfyUI graph walk `_find_text_prompt`. On a cyclic graph Python stops at its recursion limit with a `RecursionError`, which the import catches (`persistence.py` 455-456); the walk is given fuel that stands in for that limit.
- **PngText.** The metadata dialog's per-chunk decoding of PNG `tEXt`, `zTXt` and `iTXt` chunks. The chunk layouts follow sections 11.3.4.3 to 11.3.4.5 of the W3C PNG Specification (Second Edition).
- **PanelMetadata.** The stand-alone metadata panel: `_extract_image_metadata` over an abstract image reader, and the text of its metadata dialog.
- **JobDisplay.** The generation docker's metadata text for a job (`_format_metadata_for_display`, `_get_translation`).
- **HistoryList.** The history list's tooltip title (`_job_info`) and row removal (`_remove_items`).
- **Steppers.** The font-size and height steppers of both metadata views, and their copy button.
- **Features.** The feature registry of `config.py`.

Supporting modules:

- `Text`: Python string operations.
- `Dict`: an insertion-ordered dictionary as a sequence of pairs.
- `Json`: a small JSON value type with the compact `json.dumps` form.
- `Clock`: the `strftime` patterns.
- `Jobs`: jobs and their parameters.

Foreign calls are parameters of the functions that use them, as records of function values:

- `json.loads`, `zlib.decompress` and UTF-8 decoding;
- float formatting;
- `Styles.list().find`;
- `mkdir`, `img.save` and `datetime.now`;
- the two helpers of `AutoSaveManager` whose module is not part of this model.

Some behaviours of the code are easy to get wrong, and the model keeps them as written:

- The category for a full-strength generation is `ImgGenerate`, not `Generate` (`Naming.Label`).
- The 4000 limit counts characters of the JSON text, not bytes (`Record.Payload`).
- The essential record is not measured again, so it can exceed 4000 characters. Both savers write it as it is (`AutoSave.SaveJobOverflows`); see Findings.
- `save_all_history_images` does not check whether a job is finished, although its comment says "finished jobs" (`AutoSave.SelectedJobSaved`, `AutoSave.ManagedRunExact`, `AutoSave.UnfinishedJobSaved`). The history save of `persistence.py` does check (`AutoSave.HistorySkipsUnfinished`).
- The two savers name the folder of an unsaved document differently:
  - `auto_save.py` uses `unsaved_document`;
  - `persistence.py` uses `document_non_sauvegarde`.
- In the PNG dialog, a later JSON chunk that parses overwrites an earlier one (`PngText.LaterTextWins`).
- The dialog's `iTXt` pass stores everything after the first NUL that follows the keyword's NUL, header bytes included (`PngText.InternationalChunkStores`); see Findings.

## Model

| member | source | states |
|---|---|---|
| Clean.RemoveJunk | ai_diffusion/persistence.py:479-483 | The result holds none of the removed control and replacement characters, and a text without them is returned unchanged |
| Clean.RemoveJunkAppend | ai_diffusion/persistence.py:479-483 | Removal from `a + b` is removal from `a` followed by removal from `b`, so the kept characters stay in order |
| Clean.RemoveJunkOne | ai_diffusion/persistence.py:479-483 | A single character is removed iff it is one of the listed control or replacement characters |
| Clean.RemoveJunkCounts | ai_diffusion/persistence.py:479-483 | Every other character keeps its number of occurrences, and every removed character occurs zero times |
| Clean.CleanText | ai_diffusion/persistence.py:473-487 | The cleaned value is a contiguous slice of the text after removal, with only whitespace cut at either end, none left at its ends, and no removed character |
| Clean.CleanValue | ai_diffusion/persistence.py:475-476 | A non-string is cleaned through `str()`, and a string is cleaned directly |
| Clean.CleanIdempotent | ai_diffusion/persistence.py:479-485 | Cleaning twice gives the same text as cleaning once |
| Clean.CleanKeepsCleanText | ai_diffusion/persistence.py:479-485 | A text without removed characters or surrounding whitespace is a fixed point |
| Json.UnescapeEscape | ai_diffusion/persistence.py:590 | The string escaping of `json.dumps(..., ensure_ascii=False)` is undone by reading the literal back |
| Naming.CategoryOf | ai_diffusion/persistence.py:288-293 | `Upscale` iff the job upscales; otherwise `Refine` iff strength < 1, else `ImgGenerate` |
| Naming.Label | ai_diffusion/persistence.py:289-293 | Every label is non-empty, without `_` or `/`, so it is one folder and one file-name field |
| Naming.FilePrefix | ai_diffusion/persistence.py:304-305 | The prefix has min(len(name), 50) characters, each a character of the name with spaces turned into `_` |
| Naming.FileNameIndexInjective | ai_diffusion/persistence.py:311 | With prefix and tag fixed and stamps of one length, equal file names imply equal indices and stamps |
| Naming.DocFolder | ai_diffusion/krita_ai_metadata_downloads/auto_save.py:46-50 | An unsaved document gets the fallback folder, and a saved one a name without `/` |
| Naming.DocFolderOfSavedFile | ai_diffusion/krita_ai_metadata_downloads/auto_save.py:46-48 | `dir/base.ext` gets the folder `base` (the path's stem) |
| Clock.FileStampMillis | ai_diffusion/persistence.py:308 | Dropping the last three `%f` digits leaves the date, time and millisecond digits |
| Clock.FileStampSameMillisecond | ai_diffusion/persistence.py:308 | Two clock readings in the same millisecond give the same stamp |
| Clock.FileStampLength | ai_diffusion/persistence.py:308 | A well-formed reading gives a stamp of exactly 19 characters |
| Record.CapParam | ai_diffusion/persistence.py:584-585 | A copied value has at most 500 characters; a longer one keeps its first 497 and ends in `...` |
| Record.EnabledLoras | ai_diffusion/persistence.py:565-575 | Only dictionary entries that are not switched off are kept, each reduced to a cleaned `name` and a `strength` |
| Record.EnabledLorasAppend | ai_diffusion/persistence.py:568-574 | The filter works entry by entry: the list for `a + b` is the list for `a` followed by the list for `b` |
| Record.EnabledLorasOne | ai_diffusion/persistence.py:569-574 | One entry is dropped unless it is an enabled dictionary, and kept as its cleaned name (`Unknown` by default) and its strength (`1.0` by default) |
| Record.AddParams | ai_diffusion/persistence.py:580-586 | Only `param_` keys are added, after the existing ones; other keys, uniqueness and the 500 cap are kept |
| Record.RecordShape | ai_diffusion/persistence.py:546-586 | The record starts with the twelve fixed keys, followed only by `loras` and `param_` keys; keys are unique; copies are capped |
| Record.RecordValues | ai_diffusion/persistence.py:549-562 | The record holds the prompt, seed, strength, label, time stamp, index and batch size it was built from |
| Record.LorasEntry | ai_diffusion/persistence.py:565-577 | `loras` is absent without metadata `loras`; otherwise it holds the filtered list, or `str()` of a non-list |
| Record.RecordParams | ai_diffusion/persistence.py:580-586 | Every metadata entry whose key is not reserved is present as `param_<key>` with its cleaned, capped value, and every `param_` key of the record comes from such an entry |
| Record.AddParamsOnly | ai_diffusion/persistence.py:580-586 | The metadata loop adds no key except the `param_` keys of non-reserved entries |
| Record.BaseNoParams | ai_diffusion/persistence.py:546-578 | Before the metadata loop the record has no `param_` key |
| Record.Essential | ai_diffusion/persistence.py:595-602 | Exactly the six keys in order, `truncated` true, and prompt, seed, strength, label and time stamp taken over, or `""`, `0`, `1.0`, `""`, `""` when absent |
| Record.Payload | ai_diffusion/persistence.py:590-603 | The full record when it has at most 4000 characters, the essential record otherwise (as written) |
| Record.LongPromptOverflows | ai_diffusion/persistence.py:593-603 | As written, a cleaned prompt of 4000 or more characters gives a payload over 4000 characters |
| Record.BoundedPayload | ai_diffusion/persistence.py:593-603 | Corrected rule: the payload never exceeds 4000 characters, and it is the full or essential record whenever that fits |
| Record.BoundedAgrees | ai_diffusion/persistence.py:593-603 | Whenever the code's payload fits, the corrected rule writes the same text |
| AutoSave.SavedExtremes | ai_diffusion/krita_ai_metadata_downloads/auto_save.py:66-113 | The count equals the number of images iff every write succeeded, and is 0 iff none did |
| AutoSave.AttemptAt | ai_diffusion/krita_ai_metadata_downloads/auto_save.py:84-111 | An image counts as saved iff its payload was prepared and the write returned normally |
| AutoSave.SaveImages | ai_diffusion/krita_ai_metadata_downloads/auto_save.py:66-113 | Every image is attempted whatever happened before, and the count is the number of successes, at most the image count |
| AutoSave.RecordAttemptAt | ai_diffusion/persistence.py:302-382 | Image k goes to its own file name, stamped with its own clock reading, carrying its own record or, over 4000 characters, that record's essential part |
| AutoSave.SaveJob | ai_diffusion/persistence.py:264-386 | A folder that cannot be made stops the save before any image; otherwise every image is attempted |
| AutoSave.SaveJobOverflows | ai_diffusion/persistence.py:363-382 | As written, every image of a job whose cleaned prompt has 4000 or more characters is saved with a payload over 4000 characters |
| AutoSave.SaveHistory | ai_diffusion/persistence.py:490-615 | 0 with nothing written when auto-save is off; otherwise the count is the number of successful writes |
| AutoSave.SaveHistoryImages | ai_diffusion/persistence.py:513-615 | The nested loop computes the history save's result and attempts |
| AutoSave.HistoryRunCount | ai_diffusion/persistence.py:516-532 | Without a failing folder, exactly the images of the finished jobs are attempted |
| AutoSave.HistoryRunStaysFailed | ai_diffusion/persistence.py:529-530 | Once a category folder fails, nothing more is attempted |
| AutoSave.HistoryBound | ai_diffusion/persistence.py:513-615 | The history count never exceeds the number of images of finished jobs |
| AutoSave.HistorySkipsUnfinished | ai_diffusion/persistence.py:517-518 | Appending an unfinished job changes nothing |
| AutoSave.SaveJobImages | ai_diffusion/krita_ai_metadata_downloads/auto_save.py:27-113 | 0 untouched when off or without results; a folder or label failure escapes with no attempt; otherwise every image is attempted and the count is the number of successes |
| AutoSave.SaveJobImagesLoop | ai_diffusion/krita_ai_metadata_downloads/auto_save.py:27-113 | The method computes `save_job_images`'s outcome |
| AutoSave.SaveAllHistory | ai_diffusion/krita_ai_metadata_downloads/auto_save.py:119-155 | 0 with nothing written when auto-save is off; a failing base or document folder escapes with nothing written; otherwise the result is the number of successful writes, at most the selected jobs' images |
| AutoSave.ManagedRunCounts | ai_diffusion/krita_ai_metadata_downloads/auto_save.py:142-155 | The total is the number of successful writes, at most the images of selected jobs, one clock reading per attempt |
| AutoSave.SaveAllBound | ai_diffusion/krita_ai_metadata_downloads/auto_save.py:142-155 | The bulk total never exceeds the images of the jobs with results of an image kind |
| AutoSave.UnselectedJobSkipped | ai_diffusion/krita_ai_metadata_downloads/auto_save.py:145-146 | A job without results, or of a kind that produces no images, leaves the run exactly as it was |
| AutoSave.FailingJobSkipped | ai_diffusion/krita_ai_metadata_downloads/auto_save.py:147-152 | A job whose save raises adds nothing, and the loop goes on |
| AutoSave.SelectedJobSaved | ai_diffusion/krita_ai_metadata_downloads/auto_save.py:145-152 | A job with results of an image kind, in any state, is saved: its attempts are appended, the clock follows its save, and its count is added to the total (nothing when its save raises) |
| AutoSave.UnfinishedJobSaved | ai_diffusion/krita_ai_metadata_downloads/auto_save.py:145-148 | When the helpers ignore the job's state, an unfinished job gives the same total, attempts and clock as the same job finished |
| AutoSave.SaveJobImagesBlind | ai_diffusion/krita_ai_metadata_downloads/auto_save.py:27-113 | One job's save does not depend on its state when the helpers do not |
| AutoSave.ManagedRunExact | ai_diffusion/krita_ai_metadata_downloads/auto_save.py:142-155 | When no job's save raises, every image of every selected job is attempted, one clock reading each, after the earlier attempts |
| AutoSave.SaveAllExact | ai_diffusion/krita_ai_metadata_downloads/auto_save.py:119-155 | With both top folders made and no job's save raising, the result counts the successful writes among exactly the selected jobs' images |
| History.TotalRemove | ai_diffusion/persistence.py:252-254 | Forgetting a slot takes exactly its size off `memory_used` |
| History.TotalSet | ai_diffusion/persistence.py:252-254 | Setting a slot's size replaces its old size (0 when absent) in `memory_used` |
| History.Prune | ai_diffusion/persistence.py:256-262 | Pruning removes only the oldest items: what is left is a suffix of the history, in order, and the counter is untouched |
| History.PruneBound | ai_diffusion/persistence.py:256-262 | After pruning, usage is within the limit or the history is empty |
| History.PruneWithinLimit | ai_diffusion/persistence.py:256-259 | A store already within the limit is left unchanged |
| History.PruneOnlyOverLimit | ai_diffusion/persistence.py:259 | If anything was pruned, usage was over the limit |
| History.Added | ai_diffusion/persistence.py:221-228 | The results are listed under the current slot, and the counter moves up by one |
| History.SaveResults | ai_diffusion/persistence.py:219-229 | Non-image kinds and empty results change nothing; otherwise the counter moves up and the history is a suffix of old + new |
| History.SaveResultsBound | ai_diffusion/persistence.py:219-229 | After storing, usage is within the limit or the history is empty |
| History.SaveResultsCounts | ai_diffusion/persistence.py:220-227 | Storing a job's results into a fresh slot adds exactly the new size to `memory_used`, and records that size under the slot and under its `result<slot>.webp` annotation |
| History.SaveResultsFresh | ai_diffusion/persistence.py:221-222 | Slots stay distinct and below the counter |
| History.FindId | ai_diffusion/persistence.py:237 | The first history position with the job's id, or none |
| History.RemoveResults | ai_diffusion/persistence.py:236-242 | An unknown id changes nothing; otherwise that item, its annotation and its size go, and the counter stays |
| History.RemoveResultsTotal | ai_diffusion/persistence.py:236-241 | Removal takes exactly the item's size off and keeps the other items in order |
| History.RemoveImage | ai_diffusion/persistence.py:244-250 | With the job listed and present, its slot's size and annotation become the new size, and every other size and annotation is unchanged; otherwise nothing changes |
| History.WithoutExtension | ai_diffusion/persistence.py:428 | The name up to its last dot, or the whole name without a dot |
| History.FindAnnotation | ai_diffusion/persistence.py:425-431 | The non-empty annotation under the name, else under the name without extension, else none |
| History.Load | ai_diffusion/persistence.py:171-181 | Items are appended only, the counter never decreases, and annotations are untouched |
| History.LoadSlotsBelow | ai_diffusion/persistence.py:181 | After loading, every listed slot is below the counter |
| History.LoadKeepsFound | ai_diffusion/persistence.py:173-179 | An item is listed again iff its image annotation is found |
| PromptImport.A1111 | ai_diffusion/persistence.py:441-445 | Without the marker nothing changes; otherwise both prompts are set, stripped |
| PromptImport.A1111Split | ai_diffusion/persistence.py:441-445 | For any text, with the marker first at i: positive is the stripped text before i, and negative the stripped text after the marker up to its first `Steps:`, or to its end when there is none |
| PromptImport.A1111RoundTrip | ai_diffusion/persistence.py:441-445 | Reading back A1111's `parameters` text recovers both trimmed prompts |
| PromptImport.FirstList | ai_diffusion/persistence.py:467-468 | The first list among the input values, or none when no input value is a list |
| PromptImport.FindTextPrompt | ai_diffusion/persistence.py:462-470 | An unhashable key raises, and a key naming no node gives the empty text |
| PromptImport.FindTextNode | ai_diffusion/persistence.py:463-466 | A text-encoder node gives its text |
| PromptImport.FindThroughLink | ai_diffusion/persistence.py:467-469 | Another node is followed through its first list input |
| PromptImport.CycleFails | ai_diffusion/persistence.py:467-469 | A node that forwards to itself never yields a prompt |
| PromptImport.Lookup | ai_diffusion/persistence.py:452-453 | A missing sampler input raises |
| PromptImport.SamplerNode | ai_diffusion/persistence.py:450-453 | When the import fails the negative prompt is unchanged, and a sampler without inputs fails |
| PromptImport.ComfyWithoutSampler | ai_diffusion/persistence.py:449-450 | A workflow without sampler nodes leaves the prompts alone |
| PromptImport.ImportPrompt | ai_diffusion/persistence.py:434-456 | Only an empty document with an image extension is touched; a non-empty `parameters` text never fails; no text means no change |
| PromptImport.ImportA1111 | ai_diffusion/persistence.py:434-445 | An empty document from an A1111 PNG gets both prompts |
| PromptImport.ImportComfy | ai_diffusion/persistence.py:447-453 | A sampler with two text encoders gives both texts, for every known sampler class |
| PngText.FindNul | ai_diffusion/ui/generation.py:1619 | The first NUL at or after the start position, or none |
| PngText.StoreJson | ai_diffusion/ui/generation.py:1626-1634 | Parsed JSON goes to `AI_METADATA_JSON`; a failure goes to the chunk's key |
| PngText.TextChunk | ai_diffusion/ui/generation.py:1616-1650 | A chunk without NUL adds nothing |
| PngText.TextSplit | ai_diffusion/ui/generation.py:1619-1622 | An encoded `tEXt` chunk splits back into keyword and text |
| PngText.TextRoundTrip | ai_diffusion/ui/generation.py:1646-1648 | An ordinary keyword stores its text under `PNG_tEXt_<keyword>`, and nothing else changes |
| PngText.TextJson | ai_diffusion/ui/generation.py:1625-1645 | A JSON keyword stores the parsed JSON; a failure stores `Error parsing JSON: …` (AI keywords) or the raw text (`metadata`) |
| PngText.LaterTextWins | ai_diffusion/ui/generation.py:1625-1642 | Of two JSON chunks that parse, the later one is kept |
| PngText.CompressedJson | ai_diffusion/ui/generation.py:1663-1703 | A method byte other than 0 is reported; a chunk ending at the NUL reports an index error; an inflate or parse failure stores the keyword's prefix followed by the exception text; a success stores the JSON; no other key changes |
| PngText.CompressedChunk | ai_diffusion/ui/generation.py:1655-1710 | A chunk without NUL adds nothing; another keyword stores `Données compressées` under `PNG_zTXt_<keyword>`; only that key and `AI_METADATA_JSON` can change |
| PngText.CompressedOther | ai_diffusion/ui/generation.py:1704-1706 | An encoded chunk under another keyword stores `Données compressées` and changes nothing else |
| PngText.CompressedInflateFails | ai_diffusion/ui/generation.py:1663-1703 | Data that does not inflate stores `Error parsing JSON: e` (AI keywords) or `Erreur décompression/parsing: e` (`metadata`) |
| PngText.CompressedSplit | ai_diffusion/ui/generation.py:1657-1671 | An encoded `zTXt` chunk splits into keyword, method byte and data |
| PngText.CompressedRoundTrip | ai_diffusion/ui/generation.py:1669-1678 | Method 0 with data that inflates and parses stores the JSON |
| PngText.CompressedUnsupported | ai_diffusion/ui/generation.py:1679-1680 | Any other method is reported as `Compression non supportée: n`, never inflated |
| PngText.InternationalTextAsWritten | ai_diffusion/ui/generation.py:1717-1724 | As written: the text starts after the first NUL following the keyword's NUL |
| PngText.InternationalAsWrittenKeepsHeader | ai_diffusion/ui/generation.py:1721-1723 | As written, an uncompressed chunk's text starts with the method byte, the language tag and the translated keyword |
| PngText.InternationalAsWrittenExample | ai_diffusion/ui/generation.py:1721-1723 | Keyword `k`, text `hi` decodes as three NULs followed by `hi` |
| PngText.InternationalText | ai_diffusion/ui/generation.py:1717-1724 | Corrected: the keyword is the bytes before the first NUL, and the text starts after the translated keyword |
| PngText.InternationalLayout | ai_diffusion/ui/generation.py:1717-1721 | Where the three NULs of an encoded `iTXt` chunk are found |
| PngText.InternationalRoundTrip | ai_diffusion/ui/generation.py:1717-1724 | Corrected reading of an encoded chunk gives back exactly its keyword and text |
| PngText.InternationalAsWrittenDiffers | ai_diffusion/ui/generation.py:1721-1723 | The as-written and corrected readings disagree on every uncompressed chunk |
| PngText.InternationalAsWrittenFlagged | ai_diffusion/ui/generation.py:1721-1723 | As written, a chunk with the flag set and method 0 is read from its language tag on |
| PngText.InternationalChunk | ai_diffusion/ui/generation.py:1715-1726 | A chunk with fewer than two NULs adds nothing; otherwise the bytes after the first NUL following the keyword's NUL are stored under `PNG_iTXt_<keyword>`, and nothing else changes |
| PngText.InternationalChunkStores | ai_diffusion/ui/generation.py:1715-1726 | An encoded uncompressed chunk stores its method byte, language tag, translated keyword and text, with their NULs, under `PNG_iTXt_<keyword>`, and nothing else changes |
| PngText.InternationalChunkShort | ai_diffusion/ui/generation.py:1715-1726 | The chunk `k NUL 0 h` stores `h` under `PNG_iTXt_k` |
| PngText.NoKeywordNoEntry | ai_diffusion/ui/generation.py:1616-1726 | Chunks without any NUL add nothing in any of the three passes |
| PanelMetadata.PngJson | ai_diffusion/krita_ai_metadata_downloads/metadata_panel.py:421-429 | An exception other than `JSONDecodeError` escapes; otherwise `AI_METADATA_JSON` is present iff the path ends in `.png`, the `metadata` text is non-empty and it parses, and then it holds that JSON |
| PanelMetadata.CopyKeys | ai_diffusion/krita_ai_metadata_downloads/metadata_panel.py:432-434 | Each listed key but `metadata` is copied verbatim; other keys and `metadata` keep their entries |
| PanelMetadata.WithSize | ai_diffusion/krita_ai_metadata_downloads/metadata_panel.py:437-438 | `Dimensions` is `WxH` when the size is valid; otherwise nothing changes |
| PanelMetadata.WithFormat | ai_diffusion/krita_ai_metadata_downloads/metadata_panel.py:440-445 | `Format` is the format name when there is one; no format, or one that is not UTF-8, changes nothing |
| PanelMetadata.Extract | ai_diffusion/krita_ai_metadata_downloads/metadata_panel.py:412-447 | Never raises; never has a `metadata` key; empty when the parse raises anything but `JSONDecodeError`; otherwise copies reader keys and adds `Dimensions` and `Format` when available |
| PanelMetadata.ExtractOnly | ai_diffusion/krita_ai_metadata_downloads/metadata_panel.py:412-447 | Nothing else is present; `Dimensions` and `Format` only when available; when the parse does not escape, the reader's own `AI_METADATA_JSON` overrides the parsed one |
| PanelMetadata.Block | ai_diffusion/krita_ai_metadata_downloads/metadata_panel.py:353-378 | A missing field, or an empty one where truthiness is required, adds nothing; a string field adds title, value and blank line |
| PanelMetadata.Listing | ai_diffusion/krita_ai_metadata_downloads/metadata_panel.py:390-393 | Exactly the entries other than `AI_METADATA_JSON` appear as `key: value` |
| PanelMetadata.PanelLines | ai_diffusion/krita_ai_metadata_downloads/metadata_panel.py:340-397 | An empty map shows the no-metadata message; the record header appears only with `AI_METADATA_JSON`; the listing always ends the text |
| PanelMetadata.PanelText | ai_diffusion/krita_ai_metadata_downloads/metadata_panel.py:395-397 | An empty map shows `No metadata found in this image` |
| PanelMetadata.RecordPromptFirst | ai_diffusion/krita_ai_metadata_downloads/metadata_panel.py:349-368 | A record with a prompt and a seed shows the PROMPT block, then PARAMETERS |
| Steppers.Init | ai_diffusion/ui/generation.py:1015-1026 | The old defaults 10 and 220 become 12 and 280/270 and are saved; the text box is 10 px shorter (panel: metadata_panel.py 56-67) |
| Steppers.Press | ai_diffusion/ui/generation.py:1392-1430 | One press keeps lockstep and saved settings, keeps an in-range font and on-grid height in range, and moves the font by at most 1 (panel: metadata_panel.py 208-246) |
| Steppers.PressAllKeeps | ai_diffusion/krita_ai_metadata_downloads/metadata_panel.py:208-246 | Any run of presses keeps lockstep, saved settings, font range and height grid |
| Steppers.UpDown | ai_diffusion/ui/generation.py:1392-1430 | Up then down (and down then up) is no change where allowed; a press at a limit does nothing |
| Steppers.Copy | ai_diffusion/ui/generation.py:1432-1437 | The text is copied iff it is non-empty and not one of the two placeholders (also metadata_panel.py 248-253) |
| JobDisplay.Rule | ai_diffusion/ui/generation.py:1294 | Exactly forty `─` characters |
| JobDisplay.Translate | ai_diffusion/ui/generation.py:1364-1376 | A known key gets its label; the key comes back unchanged iff it has no label |
| JobDisplay.KindLabel | ai_diffusion/ui/generation.py:1348-1353 | `Animation` iff animation, `Upscaling` iff upscaling, `Diffusion` otherwise |
| JobDisplay.LoraTexts | ai_diffusion/ui/generation.py:1329-1334 | Succeeds iff every entry is a dictionary, with at most one text per entry |
| JobDisplay.LoraTextsAppend | ai_diffusion/ui/generation.py:1329-1334 | The texts for `a + b` are those for `a` followed by those for `b`, and rendering fails iff either part does |
| JobDisplay.LoraTextsOne | ai_diffusion/ui/generation.py:1329-1334 | One entry: a non-dictionary raises, a switched-off one gives nothing, an enabled one gives `name (strength)` with `Unknown` and `1.0` as defaults |
| JobDisplay.TechnicalLine | ai_diffusion/ui/generation.py:1320-1340 | No line iff a known style or an empty list; a list of dictionaries raises iff an entry is no dictionary, else gives `label: ` and its enabled LoRA texts joined by `, `, or `None`; a non-empty negative prompt gives `Negative: value`; anything else gives `label: value` |
| JobDisplay.TechnicalLines | ai_diffusion/ui/generation.py:1320-1340 | Succeeds iff every entry does, with at most one line per entry |
| JobDisplay.TechnicalLinesAppend | ai_diffusion/ui/generation.py:1320-1340 | The lines for `a + b` are those for `a` followed by those for `b`, and rendering fails iff either part does |
| JobDisplay.TechnicalLinesOne | ai_diffusion/ui/generation.py:1320-1340 | One entry contributes exactly its own line, nothing when it has none, and fails when its line does |
| JobDisplay.Information | ai_diffusion/ui/generation.py:1343-1360 | The kind line first, then `Generated: date`; `Images: n` iff n > 1 |
| JobDisplay.Head | ai_diffusion/ui/generation.py:1292-1312 | PROMPT, NAME only when shown, then PARAMETERS with the seed, the strength in percent and the style iff its file is known |
| JobDisplay.Sections | ai_diffusion/ui/generation.py:1290-1360 | PROMPT, [NAME], PARAMETERS, [TECHNICAL iff metadata], INFORMATION in order, ending with INFORMATION; fails only on the technical lines |
| JobDisplay.Display | ai_diffusion/ui/generation.py:1288-1362 | The text exists iff the sections do |
| JobDisplay.DisplayOpensWithPrompt | ai_diffusion/ui/generation.py:1293-1295 | The text opens with `PROMPT`, the rule and the prompt |
| HistoryList.Heading | ai_diffusion/ui/generation.py:163-165 | At most 70 characters; an empty name gives `<no prompt>`; a longer one keeps 66 characters and adds `...` |
| HistoryList.Title | ai_diffusion/ui/generation.py:166-167 | The title starts with the heading, and equals it iff strength is 1 |
| HistoryList.FindJob | ai_diffusion/ui/generation.py:211 | The first row of the job, or none |
| HistoryList.PassStops | ai_diffusion/ui/generation.py:214-223 | The walk edits only the job's run; rows after it are untouched |
| HistoryList.WholeJob | ai_diffusion/ui/generation.py:214-218 | Removing a whole job keeps exactly its header rows |
| HistoryList.Renumbering | ai_diffusion/ui/generation.py:214-222 | Removing image k of images a..n-1 leaves a..n-2, with headers untouched |
| HistoryList.ShiftDown | ai_diffusion/ui/generation.py:220-221 | Images after the removed one move down by one |
| HistoryList.Cleanup | ai_diffusion/ui/generation.py:230-234 | The clean-up drops only header rows, and does nothing when no header sits above another |
| HistoryList.CleanupLeavesPair | ai_diffusion/ui/generation.py:230-234 | Three headers in a row leave two, still a pair |
| HistoryList.RemoveItems | ai_diffusion/ui/generation.py:204-234 | Never adds rows; an unknown job keeps every image row |
| HistoryList.RunLength | ai_diffusion/ui/generation.py:214 | The job's run from a position ends at the end or at another job's row |
| HistoryList.EditShape | ai_diffusion/ui/generation.py:211-223 | Only the job's run is edited before the clean-up |
| Features.NewFeature | ai_diffusion/krita_ai_metadata_downloads/config.py:21-25 | `None` dependencies and settings become an empty list and map; everything else is kept |
| Features.DefaultsShape | ai_diffusion/krita_ai_metadata_downloads/config.py:35-64 | Exactly `metadata_panel` then `auto_save`, unique, both enabled, with their shipped settings |
| Features.ShippedValues | ai_diffusion/krita_ai_metadata_downloads/config.py:43-62 | The shipped `enabled`, `max_metadata_size` and `font_size` values |
| Features.DefaultSettings | ai_diffusion/krita_ai_metadata_downloads/config.py:35-80 | Reading the defaults gives auto-save off, a 4000 size cap and font size 12 |
| Features.IsEnabled | ai_diffusion/krita_ai_metadata_downloads/config.py:70-73 | True iff the feature is registered and its flag is set |
| Features.Setting | ai_diffusion/krita_ai_metadata_downloads/config.py:75-80 | The default for a missing feature, empty settings or a missing key; otherwise the stored value |
| Features.Update | ai_diffusion/krita_ai_metadata_downloads/config.py:82-98 | Unknown names change nothing; otherwise only that feature changes, and the keys keep their order |
| Features.SetSetting | ai_diffusion/krita_ai_metadata_downloads/config.py:82-86 | Unknown names change nothing; other features and the key order are kept |
| Features.SetSettingReads | ai_diffusion/krita_ai_metadata_downloads/config.py:82-86 | The set value reads back, and every other field and setting of the feature is kept |
| Features.SetEnabled | ai_diffusion/krita_ai_metadata_downloads/config.py:88-98 | Unknown names change nothing; otherwise only the flag changes, and `is_feature_enabled` reports it |
| Features.EnabledFeatures | ai_diffusion/krita_ai_metadata_downloads/config.py:100-102 | Every listed name is an enabled entry, and every enabled entry is listed |
| Features.EnabledMatches | ai_diffusion/krita_ai_metadata_downloads/config.py:100-102 | With unique keys, a name is listed iff `is_feature_enabled` holds |
| Features.Add | ai_diffusion/krita_ai_metadata_downloads/config.py:108-110 | The entry reads back; others are kept; uniqueness is kept |
| Features.RemoveFeature | ai_diffusion/krita_ai_metadata_downloads/config.py:112-115 | A missing name changes nothing; otherwise the entry is gone, one shorter, and the others are kept |
| Features.Compatibility | ai_diffusion/krita_ai_metadata_downloads/config.py:117-132 | Same keys as the registry, all mapped to true |

## Left out

- PNG chunk segmentation. The regular expressions of `generation.py` 1614, 1653 and 1713 are not modelled. Each captured segment also holds the CRC and the next chunk's length field, and it can split inside a payload. The decoders take the chunk payloads as given.
- JPEG sniffing of the metadata dialog (`generation.py` 1732-1780): pattern matching over raw bytes, outside the core.
- The `Erreur extraction PNG` entry. Reading the file (`open(file_path, 'rb')` and `f.read()`, `generation.py` 1609-1610) is I/O outside the model: `PngText.ReadChunks` takes the chunks as given, so the entry a failed read stores is not modelled.
- The `Erreur lecture` entry (`generation.py` 1708-1709). Inside that block, `bytes.decode(..., errors='ignore')` never raises and the inner handlers catch the JSON keywords' exceptions, so the branch cannot be reached.
- All Qt widgets, layouts, style sheets, signals and the clipboard. The copy button is modelled as the decision only (`Steppers.Copy`).
- File-system and image I/O (`mkdir`, `img.save`, `QImageReader`, `open`), `datetime.now()`, `json.loads`, `zlib.decompress`, float formatting and `Styles.list().find`. Each is a function parameter.
- `MetadataFormatter.prepare_for_save` and `ImageTypeDetector.get_image_type`. Their module is not part of this model, so they are the `Helpers` parameter of `AutoSave.SaveJobImages`.
- Image bytes in the history store: only their sizes are tracked. `_HistoryResult` offsets, parameters and the in-use flag are not read.
- `_load`'s restoration of the document state (regions, control layers, workspaces). Only its history part is modelled.
- `_save` and `_serialize`. They write the document state, which is not part of the core.
- The tooltip body of `_job_info` beyond its title line: metadata lines wrapped by `wrap_text` and the seed line.
- Translations `_()`, taken as the identity on the English texts. `str.lower()` is approximated by ASCII lower-casing (`Text.AsciiLower`).
- `config.py` persistence (`export_config`, `import_config`, module-level load and save) is file I/O. `get_all_features` returns a copy and is the registry itself here. Python object aliasing between registry entries is not modelled.
- Exception texts are reduced to short names ("TypeError", "index out of range", the failing folder's path). Tracebacks and log lines are left out.
- PromptImport.FindTextPrompt: Python's recursion limit is modelled as a `fuel` bound, so a chain of more forwarding nodes than the fuel fails even where Python's stack would still suffice.
- Record.Payload: the length compared is the number of characters of the model's compact serialisation. Floats are written by an opaque formatter, so only lengths that do not depend on float text are proved.
- PanelMetadata.PanelText: states the empty-map case only; the lines themselves are stated by `PanelMetadata.PanelLines`.
- JobDisplay.Display: states when the text exists, while the section titles and order are stated by `JobDisplay.Sections`. The full text is not restated.
- HistoryList.RemoveItems: the clean-up pass is stated through `HistoryList.Cleanup` and `HistoryList.CleanupLeavesPair`. The selection reset and the apply-button update are UI.

## Findings

| source | as written | input that shows it | evidently intended | confidence | as-written member | corrected member |
|---|---|---|---|---|---|---|
| ai_diffusion/persistence.py:593-603 | When the full record exceeds 4000 characters, the essential record is written without measuring it again | A job whose cleaned prompt has 4000 characters: the essential record starts with the whole prompt | The payload never exceeds 4000 characters, as the comment "max 4KB" says | not executed | Record.LongPromptOverflows | Record.BoundedPayload |
| ai_diffusion/ui/generation.py:1721-1723 | The `iTXt` text is taken after the first NUL following the keyword's NUL. For an uncompressed chunk that NUL is the compression flag itself. | Chunk `k NUL 0 0 NUL NUL hi`: the decoded text is three NULs followed by `hi` | Skip the flag, method, language tag and translated keyword, and take only the text | not executed | PngText.InternationalAsWrittenExample | PngText.InternationalRoundTrip |

The operations of the model do what the code does:

- the savers (`AutoSave.RecordPayloads`, `AutoSave.ManagedPayloads`) write `Record.Payload`;
- the dialog's `iTXt` pass (`PngText.InternationalChunk`) reads with `PngText.InternationalTextAsWritten`.

`Record.BoundedPayload` and `PngText.InternationalText` are the corrected definitions, with their intended properties proved alongside.

=== FILE: autosave.dfy ===
/** Saving the images of a job, and of the whole history, to the
    auto-save folder: `<folder>/<document>/<category>/<file>.png`, each with
    its metadata payload. Every failing image is skipped and the count
    covers only the images whose save returned normally.

    Two implementations exist side by side: the one inside the document
    synchroniser (`_auto_save_images`, `_auto_save_images_from_history`),
    which builds the record itself, and `AutoSaveManager`, which takes the
    record from a helper it cannot see. */
module AutoSave {
  import opened Text
  import opened Json
  import opened Clock
  import opened Jobs
  import opened Naming
  import opened Record
  import Clean
  import Dict

  /** The settings the savers read. */
  datatype Settings = Settings(autoSave: bool, folder: string)

  /** The outside world. `mkdir(p)` is false when creating folder `p`
      raises; `save(img, p, payload)` is false when writing `img` to `p`
      raises; `now(k)` is the `k`-th reading of the clock. */
  datatype Io = Io(mkdir: string -> bool, save: (Image, string, string) -> bool, now: nat -> DateTime)

  /** One image the loop tried to write: where, with what payload (`None`
      when the payload could not be prepared and nothing was written), and
      whether the write returned normally. */
  datatype Attempt = Attempt(path: string, payload: Option<string>, saved: bool)

  /** How many attempts succeeded. */
  function Saved(atts: seq<Attempt>): (n: nat)
    ensures n <= |atts|
  {
    if atts == [] then 0
    else Saved(atts[..|atts| - 1]) + (if atts[|atts| - 1].saved then 1 else 0)
  }

  /** The count reaches the number of attempts exactly when every attempt
      succeeded, and is zero exactly when none did. */
  lemma {:induction false} SavedExtremes(atts: seq<Attempt>)
    ensures Saved(atts) == |atts| <==> forall k :: 0 <= k < |atts| ==> atts[k].saved
    ensures Saved(atts) == 0 <==> forall k :: 0 <= k < |atts| ==> !atts[k].saved
  {
    if atts != [] {
      var init := atts[..|atts| - 1];
      SavedExtremes(init);
      assert forall k :: 0 <= k < |init| ==> init[k] == atts[k];
    }
  }

  lemma {:induction false} SavedAppend(a: seq<Attempt>, b: seq<Attempt>)
    ensures Saved(a + b) == Saved(a) + Saved(b)
    decreases |b|
  {
    if b == [] {
      assert a + b == a;
    } else {
      assert (a + b)[..|a + b| - 1] == a + b[..|b| - 1];
      SavedAppend(a, b[..|b| - 1]);
    }
  }

  /** One more attempt adds one to the count exactly when it succeeded. */
  lemma {:induction false} SavedSnoc(atts: seq<Attempt>, a: Attempt)
    ensures Saved(atts + [a]) == Saved(atts) + (if a.saved then 1 else 0)
  {
    assert (atts + [a])[..|atts|] == atts;
  }

  /** The file name of image `i` of `job` at clock reading `t`. */
  function ImageFile(job: Job, t: DateTime, tag: string, i: nat): string {
    FileName(FilePrefix(job.params.name), FileStamp(t), tag, i)
  }

  /** The category folder name of a job. */
  function JobTag(job: Job): string {
    Label(CategoryOf(job.kind, job.params.strength))
  }

  /** The document folder: `<base>/<document stem or fallback>`. */
  function DocPath(s: Settings, docFile: string, fallback: string): string {
    s.folder + "/" + DocFolder(docFile, fallback)
  }

  /** Where image `i` goes when the clock reads tick `t`:
      `<folder>/<prefix>_<stamp>_<tag>_<i>.png`. */
  function PlaceIn(io: Io, folder: string, job: Job, tag: string): (nat, nat) -> string {
    (i: nat, t: nat) => folder + "/" + ImageFile(job, io.now(t), tag, i)
  }

  /** Image `i` of `job` written to `path` with payload `p`; `None` means
      the payload could not be prepared and nothing was written. */
  function AttemptAt(io: Io, job: Job, i: nat, path: string, p: Option<string>): (a: Attempt)
    requires i < |job.results|
    ensures a.path == path && a.payload == p
    ensures a.saved <==> p.Some? && io.save(job.results[i], path, p.value)
  {
    match p
    case None => Attempt(path, None, false)
    case Some(x) => Attempt(path, p, io.save(job.results[i], path, x))
  }

  /** The first `n` images of `job`: image `k` is placed with clock tick
      `tick + k` and written with payload `pay(k)`. */
  function Attempts(io: Io, job: Job, tick: nat, place: (nat, nat) -> string, pay: nat -> Option<string>, n: nat)
    : (r: seq<Attempt>)
    requires n <= |job.results|
    ensures |r| == n
  {
    if n == 0 then []
    else Attempts(io, job, tick, place, pay, n - 1) + [AttemptAt(io, job, n - 1, place(n - 1, tick + n - 1), pay(n - 1))]
  }

  /** Image `k` is attempted at its own place, with its own payload. */
  lemma {:induction false} AttemptsAt(io: Io, job: Job, tick: nat, place: (nat, nat) -> string, pay: nat -> Option<string>, n: nat, k: nat)
    requires k < n <= |job.results|
    ensures Attempts(io, job, tick, place, pay, n)[k] == AttemptAt(io, job, k, place(k, tick + k), pay(k))
  {
    if k < n - 1 {
      AttemptsAt(io, job, tick, place, pay, n - 1, k);
    }
  }

  /** One more image extends the attempts by that image's attempt. */
  lemma {:induction false} AttemptsSnoc(io: Io, job: Job, tick: nat, place: (nat, nat) -> string, pay: nat -> Option<string>, n: nat)
    requires n < |job.results|
    ensures Attempts(io, job, tick, place, pay, n + 1)
            == Attempts(io, job, tick, place, pay, n) + [AttemptAt(io, job, n, place(n, tick + n), pay(n))]
  {
  }

  /** The loop over one job's images: every image is attempted, whatever
      became of the ones before it, and the successes are counted. */
  method SaveImages(io: Io, job: Job, tick: nat, place: (nat, nat) -> string, pay: nat -> Option<string>)
    returns (atts: seq<Attempt>, saved: nat)
    ensures atts == Attempts(io, job, tick, place, pay, |job.results|)
    ensures |atts| == |job.results| && saved == Saved(atts) && saved <= |job.results|
  {
    atts := [];
    saved := 0;
    var i := 0;
    while i < |job.results|
      invariant 0 <= i <= |job.results|
      invariant atts == Attempts(io, job, tick, place, pay, i)
      invariant saved == Saved(atts)
    {
      var a := AttemptAt(io, job, i, place(i, tick + i), pay(i));
      AttemptsSnoc(io, job, tick, place, pay, i);
      SavedSnoc(atts, a);
      atts := atts + [a];
      if a.saved {
        saved := saved + 1;
      }
      i := i + 1;
    }
  }

  // ---------------------------------------------------------------------
  // The document synchroniser's saver.

  /** The payloads the synchroniser writes: the record of image `i`, or
      its essential part when the record is over 4000 characters. Building
      the record never fails. */
  function RecordPayloads(fmt: Fmt, job: Job, tag: string): nat -> Option<string> {
    (i: nat) => Some(Payload(BuildRecord(job, i, tag, fmt), fmt))
  }

  /** Each image the synchroniser attempts goes to its own file name, with
      the clock reading of its turn, and carries its own record. */
  lemma {:induction false} RecordAttemptAt(io: Io, fmt: Fmt, folder: string, job: Job, tag: string, tick: nat, k: nat)
    requires k < |job.results|
    ensures var a := Attempts(io, job, tick, PlaceIn(io, folder, job, tag), RecordPayloads(fmt, job, tag), |job.results|)[k];
            a.payload == Some(Payload(BuildRecord(job, k, tag, fmt), fmt))
            && a.path == folder + "/" + FileName(FilePrefix(job.params.name), FileStamp(io.now(tick + k)), tag, k)
  {
    AttemptsAt(io, job, tick, PlaceIn(io, folder, job, tag), RecordPayloads(fmt, job, tag), |job.results|, k);
  }

  /** `_auto_save_images(job)`, run after a finished job is stored when
      auto-saving is on: the three folders are created (a failure raises
      out of the function), then every image is attempted. */
  function SaveJob(io: Io, s: Settings, fmt: Fmt, docFile: string, job: Job, tick: nat)
    : (r: (Result<()>, seq<Attempt>))
    ensures r.0.Err? ==> r.1 == []
    ensures r.0.Ok? ==> |r.1| == |job.results|
  {
    var doc := DocPath(s, docFile, UnsavedFolderHistory);
    var tag := JobTag(job);
    var folder := doc + "/" + tag;
    if !io.mkdir(s.folder) then (Err(s.folder), [])
    else if !io.mkdir(doc) then (Err(doc), [])
    else if !io.mkdir(folder) then (Err(folder), [])
    else (Ok(()), Attempts(io, job, tick, PlaceIn(io, folder, job, tag), RecordPayloads(fmt, job, tag), |job.results|))
  }

  /** As written, every image of a job whose cleaned prompt has 4000
      characters or more is saved with a payload over 4000 characters. */
  lemma {:induction false} SaveJobOverflows(io: Io, s: Settings, fmt: Fmt, docFile: string, job: Job, tick: nat, k: nat)
    requires k < |job.results| && |Clean.CleanText(job.params.prompt)| >= PayloadCap
    requires SaveJob(io, s, fmt, docFile, job, tick).0.Ok?
    ensures var a := SaveJob(io, s, fmt, docFile, job, tick).1[k];
            a.payload.Some? && |a.payload.value| > PayloadCap
  {
    var tag := JobTag(job);
    var folder := DocPath(s, docFile, UnsavedFolderHistory) + "/" + tag;
    var atts := Attempts(io, job, tick, PlaceIn(io, folder, job, tag), RecordPayloads(fmt, job, tag), |job.results|);
    assert SaveJob(io, s, fmt, docFile, job, tick).1 == atts;
    RecordAttemptAt(io, fmt, folder, job, tag, tick, k);
    LongPromptOverflows(job, k, tag, fmt);
  }

  /** How a loop makes the payloads of a job's images under a category
      label. */
  type Maker = (Job, string) -> nat -> Option<string>

  /** The synchroniser's payloads, for every job. The history loop below
      is written for any maker; the history save hands it this one. */
  function Payloads(fmt: Fmt): Maker {
    (job: Job, tag: string) => RecordPayloads(fmt, job, tag)
  }

  /** The state of the history loop: whether an exception has escaped, the
      attempts so far and the next clock tick. */
  datatype Run = Run(failed: Option<string>, attempts: seq<Attempt>, tick: nat)

  /** The history save's treatment of one job: unfinished jobs and jobs
      without results are skipped; otherwise the category folder is
      created and every image attempted. */
  function HistoryStep(io: Io, pay: Maker, doc: string, run: Run, job: Job): Run {
    if run.failed.Some? || job.state != Finished || |job.results| == 0 then run
    else
      var tag := JobTag(job);
      var folder := doc + "/" + tag;
      if !io.mkdir(folder) then run.(failed := Some(folder))
      else Run(None, run.attempts + Attempts(io, job, run.tick, PlaceIn(io, folder, job, tag), pay(job, tag), |job.results|),
               run.tick + |job.results|)
  }

  function HistoryRun(io: Io, pay: Maker, doc: string, start: Run, jobs: seq<Job>): Run
    decreases |jobs|
  {
    if jobs == [] then start
    else HistoryStep(io, pay, doc, HistoryRun(io, pay, doc, start, jobs[..|jobs| - 1]), jobs[|jobs| - 1])
  }

  /** The images the history save attempts: those of the finished jobs. */
  function FinishedImages(jobs: seq<Job>): nat {
    if jobs == [] then 0
    else
      var j := jobs[|jobs| - 1];
      FinishedImages(jobs[..|jobs| - 1]) + (if j.state == Finished then |j.results| else 0)
  }

  /** `_auto_save_images_from_history`: 0 when auto-saving is off;
      otherwise the number of images of finished jobs whose save returned
      normally, or the folder whose creation raised. */
  function SaveHistory(io: Io, s: Settings, fmt: Fmt, docFile: string, jobs: seq<Job>, tick: nat)
    : (r: (Result<nat>, seq<Attempt>))
    ensures !s.autoSave ==> r == (Ok(0), [])
    ensures r.0.Ok? ==> r.0.value == Saved(r.1)
  {
    var doc := DocPath(s, docFile, UnsavedFolderHistory);
    if !s.autoSave then (Ok(0), [])
    else if !io.mkdir(s.folder) then (Err(s.folder), [])
    else if !io.mkdir(doc) then (Err(doc), [])
    else
      var run := HistoryRun(io, Payloads(fmt), doc, Run(None, [], tick), jobs);
      match run.failed
      case Some(f) => (Err(f), run.attempts)
      case None => (Ok(Saved(run.attempts)), run.attempts)
  }

  /** Without a failing folder, the history save attempts exactly the
      images of the finished jobs, so its count is at most their number. */
  lemma {:induction false} HistoryRunCount(io: Io, pay: Maker, doc: string, start: Run, jobs: seq<Job>)
    requires start.failed.None?
    ensures var run := HistoryRun(io, pay, doc, start, jobs);
            run.failed.None? ==> |run.attempts| == |start.attempts| + FinishedImages(jobs)
    decreases |jobs|
  {
    if jobs != [] {
      var prev := HistoryRun(io, pay, doc, start, jobs[..|jobs| - 1]);
      HistoryRunCount(io, pay, doc, start, jobs[..|jobs| - 1]);
      if prev.failed.Some? {
        HistoryRunStaysFailed(io, pay, doc, start, jobs);
      }
    }
  }

  /** Once a folder has failed, the loop has been left: nothing more is
      attempted. */
  lemma {:induction false} HistoryRunStaysFailed(io: Io, pay: Maker, doc: string, start: Run, jobs: seq<Job>)
    ensures var run := HistoryRun(io, pay, doc, start, jobs);
            start.failed.Some? ==> run == start
    ensures var run := HistoryRun(io, pay, doc, start, jobs);
            jobs != [] && HistoryRun(io, pay, doc, start, jobs[..|jobs| - 1]).failed.Some? ==>
              run == HistoryRun(io, pay, doc, start, jobs[..|jobs| - 1])
    decreases |jobs|
  {
    if jobs != [] {
      HistoryRunStaysFailed(io, pay, doc, start, jobs[..|jobs| - 1]);
    }
  }

  /** The history save's count never exceeds the number of images of the
      finished jobs. */
  lemma {:induction false} HistoryBound(io: Io, s: Settings, fmt: Fmt, docFile: string, jobs: seq<Job>, tick: nat)
    ensures var r := SaveHistory(io, s, fmt, docFile, jobs, tick);
            r.0.Ok? ==> r.0.value <= FinishedImages(jobs)
  {
    var doc := DocPath(s, docFile, UnsavedFolderHistory);
    HistoryRunCount(io, Payloads(fmt), doc, Run(None, [], tick), jobs);
  }

  /** A job that is not finished changes nothing in the history save. */
  lemma {:induction false} HistorySkipsUnfinished(io: Io, s: Settings, fmt: Fmt, docFile: string, jobs: seq<Job>, job: Job, tick: nat)
    requires job.state != Finished
    ensures SaveHistory(io, s, fmt, docFile, jobs + [job], tick) == SaveHistory(io, s, fmt, docFile, jobs, tick)
  {
    var doc := DocPath(s, docFile, UnsavedFolderHistory);
    assert (jobs + [job])[..|jobs + [job]| - 1] == jobs;
  }

  /** A job whose folder could be made adds its attempts to the run and
      advances the clock by one tick per image. */
  lemma {:induction false} HistoryStepSaves(io: Io, pay: Maker, doc: string, run: Run, job: Job, more: seq<Attempt>)
    requires run.failed.None? && job.state == Finished && |job.results| > 0
    requires io.mkdir(doc + "/" + JobTag(job))
    requires more == Attempts(io, job, run.tick, PlaceIn(io, doc + "/" + JobTag(job), job, JobTag(job)),
                              pay(job, JobTag(job)), |job.results|)
    ensures HistoryStep(io, pay, doc, run, job) == Run(None, run.attempts + more, run.tick + |job.results|)
  {
    var step := HistoryStep(io, pay, doc, run, job);
    assert step.failed == None;
    assert step.attempts == run.attempts + more;
    assert step.tick == run.tick + |job.results|;
  }

  method SaveHistoryJob(io: Io, pay: Maker, doc: string, run: Run, job: Job) returns (next: Run, n: nat)
    ensures next == HistoryStep(io, pay, doc, run, job)
    ensures next.failed.None? ==> Saved(next.attempts) == Saved(run.attempts) + n
  {
    if run.failed.Some? || job.state != Finished || |job.results| == 0 {
      return run, 0;
    }
    var tag := JobTag(job);
    var folder := doc + "/" + tag;
    if !io.mkdir(folder) {
      return run.(failed := Some(folder)), 0;
    }
    var more, saved := SaveImages(io, job, run.tick, PlaceIn(io, folder, job, tag), pay(job, tag));
    next := Run(None, run.attempts + more, run.tick + |job.results|);
    HistoryStepSaves(io, pay, doc, run, job, more);
    SavedAppend(run.attempts, more);
    n := saved;
  }

  /** The history loop: one pass over the jobs with an inner pass over
      each finished job's images, left as soon as a folder fails. */
  method HistoryLoop(io: Io, pay: Maker, doc: string, jobs: seq<Job>, tick: nat) returns (run: Run, total: nat)
    ensures run == HistoryRun(io, pay, doc, Run(None, [], tick), jobs)
    ensures run.failed.None? ==> total == Saved(run.attempts)
  {
    run := Run(None, [], tick);
    total := 0;
    var k := 0;
    while k < |jobs|
      invariant 0 <= k <= |jobs|
      invariant run == HistoryRun(io, pay, doc, Run(None, [], tick), jobs[..k])
      invariant run.failed.None? ==> total == Saved(run.attempts)
    {
      assert jobs[..k + 1][..k] == jobs[..k] && jobs[..k + 1][k] == jobs[k];
      var next, n := SaveHistoryJob(io, pay, doc, run, jobs[k]);
      if next.failed.None? {
        total := total + n;
      }
      run := next;
      k := k + 1;
    }
    assert jobs[..|jobs|] == jobs;
  }

  /** `_auto_save_images_from_history` as a method. */
  method SaveHistoryImages(io: Io, s: Settings, fmt: Fmt, docFile: string, jobs: seq<Job>, tick: nat)
    returns (r: Result<nat>, atts: seq<Attempt>)
    ensures (r, atts) == SaveHistory(io, s, fmt, docFile, jobs, tick)
  {
    if !s.autoSave {
      return Ok(0), [];
    }
    var doc := DocPath(s, docFile, UnsavedFolderHistory);
    if !io.mkdir(s.folder) {
      return Err(s.folder), [];
    }
    if !io.mkdir(doc) {
      return Err(doc), [];
    }
    var run, total := HistoryLoop(io, Payloads(fmt), doc, jobs, tick);
    match run.failed
    case Some(f) =>
      return Err(f), run.attempts;
    case None =>
      return Ok(total), run.attempts;
  }

  // ---------------------------------------------------------------------
  // AutoSaveManager.

  /** The helpers `AutoSaveManager` calls from a module that is not part of
      this model: the record for image `i` of a job under a category label
      (or the exception it raises), and the category label of a job. */
  datatype Helpers = Helpers(prepare: (Job, nat, string) -> Result<Dict.Dict<string, Json>>,
                             imageType: Job -> Result<string>)

  /** The payloads under `AutoSaveManager`: the helper's record, or its
      essential part when the record is over 4000 characters, or nothing
      when the helper raises. The clock has already been read for that
      image. */
  function ManagedPayloads(h: Helpers, fmt: Fmt, job: Job, tag: string): nat -> Option<string> {
    (i: nat) => match h.prepare(job, i, tag)
         case Err(_) => None
         case Ok(all) => Some(Payload(all, fmt))
  }

  /** The outcome of `save_job_images` for one job: the count or the
      exception, the attempts, and the next clock tick. */
  datatype JobOutcome = JobOutcome(result: Result<nat>, attempts: seq<Attempt>, tick: nat)

  /** `save_job_images`: 0 without touching anything when auto-saving is
      off or the job has no results; an exception from a folder or from
      the category helper escapes; otherwise every image is attempted, one
      clock reading each, and the successful saves are counted. */
  function SaveJobImages(io: Io, s: Settings, h: Helpers, fmt: Fmt, docFile: string, job: Job, tick: nat)
    : (o: JobOutcome)
    ensures !s.autoSave || |job.results| == 0 ==> o == JobOutcome(Ok(0), [], tick)
    ensures o.result.Err? ==> o.attempts == [] && o.tick == tick
    ensures o.result.Ok? ==> o.result.value == Saved(o.attempts) <= |job.results|
    ensures o.result.Ok? && s.autoSave ==> |o.attempts| == |job.results|
    ensures o.tick == tick + |o.attempts|
  {
    var doc := DocPath(s, docFile, UnsavedFolder);
    if !s.autoSave || |job.results| == 0 then JobOutcome(Ok(0), [], tick)
    else if !io.mkdir(s.folder) then JobOutcome(Err(s.folder), [], tick)
    else if !io.mkdir(doc) then JobOutcome(Err(doc), [], tick)
    else match h.imageType(job)
      case Err(e) => JobOutcome(Err(e), [], tick)
      case Ok(tag) =>
        var folder := doc + "/" + tag;
        if !io.mkdir(folder) then JobOutcome(Err(folder), [], tick)
        else
          var atts := Attempts(io, job, tick, PlaceIn(io, folder, job, tag), ManagedPayloads(h, fmt, job, tag), |job.results|);
          JobOutcome(Ok(Saved(atts)), atts, tick + |job.results|)
  }

  /** `save_job_images` as a method. */
  method SaveJobImagesLoop(io: Io, s: Settings, h: Helpers, fmt: Fmt, docFile: string, job: Job, tick: nat)
    returns (o: JobOutcome)
    ensures o == SaveJobImages(io, s, h, fmt, docFile, job, tick)
  {
    if !s.autoSave || |job.results| == 0 {
      return JobOutcome(Ok(0), [], tick);
    }
    var doc := DocPath(s, docFile, UnsavedFolder);
    if !io.mkdir(s.folder) {
      return JobOutcome(Err(s.folder), [], tick);
    }
    if !io.mkdir(doc) {
      return JobOutcome(Err(doc), [], tick);
    }
    var t := h.imageType(job);
    if t.Err? {
      return JobOutcome(Err(t.msg), [], tick);
    }
    var folder := doc + "/" + t.value;
    if !io.mkdir(folder) {
      return JobOutcome(Err(folder), [], tick);
    }
    var atts, n := SaveImages(io, job, tick, PlaceIn(io, folder, job, t.value), ManagedPayloads(h, fmt, job, t.value));
    return JobOutcome(Ok(n), atts, tick + |job.results|);
  }

  /** The jobs `save_all_history_images` hands to `save_job_images`: those
      with results whose kind produces images. Their state is not looked
      at. */
  predicate Selected(job: Job) {
    |job.results| > 0 && HasImages(job.kind)
  }

  /** The running total over the history: a job whose save raises adds
      nothing, and the loop goes on. */
  datatype Tally = Tally(total: nat, attempts: seq<Attempt>, tick: nat)

  function ManagedRun(io: Io, s: Settings, h: Helpers, fmt: Fmt, docFile: string, start: Tally, jobs: seq<Job>): Tally
    decreases |jobs|
  {
    if jobs == [] then start
    else
      var prev := ManagedRun(io, s, h, fmt, docFile, start, jobs[..|jobs| - 1]);
      var job := jobs[|jobs| - 1];
      if !Selected(job) then prev
      else
        var o := SaveJobImages(io, s, h, fmt, docFile, job, prev.tick);
        Tally(prev.total + (if o.result.Ok? then o.result.value else 0), prev.attempts + o.attempts, o.tick)
  }

  /** `save_all_history_images`: 0 when auto-saving is off; an exception
      from the two top folders escapes; otherwise the sum of the per-job
      counts. */
  function SaveAllHistory(io: Io, s: Settings, h: Helpers, fmt: Fmt, docFile: string, jobs: seq<Job>, tick: nat)
    : (r: (Result<nat>, seq<Attempt>))
    ensures !s.autoSave ==> r == (Ok(0), [])
    ensures s.autoSave && !io.mkdir(s.folder) ==> r == (Err(s.folder), [])
    ensures s.autoSave && io.mkdir(s.folder) && !io.mkdir(DocPath(s, docFile, UnsavedFolder)) ==>
              r == (Err(DocPath(s, docFile, UnsavedFolder)), [])
    ensures r.0.Ok? ==> r.0.value == Saved(r.1) <= SelectedImages(jobs)
  {
    var doc := DocPath(s, docFile, UnsavedFolder);
    if !s.autoSave then (Ok(0), [])
    else if !io.mkdir(s.folder) then (Err(s.folder), [])
    else if !io.mkdir(doc) then (Err(doc), [])
    else
      var t := ManagedRun(io, s, h, fmt, docFile, Tally(0, [], tick), jobs);
      ManagedRunCounts(io, s, h, fmt, docFile, Tally(0, [], tick), jobs);
      (Ok(t.total), t.attempts)
  }

  /** The images `save_all_history_images` may attempt. */
  function SelectedImages(jobs: seq<Job>): nat {
    if jobs == [] then 0
    else
      var j := jobs[|jobs| - 1];
      SelectedImages(jobs[..|jobs| - 1]) + (if Selected(j) then |j.results| else 0)
  }

  /** The history total counts exactly the successful attempts, never more
      than the images of the selected jobs, and the clock advances once
      per attempt. */
  lemma {:induction false} ManagedRunCounts(io: Io, s: Settings, h: Helpers, fmt: Fmt, docFile: string, start: Tally, jobs: seq<Job>)
    requires start.total == Saved(start.attempts)
    ensures var t := ManagedRun(io, s, h, fmt, docFile, start, jobs);
            t.total == Saved(t.attempts)
            && |t.attempts| <= |start.attempts| + SelectedImages(jobs)
            && t.tick == start.tick + |t.attempts| - |start.attempts|
    decreases |jobs|
  {
    if jobs != [] {
      var prev := ManagedRun(io, s, h, fmt, docFile, start, jobs[..|jobs| - 1]);
      ManagedRunCounts(io, s, h, fmt, docFile, start, jobs[..|jobs| - 1]);
      var job := jobs[|jobs| - 1];
      if Selected(job) {
        var o := SaveJobImages(io, s, h, fmt, docFile, job, prev.tick);
        SavedAppend(prev.attempts, o.attempts);
      }
    }
  }

  /** The result of `save_all_history_images` is at most the number of
      images of the selected jobs. */
  lemma {:induction false} SaveAllBound(io: Io, s: Settings, h: Helpers, fmt: Fmt, docFile: string, jobs: seq<Job>, tick: nat)
    ensures var r := SaveAllHistory(io, s, h, fmt, docFile, jobs, tick);
            r.0.Ok? ==> r.0.value == Saved(r.1) <= SelectedImages(jobs)
  {
    ManagedRunCounts(io, s, h, fmt, docFile, Tally(0, [], tick), jobs);
  }

  /** A job whose save raises is skipped: when `job`'s save raises at the
      tick it is reached, the run over `jobs + [job]` is the run over `jobs`,
      total, attempts and clock alike, and the loop goes on from there. */
  lemma {:induction false} FailingJobSkipped(io: Io, s: Settings, h: Helpers, fmt: Fmt, docFile: string, start: Tally, jobs: seq<Job>, job: Job)
    requires SaveJobImages(io, s, h, fmt, docFile, job, ManagedRun(io, s, h, fmt, docFile, start, jobs).tick).result.Err?
    ensures ManagedRun(io, s, h, fmt, docFile, start, jobs + [job]) == ManagedRun(io, s, h, fmt, docFile, start, jobs)
  {
    assert (jobs + [job])[..|jobs + [job]| - 1] == jobs;
    var prev := ManagedRun(io, s, h, fmt, docFile, start, jobs);
    assert prev.attempts + [] == prev.attempts;
  }

  /** A job without results, or of a kind that produces no images, is
      passed over: the run after it is the run before it. */
  lemma {:induction false} UnselectedJobSkipped(io: Io, s: Settings, h: Helpers, fmt: Fmt, docFile: string, start: Tally, jobs: seq<Job>, job: Job)
    requires !Selected(job)
    ensures ManagedRun(io, s, h, fmt, docFile, start, jobs + [job]) == ManagedRun(io, s, h, fmt, docFile, start, jobs)
  {
    assert (jobs + [job])[..|jobs + [job]| - 1] == jobs;
  }

  /** A selected job, whatever its state, is saved: its attempts are
      appended, the clock moves to where its save left it, and its count is
      added to the total; a save that raises adds no count. */
  lemma {:induction false} SelectedJobSaved(io: Io, s: Settings, h: Helpers, fmt: Fmt, docFile: string, start: Tally, jobs: seq<Job>, job: Job)
    requires Selected(job)
    ensures var prev := ManagedRun(io, s, h, fmt, docFile, start, jobs);
            var o := SaveJobImages(io, s, h, fmt, docFile, job, prev.tick);
            var t := ManagedRun(io, s, h, fmt, docFile, start, jobs + [job]);
            && t.attempts == prev.attempts + o.attempts
            && t.tick == o.tick
            && (o.result.Ok? ==> t.total == prev.total + o.result.value)
            && (o.result.Err? ==> t.total == prev.total)
  {
    assert (jobs + [job])[..|jobs + [job]| - 1] == jobs;
  }

  /** The helpers give the same answers for `job` as for the same job
      marked finished. */
  ghost predicate StateBlind(h: Helpers, job: Job) {
    && h.imageType(job) == h.imageType(job.(state := Finished))
    && forall i: nat, tag: string :: h.prepare(job, i, tag) == h.prepare(job.(state := Finished), i, tag)
  }

  /** `save_all_history_images` does not look at a job's state: with
      helpers that do not look at it either, an unfinished job is saved
      exactly like the same job finished, total, attempts and clock alike. */
  lemma {:induction false} UnfinishedJobSaved(io: Io, s: Settings, h: Helpers, fmt: Fmt, docFile: string, start: Tally, jobs: seq<Job>, job: Job)
    requires job.state == Unfinished && StateBlind(h, job)
    ensures ManagedRun(io, s, h, fmt, docFile, start, jobs + [job])
            == ManagedRun(io, s, h, fmt, docFile, start, jobs + [job.(state := Finished)])
  {
    var fin := job.(state := Finished);
    assert (jobs + [job])[..|jobs + [job]| - 1] == jobs;
    assert (jobs + [fin])[..|jobs + [fin]| - 1] == jobs;
    var prev := ManagedRun(io, s, h, fmt, docFile, start, jobs);
    SaveJobImagesBlind(io, s, h, fmt, docFile, job, prev.tick);
  }

  /** One job's save does not depend on its state when the helpers do not. */
  lemma {:induction false} SaveJobImagesBlind(io: Io, s: Settings, h: Helpers, fmt: Fmt, docFile: string, job: Job, tick: nat)
    requires StateBlind(h, job)
    ensures SaveJobImages(io, s, h, fmt, docFile, job, tick) == SaveJobImages(io, s, h, fmt, docFile, job.(state := Finished), tick)
  {
    var fin := job.(state := Finished);
    var doc := DocPath(s, docFile, UnsavedFolder);
    if s.autoSave && |job.results| > 0 && io.mkdir(s.folder) && io.mkdir(doc) && h.imageType(job).Ok? {
      var tag := h.imageType(job).value;
      var folder := doc + "/" + tag;
      var pay, pay' := ManagedPayloads(h, fmt, job, tag), ManagedPayloads(h, fmt, fin, tag);
      forall k: nat ensures pay(k) == pay'(k) {
        assert h.prepare(job, k, tag) == h.prepare(fin, k, tag);
      }
      var place, place' := PlaceIn(io, folder, job, tag), PlaceIn(io, folder, fin, tag);
      forall k: nat, t: nat ensures place(k, t) == place'(k, t) {
        assert ImageFile(job, io.now(t), tag, k) == ImageFile(fin, io.now(t), tag, k);
      }
      AttemptsBlind(io, job, fin, tick, place, place', pay, pay', |job.results|);
    }
  }

  /** Two jobs with the same results, placed and prepared alike, give the
      same attempts. */
  lemma {:induction false} AttemptsBlind(io: Io, job: Job, job': Job, tick: nat, place: (nat, nat) -> string, place': (nat, nat) -> string,
                                         pay: nat -> Option<string>, pay': nat -> Option<string>, n: nat)
    requires n <= |job.results| && job.results == job'.results
    requires forall k: nat, t: nat :: place(k, t) == place'(k, t)
    requires forall k: nat :: pay(k) == pay'(k)
    ensures Attempts(io, job, tick, place, pay, n) == Attempts(io, job', tick, place', pay', n)
  {
    if n > 0 {
      AttemptsBlind(io, job, job', tick, place, place', pay, pay', n - 1);
      assert place(n - 1, tick + n - 1) == place'(n - 1, tick + n - 1);
      assert pay(n - 1) == pay'(n - 1);
    }
  }

  /** Every selected job's save returns, at whatever clock reading it is
      reached. */
  ghost predicate AllSave(io: Io, s: Settings, h: Helpers, fmt: Fmt, docFile: string, jobs: seq<Job>) {
    forall k, t: nat :: 0 <= k < |jobs| && Selected(jobs[k]) ==> SaveJobImages(io, s, h, fmt, docFile, jobs[k], t).result.Ok?
  }

  /** When auto-saving is on and no job's save raises, every image of every
      selected job is attempted, finished or not, one clock reading each,
      after the attempts already made. */
  lemma {:induction false} ManagedRunExact(io: Io, s: Settings, h: Helpers, fmt: Fmt, docFile: string, start: Tally, jobs: seq<Job>)
    requires s.autoSave && AllSave(io, s, h, fmt, docFile, jobs)
    ensures var t := ManagedRun(io, s, h, fmt, docFile, start, jobs);
            && |t.attempts| == |start.attempts| + SelectedImages(jobs)
            && t.attempts[..|start.attempts|] == start.attempts
            && t.tick == start.tick + SelectedImages(jobs)
    decreases |jobs|
  {
    if jobs != [] {
      var init := jobs[..|jobs| - 1];
      assert AllSave(io, s, h, fmt, docFile, init) by {
        forall k, t: nat | 0 <= k < |init| && Selected(init[k])
          ensures SaveJobImages(io, s, h, fmt, docFile, init[k], t).result.Ok?
        {
          assert init[k] == jobs[k];
        }
      }
      ManagedRunExact(io, s, h, fmt, docFile, start, init);
      var prev := ManagedRun(io, s, h, fmt, docFile, start, init);
      var job := jobs[|jobs| - 1];
      if Selected(job) {
        var o := SaveJobImages(io, s, h, fmt, docFile, job, prev.tick);
        assert o.result.Ok?;
        assert (prev.attempts + o.attempts)[..|start.attempts|] == prev.attempts[..|start.attempts|];
      }
    }
  }

  /** With both top folders made and no job's save raising, the bulk save
      returns the number of successful writes among exactly the selected
      jobs' images. */
  lemma {:induction false} SaveAllExact(io: Io, s: Settings, h: Helpers, fmt: Fmt, docFile: string, jobs: seq<Job>, tick: nat)
    requires s.autoSave && io.mkdir(s.folder) && io.mkdir(DocPath(s, docFile, UnsavedFolder))
    requires AllSave(io, s, h, fmt, docFile, jobs)
    ensures var r := SaveAllHistory(io, s, h, fmt, docFile, jobs, tick);
            r.0.Ok? && r.0.value == Saved(r.1) && |r.1| == SelectedImages(jobs)
  {
    ManagedRunExact(io, s, h, fmt, docFile, Tally(0, [], tick), jobs);
  }
}

=== FILE: clean.dfy ===
/** `_clean_metadata_value`: the sanitiser applied to every text value
    before it is written into the image metadata. */
module Clean {
  import opened Text
  import opened Json

  /** The characters the two removal patterns delete: the C0 controls other
      than tab, line feed and carriage return, DEL, and the replacement and
      non-characters U+FFFD, U+FFFE, U+FFFF. */
  predicate IsJunk(c: char) {
    var n := c as int;
    (0x00 <= n <= 0x08) || n == 0x0B || n == 0x0C || (0x0E <= n <= 0x1F)
    || n == 0x7F || n == 0xFFFD || n == 0xFFFE || n == 0xFFFF
  }

  predicate JunkFree(s: string) {
    forall i :: 0 <= i < |s| ==> !IsJunk(s[i])
  }

  /** Both `re.sub` passes: every junk character removed, the others kept in
      order. */
  function RemoveJunk(s: string): (r: string)
    ensures JunkFree(r)
    ensures JunkFree(s) ==> r == s
  {
    if s == [] then []
    else (if IsJunk(s[0]) then [] else [s[0]]) + RemoveJunk(s[1..])
  }

  /** Removal works piece by piece: the result for `a + b` is the result
      for `a` followed by the result for `b`. With `RemoveJunkOne` this
      makes it the order-preserving filter of the characters that are not
      junk. */
  lemma {:induction false} RemoveJunkAppend(a: string, b: string)
    ensures RemoveJunk(a + b) == RemoveJunk(a) + RemoveJunk(b)
    decreases |a|
  {
    if a != [] {
      var head := if IsJunk(a[0]) then [] else [a[0]];
      assert (a + b)[0] == a[0] && (a + b)[1..] == a[1..] + b;
      assert RemoveJunk(a + b) == head + RemoveJunk(a[1..] + b);
      RemoveJunkAppend(a[1..], b);
      assert RemoveJunk(a) == head + RemoveJunk(a[1..]);
    } else {
      assert a + b == b;
    }
  }

  /** A single character is dropped exactly when it is junk. */
  lemma {:induction false} RemoveJunkOne(c: char)
    ensures RemoveJunk([c]) == if IsJunk(c) then [] else [c]
  {
    assert [c][1..] == [];
  }

  /** Removal keeps every other character as often as it occurs, and drops
      every junk character. */
  lemma {:induction false} RemoveJunkCounts(s: string)
    ensures forall c :: !IsJunk(c) ==> multiset(RemoveJunk(s))[c] == multiset(s)[c]
    ensures forall c :: IsJunk(c) ==> multiset(RemoveJunk(s))[c] == 0
  {
    if s != [] {
      RemoveJunkCounts(s[1..]);
      assert s == [s[0]] + s[1..];
    }
  }

  /** `_clean_metadata_value` of a text value. */
  function CleanText(s: string): (r: string)
    ensures JunkFree(r)
    ensures Trimmed(r)
    ensures exists i, j :: 0 <= i <= j <= |RemoveJunk(s)| && r == RemoveJunk(s)[i..j]
                           && AllSpace(RemoveJunk(s)[..i]) && AllSpace(RemoveJunk(s)[j..])
  {
    var t := RemoveJunk(s);
    StripSpec(t);
    StripKeepsJunkFree(t);
    Strip(t)
  }

  lemma {:induction false} StripKeepsJunkFree(t: string)
    requires JunkFree(t)
    ensures JunkFree(Strip(t))
  {
    var i := LeadingSpace(t);
    var l := t[i..];
    assert Strip(t) == t[i..|t| - TrailingSpace(l)];
  }

  /** `_clean_metadata_value(v)` of any value, which first takes `str(v)`. */
  function CleanValue(v: Json, fmt: Fmt): (r: string)
    ensures JunkFree(r) && Trimmed(r)
    ensures v.JStr? ==> r == CleanText(v.s)
  {
    CleanText(PyStr(v, fmt))
  }

  /** Cleaning an already cleaned value changes nothing. */
  lemma {:induction false} CleanIdempotent(s: string)
    ensures CleanText(CleanText(s)) == CleanText(s)
  {
    var c := CleanText(s);
    assert RemoveJunk(c) == c;
    StripTrimmed(c);
  }

  /** A value that holds no junk and no surrounding whitespace is left as is. */
  lemma {:induction false} CleanKeepsCleanText(s: string)
    requires JunkFree(s) && Trimmed(s)
    ensures CleanText(s) == s
  {
    StripTrimmed(s);
  }
}

=== FILE: clock.dfy ===
/** Calendar timestamps and the `strftime` patterns the metadata code uses.
    The clock itself (`datetime.now()`) is not modelled: readings are
    passed in. */
module Clock {
  import opened Text

  datatype DateTime = DateTime(year: nat, month: nat, day: nat,
                               hour: nat, minute: nat, second: nat, micro: nat)

  /** A number written with at least `width` digits, zero-filled on the left
      (the `%Y`, `%m`, `%d`, `%H`, `%M`, `%S`, `%f` directives). */
  function Pad(n: nat, width: nat): (r: string)
    ensures |r| >= width
    ensures AllDigits(r)
  {
    var s := NatToString(n);
    NatToStringDigits(n);
    if |s| >= width then s else Zeros(width - |s|) + s
  }

  function Zeros(k: nat): (r: string)
    ensures |r| == k && AllDigits(r)
  {
    if k == 0 then "" else "0" + Zeros(k - 1)
  }

  /** `strftime('%Y-%m-%d %H:%M:%S')`, the record's timestamp. */
  function RecordStamp(t: DateTime): string {
    Pad(t.year, 4) + "-" + Pad(t.month, 2) + "-" + Pad(t.day, 2) + " "
    + Pad(t.hour, 2) + ":" + Pad(t.minute, 2) + ":" + Pad(t.second, 2)
  }

  /** `strftime('%d/%m/%Y at %H:%M')`, the display timestamp. */
  function DisplayStamp(t: DateTime): string {
    Pad(t.day, 2) + "/" + Pad(t.month, 2) + "/" + Pad(t.year, 4) + " at "
    + Pad(t.hour, 2) + ":" + Pad(t.minute, 2)
  }

  /** `strftime('%Y%m%d-%H%M%S-%f')[:-3]`, the file-name timestamp with
      milliseconds: the six microsecond digits lose their last three. */
  function FileStamp(t: DateTime): (r: string)
    ensures |r| >= 19
  {
    var full := Pad(t.year, 4) + Pad(t.month, 2) + Pad(t.day, 2) + "-"
                + Pad(t.hour, 2) + Pad(t.minute, 2) + Pad(t.second, 2) + "-"
                + Pad(t.micro, 6);
    full[..|full| - 3]
  }

  /** Chopping the last three of the six `%f` digits leaves the
      milliseconds: the file stamp is the date, the time and a three-digit
      millisecond count. */
  lemma {:induction false} FileStampMillis(t: DateTime)
    requires t.micro < 1000000
    ensures FileStamp(t) == Pad(t.year, 4) + Pad(t.month, 2) + Pad(t.day, 2) + "-"
                            + Pad(t.hour, 2) + Pad(t.minute, 2) + Pad(t.second, 2) + "-"
                            + Pad(t.micro / 1000, 3)
  {
    var prefix := Pad(t.year, 4) + Pad(t.month, 2) + Pad(t.day, 2) + "-"
                  + Pad(t.hour, 2) + Pad(t.minute, 2) + Pad(t.second, 2) + "-";
    var millis := Pad(t.micro / 1000, 3);
    var tail := MicroSplit(t.micro);
    var full := prefix + Pad(t.micro, 6);
    assert full == (prefix + millis) + tail;
    assert full[..|full| - 3] == prefix + millis;
  }

  /** The six `%f` digits are the three millisecond digits and three more. */
  lemma {:induction false} MicroSplit(m: nat) returns (tail: string)
    requires m < 1000000
    ensures |tail| == 3 && Pad(m, 6) == Pad(m / 1000, 3) + tail
  {
    assert Pow10(4) == 10000 && Pow10(5) == 100000 && Pow10(6) == 1000000 by {
      assert Pow10(1) == 10 && Pow10(2) == 100 && Pow10(3) == 1000;
    }
    var a := m / 10;
    var b := a / 10;
    var c := b / 10;
    PadStep(m, 6);
    PadStep(a, 5);
    PadStep(b, 4);
    ThousandthByTenths(m);
    tail := [DigitChar(b % 10), DigitChar(a % 10), DigitChar(m % 10)];
  }

  lemma {:induction false} ThousandthByTenths(m: nat)
    ensures m / 10 / 10 / 10 == m / 1000
  {
    var a := m / 10;
    var b := a / 10;
    var c := b / 10;
    assert m == 10 * a + m % 10;
    assert a == 10 * b + a % 10;
    assert b == 10 * c + b % 10;
    assert m == 1000 * c + (100 * (b % 10) + 10 * (a % 10) + m % 10);
  }

  /** Readings that differ only below the millisecond give the same file
      stamp, so the stamp alone does not tell apart images saved within one
      millisecond. */
  lemma {:induction false} FileStampSameMillisecond(t: DateTime, u: DateTime)
    requires t.micro < 1000000 && u.micro < 1000000
    requires u == t.(micro := u.micro) && t.micro / 1000 == u.micro / 1000
    ensures FileStamp(t) == FileStamp(u)
  {
    FileStampMillis(t);
    FileStampMillis(u);
  }

  /** A reading whose fields fit their directives' widths. */
  predicate WellFormed(t: DateTime) {
    t.year < 10000 && t.month < 100 && t.day < 100 && t.hour < 100
    && t.minute < 100 && t.second < 100 && t.micro < 1000000
  }

  /** The file stamp of a well-formed reading has the fixed shape
      `YYYYmmdd-HHMMSS-mmm`: nineteen characters. */
  lemma {:induction false} FileStampLength(t: DateTime)
    requires WellFormed(t)
    ensures |FileStamp(t)| == 19
  {
    assert Pow10(4) == 10000 && Pow10(6) == 1000000 by {
      assert Pow10(2) == 100;
    }
    PadWidth(t.year, 4);
    PadWidth(t.month, 2);
    PadWidth(t.day, 2);
    PadWidth(t.hour, 2);
    PadWidth(t.minute, 2);
    PadWidth(t.second, 2);
    PadWidth(t.micro, 6);
  }

  lemma {:induction false} PadWidth(n: nat, w: nat)
    requires w >= 1 && n < Pow10(w)
    ensures |Pad(n, w)| == w
  {
    NatToStringLength(n, w);
  }

  function Pow10(w: nat): (r: nat)
    ensures r >= 1
  {
    if w == 0 then 1 else 10 * Pow10(w - 1)
  }

  lemma {:induction false} NatToStringLength(m: nat, w: nat)
    requires w >= 1 && m < Pow10(w)
    ensures |NatToString(m)| <= w
    decreases w
  {
    if m >= 10 {
      assert w >= 2;
      assert m / 10 < Pow10(w - 1);
      NatToStringLength(m / 10, w - 1);
    }
  }

  /** A number no wider than the field is padded on the left with zeros. */
  lemma {:induction false} PadAsZeros(m: nat, w: nat)
    requires |NatToString(m)| <= w
    ensures Pad(m, w) == Zeros(w - |NatToString(m)|) + NatToString(m)
  {
    if |NatToString(m)| == w {
      assert Zeros(0) == "";
    }
  }

  /** Zero-padding peels off one digit at a time. */
  lemma {:induction false} PadStep(m: nat, w: nat)
    requires w >= 2 && m < Pow10(w)
    ensures Pad(m, w) == Pad(m / 10, w - 1) + [DigitChar(m % 10)]
  {
    NatToStringLength(m, w);
    if m >= 10 {
      PadMulti(m, w);
    } else {
      PadSingle(m, w);
    }
  }

  lemma {:induction false} PadMulti(m: nat, w: nat)
    requires m >= 10 && |NatToString(m)| <= w
    ensures Pad(m, w) == Pad(m / 10, w - 1) + [DigitChar(m % 10)]
  {
    var s' := NatToString(m / 10);
    var d := [DigitChar(m % 10)];
    assert NatToString(m) == s' + d;
    PadAsZeros(m, w);
    PadAsZeros(m / 10, w - 1);
    ZerosThenSnoc(s', d, w);
  }

  /** Padding a string one character longer takes one zero fewer. */
  lemma {:induction false} ZerosThenSnoc(s: string, d: string, w: nat)
    requires |d| == 1 && |s| + 1 <= w
    ensures Zeros(w - |s + d|) + (s + d) == (Zeros(w - 1 - |s|) + s) + d
  {
  }

  lemma {:induction false} PadSingle(m: nat, w: nat)
    requires w >= 2 && m < 10
    ensures Pad(m, w) == Pad(0, w - 1) + [DigitChar(m)]
  {
    assert NatToString(m) == [DigitChar(m)];
    assert NatToString(0) == "0";
    PadAsZeros(m, w);
    PadAsZeros(0, w - 1);
    ZerosSnoc(w - 1);
  }

  lemma {:induction false} ZerosSnoc(k: nat)
    requires k >= 1
    ensures Zeros(k) == Zeros(k - 1) + "0"
  {
    if k > 1 {
      ZerosSnoc(k - 1);
    }
  }
}

=== FILE: dict.dfy ===
/** Python's insertion-ordered `dict` with keys of any type, as a sequence of
    key/value pairs. Assigning to a present key keeps its position; assigning
    to a new key appends it; `del` removes it. */
module Dict {
  import opened Text

  type Dict<K(==,!new), V> = seq<(K, V)>

  /** The keys in iteration order. */
  function Keys<K(==,!new), V>(d: Dict<K, V>): (ks: seq<K>)
    ensures |ks| == |d|
    ensures forall i :: 0 <= i < |d| ==> ks[i] == d[i].0
  {
    if d == [] then [] else [d[0].0] + Keys(d[1..])
  }

  /** The values in iteration order. */
  function Values<K(==,!new), V>(d: Dict<K, V>): (vs: seq<V>)
    ensures |vs| == |d|
    ensures forall i :: 0 <= i < |d| ==> vs[i] == d[i].1
  {
    if d == [] then [] else [d[0].1] + Values(d[1..])
  }

  predicate HasKey<K(==,!new), V>(d: Dict<K, V>, k: K) {
    exists i :: 0 <= i < |d| && d[i].0 == k
  }

  /** No key occurs twice, which every Python dict guarantees. */
  predicate UniqueKeys<K(==,!new), V>(d: Dict<K, V>) {
    forall i, j :: 0 <= i < j < |d| ==> d[i].0 != d[j].0
  }

  /** The position of `k`, if present (its first position). */
  function IndexOf<K(==,!new), V>(d: Dict<K, V>, k: K): (r: Option<nat>)
    ensures r.Some? ==> r.value < |d| && d[r.value].0 == k
    ensures r.Some? ==> forall j :: 0 <= j < r.value ==> d[j].0 != k
    ensures r.None? ==> forall j :: 0 <= j < |d| ==> d[j].0 != k
  {
    if d == [] then None
    else if d[0].0 == k then Some(0)
    else match IndexOf(d[1..], k)
      case None => None
      case Some(i) => Some(i + 1)
  }

  /** `IndexOf` is pinned down by its postconditions. */
  lemma {:induction false} IndexOfIs<K(!new), V>(d: Dict<K, V>, k: K, i: Option<nat>)
    requires i.Some? ==> i.value < |d| && d[i.value].0 == k
    requires i.Some? ==> forall j :: 0 <= j < i.value ==> d[j].0 != k
    requires i.None? ==> forall j :: 0 <= j < |d| ==> d[j].0 != k
    ensures IndexOf(d, k) == i
  {
  }

  /** `d.get(k)`. */
  function Get<K(==,!new), V>(d: Dict<K, V>, k: K): (r: Option<V>)
    ensures r.None? <==> !HasKey(d, k)
    ensures r.Some? ==> exists i :: 0 <= i < |d| && d[i] == (k, r.value)
  {
    match IndexOf(d, k)
    case None => None
    case Some(i) => Some(d[i].1)
  }

  /** `d.get(k, default)`. */
  function GetOr<K(==,!new), V>(d: Dict<K, V>, k: K, default: V): V {
    match Get(d, k)
    case Some(v) => v
    case None => default
  }

  /** `d[k] = v`: `k` then maps to `v`, every other key keeps its value, and
      the key order changes only by appending a new key. */
  function Set<K(==,!new), V>(d: Dict<K, V>, k: K, v: V): (r: Dict<K, V>)
    ensures Get(r, k) == Some(v)
    ensures forall k' :: k' != k ==> Get(r, k') == Get(d, k')
    ensures HasKey(d, k) ==> Keys(r) == Keys(d)
    ensures !HasKey(d, k) ==> Keys(r) == Keys(d) + [k]
    ensures UniqueKeys(d) ==> UniqueKeys(r)
    ensures forall i :: 0 <= i < |r| ==> r[i] == (k, v) || r[i] in d
  {
    match IndexOf(d, k)
    case Some(i) =>
      SetAtGet(d, k, v, i);
      SetAtShape(d, k, v, i, d[i := (k, v)]);
      d[i := (k, v)]
    case None =>
      SetNewGet(d, k, v);
      SetNewShape(d, k, v, d + [(k, v)]);
      d + [(k, v)]
  }

  lemma {:induction false} SetAtGet<K(!new), V>(d: Dict<K, V>, k: K, v: V, i: nat)
    requires IndexOf(d, k) == Some(i)
    ensures Get(d[i := (k, v)], k) == Some(v)
    ensures forall k' :: k' != k ==> Get(d[i := (k, v)], k') == Get(d, k')
  {
    var r := d[i := (k, v)];
    IndexOfIs(r, k, Some(i));
    forall k' | k' != k
      ensures Get(r, k') == Get(d, k')
    {
      IndexOfIs(r, k', IndexOf(d, k'));
    }
  }

  lemma {:induction false} SetAtShape<K(!new), V>(d: Dict<K, V>, k: K, v: V, i: nat, r: Dict<K, V>)
    requires IndexOf(d, k) == Some(i) && r == d[i := (k, v)]
    ensures HasKey(d, k) && Keys(r) == Keys(d)
    ensures UniqueKeys(d) ==> UniqueKeys(r)
    ensures forall j :: 0 <= j < |r| ==> r[j] == (k, v) || r[j] in d
  {
    assert forall j :: 0 <= j < |d| ==> r[j].0 == d[j].0;
    assert forall j :: 0 <= j < |d| && j != i ==> r[j] == d[j];
  }

  lemma {:induction false} SetNewGet<K(!new), V>(d: Dict<K, V>, k: K, v: V)
    requires IndexOf(d, k) == None
    ensures Get(d + [(k, v)], k) == Some(v)
    ensures forall k' :: k' != k ==> Get(d + [(k, v)], k') == Get(d, k')
  {
    var r := d + [(k, v)];
    IndexOfIs(r, k, Some(|d|));
    forall k' | k' != k
      ensures Get(r, k') == Get(d, k')
    {
      IndexOfIs(r, k', IndexOf(d, k'));
    }
  }

  lemma {:induction false} SetNewShape<K(!new), V>(d: Dict<K, V>, k: K, v: V, r: Dict<K, V>)
    requires IndexOf(d, k) == None && r == d + [(k, v)]
    ensures !HasKey(d, k) && Keys(r) == Keys(d) + [k]
    ensures UniqueKeys(d) ==> UniqueKeys(r)
    ensures forall j :: 0 <= j < |r| ==> r[j] == (k, v) || r[j] in d
  {
    assert forall j :: 0 <= j < |d| ==> r[j] == d[j];
  }

  /** `del d[k]` when `k` is present; `d` itself otherwise. Every other key
      keeps its value. */
  function Remove<K(==,!new), V>(d: Dict<K, V>, k: K): (r: Dict<K, V>)
    ensures !HasKey(d, k) ==> r == d
    ensures HasKey(d, k) ==> |r| == |d| - 1
    ensures UniqueKeys(d) ==> UniqueKeys(r) && !HasKey(r, k)
    ensures forall k' :: k' != k ==> Get(r, k') == Get(d, k')
  {
    match IndexOf(d, k)
    case Some(i) =>
      var r := d[..i] + d[i + 1..];
      RemoveFacts(d, k, i, r);
      r
    case None => d
  }

  lemma {:induction false} RemoveFacts<K(!new), V>(d: Dict<K, V>, k: K, i: nat, r: Dict<K, V>)
    requires IndexOf(d, k) == Some(i)
    requires r == d[..i] + d[i + 1..]
    ensures forall k' :: k' != k ==> Get(r, k') == Get(d, k')
  {
    forall k' | k' != k
      ensures Get(r, k') == Get(d, k')
    {
      RemoveOne(d, k, i, r, k');
    }
  }

  lemma {:induction false} RemoveOne<K(!new), V>(d: Dict<K, V>, k: K, i: nat, r: Dict<K, V>, k': K)
    requires IndexOf(d, k) == Some(i)
    requires r == d[..i] + d[i + 1..]
    requires k' != k
    ensures Get(r, k') == Get(d, k')
  {
    var ib := IndexOf(d, k');
    if ib.None? {
      assert forall j :: 0 <= j < |r| ==> r[j] in d;
      IndexOfIs(r, k', None);
    } else if ib.value < i {
      RemoveBefore(d, i, r, k', ib.value);
    } else {
      RemoveAfter(d, i, r, k', ib.value);
    }
  }

  lemma {:induction false} RemoveBefore<K(!new), V>(d: Dict<K, V>, i: nat, r: Dict<K, V>, k': K, b: nat)
    requires i < |d| && r == d[..i] + d[i + 1..]
    requires IndexOf(d, k') == Some(b) && b < i
    ensures Get(r, k') == Get(d, k')
  {
    assert forall j :: 0 <= j <= b ==> r[j] == d[j];
    IndexOfIs(r, k', Some(b));
  }

  lemma {:induction false} RemoveAfter<K(!new), V>(d: Dict<K, V>, i: nat, r: Dict<K, V>, k': K, b: nat)
    requires i < |d| && r == d[..i] + d[i + 1..]
    requires IndexOf(d, k') == Some(b) && i < b
    ensures Get(r, k') == Get(d, k')
  {
    assert |r| == |d| - 1;
    forall j | 0 <= j < b - 1
      ensures r[j].0 != k'
    {
      if j < i {
        assert r[j] == d[j];
      } else {
        assert r[j] == d[j + 1];
      }
    }
    assert r[b - 1] == d[b];
    IndexOfIs(r, k', Some(b - 1));
  }

  /** `d[k] = v` keeps every key in its place; a new key goes last. */
  lemma {:induction false} SetPositions<K(!new), V>(d: Dict<K, V>, k: K, v: V)
    ensures var r := Set(d, k, v);
            |r| >= |d| && (forall j :: 0 <= j < |d| ==> r[j].0 == d[j].0)
            && (forall j :: |d| <= j < |r| ==> r[j].0 == k)
  {
    var r := Set(d, k, v);
    var ks := Keys(r);
    if HasKey(d, k) {
      assert ks == Keys(d);
    } else {
      assert ks == Keys(d) + [k];
    }
    assert forall j :: 0 <= j < |r| ==> r[j].0 == ks[j];
  }
}

=== FILE: features.dfy ===
/** The registry of the plugin's own features: an insertion-ordered map from
    a feature key to its configuration (display name, version, description,
    on/off flag, dependencies and free-form settings), with the defaults the
    plugin ships and the queries and updates its settings page uses. */
module Features {
  import opened Text
  import opened Json
  import Dict

  datatype Feature = Feature(name: string, version: string, description: string, enabled: bool,
                             dependencies: seq<string>, settings: Dict.Dict<string, Json>)

  type Registry = Dict.Dict<string, Feature>

  /** `CustomFeatureConfig(...)`: dependencies and settings left as `None`
      become an empty list and an empty map. */
  function NewFeature(name: string, version: string, description: string, enabled: bool,
                      dependencies: Option<seq<string>>, settings: Option<Dict.Dict<string, Json>>): (f: Feature)
    ensures f.name == name && f.version == version && f.description == description && f.enabled == enabled
    ensures dependencies.None? ==> f.dependencies == []
    ensures dependencies.Some? ==> f.dependencies == dependencies.value
    ensures settings.None? ==> f.settings == []
    ensures settings.Some? ==> f.settings == settings.value
  {
    Feature(name, version, description, enabled,
            match dependencies case None => [] case Some(d) => d,
            match settings case None => [] case Some(s) => s)
  }

  /** The metadata panel's shipped settings. */
  const PanelDefaults: Dict.Dict<string, Json> :=
    [("show_interface", JBool(true)), ("font_size", JInt(12)),
     ("widget_height", JInt(280)), ("enable_external_images", JBool(true))]

  /** The auto-save feature's shipped settings. */
  const AutoSaveDefaults: Dict.Dict<string, Json> :=
    [("enabled", JBool(false)), ("folder", JStr("generated_images")),
     ("organize_by_type", JBool(true)), ("include_metadata", JBool(true)),
     ("max_metadata_size", JInt(4000))]

  /** The registry a fresh configuration holds. */
  function Defaults(): Registry
  {
    [("metadata_panel",
      NewFeature("Panneau de Métadonnées", "1.0.0",
                 "Affiche et permet de copier les métadonnées des images générées", true, Some([]),
                 Some(PanelDefaults))),
     ("auto_save",
      NewFeature("Sauvegarde Automatique", "1.0.0",
                 "Sauvegarde automatiquement les images générées selon leur type", true, Some([]),
                 Some(AutoSaveDefaults)))]
  }

  /** The shipped registry holds exactly the metadata panel and auto-save, in
      that order, both switched on, with their shipped settings. */
  lemma {:induction false} DefaultsShape()
    ensures Dict.Keys(Defaults()) == ["metadata_panel", "auto_save"]
    ensures Dict.UniqueKeys(Defaults())
    ensures EnabledFeatures(Defaults()) == ["metadata_panel", "auto_save"]
    ensures Dict.Get(Defaults(), "metadata_panel").Some?
            && Dict.Get(Defaults(), "metadata_panel").value.settings == PanelDefaults
    ensures Dict.Get(Defaults(), "auto_save").Some?
            && Dict.Get(Defaults(), "auto_save").value.settings == AutoSaveDefaults
  {
    var d := Defaults();
    assert d[0].1.enabled && d[1].1.enabled;
    assert d[1..][1..] == [];
    assert Dict.IndexOf(d, "metadata_panel") == Some(0);
    assert Dict.IndexOf(d, "auto_save") == Some(1);
  }

  /** The values behind the shipped settings' keys. */
  lemma {:induction false} ShippedValues()
    ensures Dict.Get(AutoSaveDefaults, "enabled") == Some(JBool(false))
    ensures Dict.Get(AutoSaveDefaults, "max_metadata_size") == Some(JInt(4000))
    ensures Dict.Get(PanelDefaults, "font_size") == Some(JInt(12))
  {
    assert Dict.IndexOf(AutoSaveDefaults, "enabled") == Some(0);
    assert Dict.IndexOf(AutoSaveDefaults, "max_metadata_size") == Some(4);
    assert Dict.IndexOf(PanelDefaults, "font_size") == Some(1);
  }

  /** The auto-save feature's own `enabled` setting starts false and its size
      cap matches the record writer's; the panel's font size matches the
      bumped default of the panel. */
  lemma {:induction false} DefaultSettings()
    ensures Setting(Defaults(), "auto_save", "enabled", JNull) == JBool(false)
    ensures Setting(Defaults(), "auto_save", "max_metadata_size", JNull) == JInt(4000)
    ensures Setting(Defaults(), "metadata_panel", "font_size", JNull) == JInt(12)
  {
    DefaultsShape();
    ShippedValues();
  }

  /** `is_feature_enabled`. */
  function IsEnabled(reg: Registry, key: string): (b: bool)
    ensures b <==> exists f :: Dict.Get(reg, key) == Some(f) && f.enabled
  {
    match Dict.Get(reg, key)
    case None => false
    case Some(f) => f.enabled
  }

  /** `get_feature_setting`: the default stands in for a missing feature, an
      empty settings map and a missing setting alike. */
  function Setting(reg: Registry, key: string, setting: string, default: Json): (v: Json)
    ensures Dict.Get(reg, key).None? ==> v == default
    ensures Dict.Get(reg, key).Some? ==> v == Dict.GetOr(Dict.Get(reg, key).value.settings, setting, default)
  {
    match Dict.Get(reg, key)
    case None => default
    case Some(f) => if f.settings != [] then Dict.GetOr(f.settings, setting, default) else default
  }

  /** Apply `change` to the named feature, if registered. */
  function Update(reg: Registry, key: string, change: Feature -> Feature): (r: Registry)
    ensures Dict.Get(reg, key).None? ==> r == reg
    ensures Dict.Get(reg, key).Some? ==> Dict.Get(r, key) == Some(change(Dict.Get(reg, key).value))
    ensures forall k :: k != key ==> Dict.Get(r, k) == Dict.Get(reg, k)
    ensures Dict.Keys(r) == Dict.Keys(reg)
  {
    match Dict.Get(reg, key)
    case None => reg
    case Some(f) => Dict.Set(reg, key, change(f))
  }

  /** `set_feature_setting`. */
  function SetSetting(reg: Registry, key: string, setting: string, value: Json): (r: Registry)
    ensures Dict.Keys(r) == Dict.Keys(reg)
    ensures Dict.Get(reg, key).None? ==> r == reg
    ensures forall k :: k != key ==> Dict.Get(r, k) == Dict.Get(reg, k)
  {
    Update(reg, key, (f: Feature) => f.(settings := Dict.Set(f.settings, setting, value)))
  }

  /** `enable_feature` and `disable_feature`: a registered feature changes
      only its flag, which `is_feature_enabled` then reports. */
  function SetEnabled(reg: Registry, key: string, on: bool): (r: Registry)
    ensures Dict.Keys(r) == Dict.Keys(reg)
    ensures Dict.Get(reg, key).None? ==> r == reg
    ensures Dict.Get(reg, key).Some? ==>
              Dict.Get(r, key) == Some(Dict.Get(reg, key).value.(enabled := on)) && IsEnabled(r, key) == on
    ensures forall k :: k != key ==> Dict.Get(r, k) == Dict.Get(reg, k)
  {
    Update(reg, key, (f: Feature) => f.(enabled := on))
  }

  /** After `set_feature_setting` on a registered feature, reading the setting
      back gives the value; every other setting of that feature, and every
      other field, is as before. */
  lemma {:induction false} SetSettingReads(reg: Registry, key: string, setting: string, value: Json)
    requires Dict.Get(reg, key).Some?
    ensures Setting(SetSetting(reg, key, setting, value), key, setting, JNull) == value
    ensures var f := Dict.Get(reg, key).value;
            var g := Dict.Get(SetSetting(reg, key, setting, value), key).value;
            && g.name == f.name && g.version == f.version && g.description == f.description
            && g.enabled == f.enabled && g.dependencies == f.dependencies
            && forall s :: s != setting ==> Dict.Get(g.settings, s) == Dict.Get(f.settings, s)
  {
    var f := Dict.Get(reg, key).value;
    var g := f.(settings := Dict.Set(f.settings, setting, value));
    assert Dict.Get(SetSetting(reg, key, setting, value), key) == Some(g);
    assert Dict.Get(g.settings, setting) == Some(value);
  }

  /** `get_enabled_features`: the keys whose flag is on, in registry order. */
  function EnabledFeatures(reg: Registry): (names: seq<string>)
    ensures |names| <= |reg|
    ensures forall n :: n in names ==> exists i :: 0 <= i < |reg| && reg[i].0 == n && reg[i].1.enabled
    ensures forall i :: 0 <= i < |reg| && reg[i].1.enabled ==> reg[i].0 in names
  {
    if reg == [] then []
    else (if reg[0].1.enabled then [reg[0].0] else []) + EnabledFeatures(reg[1..])
  }

  /** With keys unique, a key is listed as enabled exactly when
      `is_feature_enabled` says so. */
  lemma {:induction false} EnabledMatches(reg: Registry, key: string)
    requires Dict.UniqueKeys(reg)
    ensures key in EnabledFeatures(reg) <==> IsEnabled(reg, key)
  {
    if key in EnabledFeatures(reg) {
      var i :| 0 <= i < |reg| && reg[i].0 == key && reg[i].1.enabled;
      Dict.IndexOfIs(reg, key, Some(i));
    }
    if IsEnabled(reg, key) {
      var i := Dict.IndexOf(reg, key).value;
      assert reg[i].1.enabled;
    }
  }

  /** `add_feature`: inserts the entry, or replaces it in place. */
  function Add(reg: Registry, key: string, f: Feature): (r: Registry)
    ensures Dict.Get(r, key) == Some(f)
    ensures forall k :: k != key ==> Dict.Get(r, k) == Dict.Get(reg, k)
    ensures Dict.UniqueKeys(reg) ==> Dict.UniqueKeys(r)
  {
    Dict.Set(reg, key, f)
  }

  /** `remove_feature`: the entry is gone and every other key keeps its
      value; an unknown key leaves the registry unchanged. */
  function RemoveFeature(reg: Registry, key: string): (r: Registry)
    ensures Dict.Get(reg, key).None? ==> r == reg
    ensures Dict.Get(reg, key).Some? ==> |r| == |reg| - 1
    ensures Dict.UniqueKeys(reg) ==> Dict.Get(r, key).None? && Dict.UniqueKeys(r)
    ensures forall k :: k != key ==> Dict.Get(r, k) == Dict.Get(reg, k)
  {
    if Dict.HasKey(reg, key) then Dict.Remove(reg, key) else reg
  }

  /** `check_compatibility`: every registered feature is reported compatible,
      whatever the base version. */
  function Compatibility(reg: Registry, baseVersion: string): (r: Dict.Dict<string, bool>)
    ensures Dict.Keys(r) == Dict.Keys(reg)
    ensures forall i :: 0 <= i < |r| ==> r[i].1
  {
    if reg == [] then [] else [(reg[0].0, true)] + Compatibility(reg[1..], baseVersion)
  }
}

=== FILE: history.dfy ===
/** The document synchroniser's bookkeeping of stored results: every
    finished job's images are kept in a document annotation
    `result<slot>.webp`, listed in the history with their slot, and their
    byte size is counted towards the storage limit. The image bytes
    themselves are not modelled, only their sizes. */
module History {
  import opened Text
  import opened Jobs
  import Dict

  /** `_HistoryResult`, reduced to the job id and the slot (the offsets, the
      parameters, the kind and the in-use flag are carried along unread). */
  datatype Item = Item(id: string, slot: nat)

  /** The synchroniser's state: the history in insertion order,
      `_memory_used` (slot to byte size), `_slot_index`, and the document's
      annotations (name to byte size). */
  datatype Store = Store(history: seq<Item>, memory: Dict.Dict<nat, nat>, slotIndex: nat,
                         annotations: Dict.Dict<string, nat>)

  /** The annotation name of a slot. */
  function ResultName(slot: nat): string {
    "result" + NatToString(slot) + ".webp"
  }

  /** The sum of the byte sizes in a size table. */
  function Total<K(==,!new)>(d: Dict.Dict<K, nat>): nat {
    if d == [] then 0 else Total(d[..|d| - 1]) + d[|d| - 1].1
  }

  /** The `memory_used` property. */
  function MemoryUsed(st: Store): nat {
    Total(st.memory)
  }

  lemma {:induction false} TotalAppend<K(!new)>(a: Dict.Dict<K, nat>, b: Dict.Dict<K, nat>)
    ensures Total(a + b) == Total(a) + Total(b)
    decreases |b|
  {
    if b != [] {
      assert (a + b)[..|a + b| - 1] == a + b[..|b| - 1];
      TotalAppend(a, b[..|b| - 1]);
    } else {
      assert a + b == a;
    }
  }

  lemma {:induction false} TotalOne<K(!new)>(e: (K, nat))
    ensures Total([e]) == e.1
  {
    var one: Dict.Dict<K, nat> := [e];
    assert one[..0] == [];
  }

  /** Removing a key takes its size off the total. */
  lemma {:induction false} TotalRemove<K(!new)>(d: Dict.Dict<K, nat>, k: K)
    ensures Total(Dict.Remove(d, k)) == Total(d) - Dict.GetOr(d, k, 0)
  {
    match Dict.IndexOf(d, k)
    case None =>
    case Some(i) =>
      assert d == d[..i] + [d[i]] + d[i + 1..];
      TotalAppend(d[..i] + [d[i]], d[i + 1..]);
      TotalAppend(d[..i], [d[i]]);
      TotalAppend(d[..i], d[i + 1..]);
      TotalOne(d[i]);
  }

  /** Setting a key replaces its old size (0 when absent) in the total. */
  lemma {:induction false} TotalSet<K(!new)>(d: Dict.Dict<K, nat>, k: K, v: nat)
    ensures Total(Dict.Set(d, k, v)) == Total(d) - Dict.GetOr(d, k, 0) + v
  {
    match Dict.IndexOf(d, k)
    case None =>
      TotalAppend(d, [(k, v)]);
      TotalOne((k, v));
    case Some(i) =>
      var r := d[i := (k, v)];
      assert d == d[..i] + [d[i]] + d[i + 1..];
      assert r == d[..i] + [(k, v)] + d[i + 1..];
      TotalAppend(d[..i] + [d[i]], d[i + 1..]);
      TotalAppend(d[..i], [d[i]]);
      TotalAppend(d[..i] + [(k, v)], d[i + 1..]);
      TotalAppend(d[..i], [(k, v)]);
      TotalOne(d[i]);
      TotalOne((k, v));
  }

  /** `settings.history_storage * 1024 * 1024`: the storage limit in bytes
      for a setting in megabytes. */
  function Limit(storageMb: real): real {
    storageMb * 1024.0 * 1024.0
  }

  /** `_prune`, with `used` the running total: while it exceeds the limit
      and the history is not empty, the oldest item is dropped together with
      its annotation, and its size (0 when unknown) taken off. Only the
      oldest items go: what is left is a suffix of the history, in order. */
  function Prune(st: Store, limit: real, used: int): (r: Store)
    ensures r.slotIndex == st.slotIndex
    ensures |r.history| <= |st.history| && r.history == st.history[|st.history| - |r.history|..]
    decreases |st.history|
  {
    if used as real > limit && |st.history| > 0 then
      var r := Prune(DropOldest(st), limit, used - Dict.GetOr(st.memory, st.history[0].slot, 0));
      SuffixOfTail(st.history, r.history);
      r
    else st
  }

  /** One step of `_prune`: the oldest item, its annotation and its size
      are dropped. */
  function DropOldest(st: Store): (r: Store)
    requires |st.history| > 0
    ensures r.history == st.history[1..] && r.slotIndex == st.slotIndex
  {
    var slot := st.history[0].slot;
    Store(st.history[1..], Dict.Remove(st.memory, slot), st.slotIndex,
          Dict.Remove(st.annotations, ResultName(slot)))
  }

  /** A suffix of the tail is a suffix of the whole. */
  lemma {:induction false} SuffixOfTail<T>(s: seq<T>, h: seq<T>)
    requires |s| > 0 && |h| <= |s| - 1 && h == s[1..][|s| - 1 - |h|..]
    ensures h == s[|s| - |h|..]
  {
  }

  /** `_prune()`: it starts from `memory_used`. */
  function PruneTo(st: Store, storageMb: real): Store {
    Prune(st, Limit(storageMb), MemoryUsed(st))
  }

  /** Pruning stops within the limit or with an empty history: the running
      total always equals `memory_used`. */
  lemma {:induction false} PruneBound(st: Store, limit: real)
    ensures var r := Prune(st, limit, MemoryUsed(st));
            MemoryUsed(r) as real <= limit || r.history == []
    decreases |st.history|
  {
    if MemoryUsed(st) as real > limit && |st.history| > 0 {
      var slot := st.history[0].slot;
      var next := DropOldest(st);
      TotalRemove(st.memory, slot);
      assert MemoryUsed(next) == MemoryUsed(st) - Dict.GetOr(st.memory, slot, 0);
      assert Prune(st, limit, MemoryUsed(st)) == Prune(next, limit, MemoryUsed(next));
      PruneBound(next, limit);
    }
  }

  /** A store already within the limit is left as it is. */
  lemma {:induction false} PruneWithinLimit(st: Store, storageMb: real)
    requires MemoryUsed(st) as real <= Limit(storageMb)
    ensures PruneTo(st, storageMb) == st
  {
  }

  /** Pruning drops the oldest items first, and it drops one only while the
      total is over the limit: whatever it removed, the total was still over
      the limit before the last removal. */
  lemma {:induction false} PruneOnlyOverLimit(st: Store, limit: real)
    requires |Prune(st, limit, MemoryUsed(st)).history| < |st.history|
    ensures MemoryUsed(st) as real > limit
  {
  }

  /** The kinds whose results are stored, and only when there are some. */
  predicate Stores(job: Job) {
    HasImages(job.kind) && |job.results| > 0
  }

  /** `_save_results(job)` without the auto-save call: the results go to the
      next slot, are listed and counted, and the history is pruned. `size`
      is the byte size of the encoded images. */
  function SaveResults(st: Store, job: Job, size: nat, storageMb: real): (r: Store)
    ensures !Stores(job) ==> r == st
    ensures Stores(job) ==> r.slotIndex == st.slotIndex + 1
    ensures Stores(job) ==>
              var all := st.history + [Item(job.id, st.slotIndex)];
              |r.history| <= |all| && r.history == all[|all| - |r.history|..]
  {
    if Stores(job) then
      var added := Added(st, job, size);
      PruneTo(added, storageMb)
    else st
  }

  /** The store right after `_save_results` has listed the new results,
      before pruning. */
  function Added(st: Store, job: Job, size: nat): (r: Store)
    ensures r.history == st.history + [Item(job.id, st.slotIndex)]
    ensures r.slotIndex == st.slotIndex + 1
  {
    var slot := st.slotIndex;
    Store(st.history + [Item(job.id, slot)], Dict.Set(st.memory, slot, size), slot + 1,
          Dict.Set(st.annotations, ResultName(slot), size))
  }

  /** After storing a job's results the total is within the limit, or the
      history has been emptied. */
  lemma {:induction false} SaveResultsBound(st: Store, job: Job, size: nat, storageMb: real)
    requires Stores(job)
    ensures var r := SaveResults(st, job, size, storageMb);
            MemoryUsed(r) as real <= Limit(storageMb) || r.history == []
  {
    PruneBound(Added(st, job, size), Limit(storageMb));
  }

  /** Storing a job's results, before pruning, adds its size to the total
      when the slot was not counted yet, and records that size under the new
      slot and under its result name. */
  lemma {:induction false} SaveResultsCounts(st: Store, job: Job, size: nat)
    requires Stores(job) && !Dict.HasKey(st.memory, st.slotIndex)
    ensures var r := Added(st, job, size);
            && MemoryUsed(r) == MemoryUsed(st) + size
            && Dict.Get(r.memory, st.slotIndex) == Some(size)
            && Dict.Get(r.annotations, ResultName(st.slotIndex)) == Some(size)
  {
    TotalSet(st.memory, st.slotIndex, size);
  }

  /** Every listed slot is below the slot counter, and no two listed items
      share a slot. */
  predicate SlotsBelow(st: Store) {
    Below(st.history, st.slotIndex)
  }

  predicate DistinctSlots(st: Store) {
    Distinct(st.history)
  }

  predicate Below(h: seq<Item>, n: nat) {
    forall i :: 0 <= i < |h| ==> h[i].slot < n
  }

  predicate Distinct(h: seq<Item>) {
    forall i, j :: 0 <= i < j < |h| ==> h[i].slot != h[j].slot
  }

  /** A suffix of a history keeps both slot properties. */
  lemma {:induction false} SuffixKeepsSlots(h: seq<Item>, d: nat, n: nat)
    requires d <= |h| && Below(h, n) && Distinct(h)
    ensures Below(h[d..], n) && Distinct(h[d..])
  {
    var t := h[d..];
    assert forall i :: 0 <= i < |t| ==> t[i] == h[d + i];
  }

  /** Appending an item above every listed slot keeps both properties, with
      the counter one above the new slot. */
  lemma {:induction false} AppendFresh(h: seq<Item>, item: Item)
    requires Below(h, item.slot) && Distinct(h)
    ensures Below(h + [item], item.slot + 1) && Distinct(h + [item])
  {
  }

  /** Storing results keeps every slot fresh: the new slot is above every
      listed one, so slots stay below the counter and distinct. */
  lemma {:induction false} SaveResultsFresh(st: Store, job: Job, size: nat, storageMb: real)
    requires SlotsBelow(st) && DistinctSlots(st)
    ensures var r := SaveResults(st, job, size, storageMb);
            SlotsBelow(r) && DistinctSlots(r)
  {
    if Stores(job) {
      var all := st.history + [Item(job.id, st.slotIndex)];
      var r := SaveResults(st, job, size, storageMb);
      AppendFresh(st.history, Item(job.id, st.slotIndex));
      SuffixKeepsSlots(all, |all| - |r.history|, st.slotIndex + 1);
    }
  }

  /** The first position whose item has the given id. */
  function FindId(h: seq<Item>, id: string): (r: Option<nat>)
    ensures r.Some? ==> r.value < |h| && h[r.value].id == id
    ensures r.Some? ==> forall j :: 0 <= j < r.value ==> h[j].id != id
    ensures r.None? ==> forall j :: 0 <= j < |h| ==> h[j].id != id
  {
    if h == [] then None
    else if h[0].id == id then Some(0)
    else match FindId(h[1..], id)
      case None => None
      case Some(i) => Some(i + 1)
  }

  /** `_remove_results(job)`: the first item with the job's id is taken out
      of the history, its annotation is removed and its size forgotten;
      nothing happens when no item has that id. */
  function RemoveResults(st: Store, id: string): (r: Store)
    ensures FindId(st.history, id).None? ==> r == st
    ensures FindId(st.history, id).Some? ==>
              var i := FindId(st.history, id).value;
              r.history == st.history[..i] + st.history[i + 1..]
              && r.memory == Dict.Remove(st.memory, st.history[i].slot)
              && r.annotations == Dict.Remove(st.annotations, ResultName(st.history[i].slot))
    ensures r.slotIndex == st.slotIndex
  {
    match FindId(st.history, id)
    case None => st
    case Some(i) =>
      var item := st.history[i];
      Store(st.history[..i] + st.history[i + 1..], Dict.Remove(st.memory, item.slot), st.slotIndex,
            Dict.Remove(st.annotations, ResultName(item.slot)))
  }

  /** Removing a job's results takes exactly their size off the total and
      keeps the order of the other items. */
  lemma {:induction false} RemoveResultsTotal(st: Store, id: string)
    requires FindId(st.history, id).Some?
    ensures var i := FindId(st.history, id).value;
            var r := RemoveResults(st, id);
            MemoryUsed(r) == MemoryUsed(st) - Dict.GetOr(st.memory, st.history[i].slot, 0)
            && |r.history| == |st.history| - 1
            && (forall j :: 0 <= j < i ==> r.history[j] == st.history[j])
            && (forall j :: i <= j < |r.history| ==> r.history[j] == st.history[j + 1])
  {
    TotalRemove(st.memory, st.history[FindId(st.history, id).value].slot);
  }

  /** `_remove_image(item)`: when the history lists the item's job and the
      job is still in the queue (`size` is the byte size of its remaining
      images, `None` when the job is gone), the slot's annotation and size
      are replaced. */
  function RemoveImage(st: Store, id: string, size: Option<nat>): (r: Store)
    ensures r.history == st.history && r.slotIndex == st.slotIndex
    ensures FindId(st.history, id).None? || size.None? ==> r == st
    ensures FindId(st.history, id).Some? && size.Some? ==>
              var slot := st.history[FindId(st.history, id).value].slot;
              Dict.Get(r.memory, slot) == Some(size.value)
              && Dict.Get(r.annotations, ResultName(slot)) == Some(size.value)
              && (forall k :: k != slot ==> Dict.Get(r.memory, k) == Dict.Get(st.memory, k))
              && (forall a :: a != ResultName(slot) ==> Dict.Get(r.annotations, a) == Dict.Get(st.annotations, a))
  {
    match FindId(st.history, id)
    case None => st
    case Some(i) =>
      match size
      case None => st
      case Some(n) =>
        var slot := st.history[i].slot;
        st.(memory := Dict.Set(st.memory, slot, n),
            annotations := Dict.Set(st.annotations, ResultName(slot), n))
  }

  /** `name.rsplit(".", 1)[0]`: the name up to its last dot, or the whole
      name when it has none. */
  function WithoutExtension(name: string): (r: string)
    ensures StartsWith(name, r)
    ensures '.' in name ==> |r| < |name| && name[|r|] == '.' && '.' !in name[|r| + 1..]
    ensures '.' !in name ==> r == name
  {
    match LastIndex(name, '.')
    case None => name
    case Some(i) => name[..i]
  }

  /** `_find_annotation(document, name)`: the annotation under `name` if it
      is not empty, else the one under the name without its extension if
      that is not empty, else nothing. */
  function FindAnnotation(doc: Dict.Dict<string, nat>, name: string): (r: Option<nat>)
    ensures r.Some? ==> r.value > 0
    ensures Dict.GetOr(doc, name, 0) > 0 ==> r == Dict.Get(doc, name)
    ensures Dict.GetOr(doc, name, 0) == 0 && Dict.GetOr(doc, WithoutExtension(name), 0) > 0
            ==> r == Dict.Get(doc, WithoutExtension(name))
    ensures Dict.GetOr(doc, name, 0) == 0 && Dict.GetOr(doc, WithoutExtension(name), 0) == 0
            ==> r.None?
  {
    var direct := Dict.GetOr(doc, name, 0);
    if direct > 0 then Some(direct)
    else
      var bare := Dict.GetOr(doc, WithoutExtension(name), 0);
      if bare > 0 then Some(bare) else None
  }

  /** The history part of `_load`: each saved item whose images are found
      among the document's annotations is listed again, its size counted,
      and the slot counter raised above its slot. Items whose images are
      missing are dropped. */
  function Load(st: Store, items: seq<Item>): (r: Store)
    ensures r.annotations == st.annotations
    ensures r.slotIndex >= st.slotIndex
    ensures st.history <= r.history
    ensures |r.history| <= |st.history| + |items|
    decreases |items|
  {
    if items == [] then st
    else
      var before := Load(st, items[..|items| - 1]);
      var item := items[|items| - 1];
      match FindAnnotation(st.annotations, ResultName(item.slot))
      case None => before
      case Some(size) =>
        Store(before.history + [item], Dict.Set(before.memory, item.slot, size),
              if before.slotIndex >= item.slot + 1 then before.slotIndex else item.slot + 1,
              before.annotations)
  }

  /** After loading, the slot counter is above every listed slot, so the
      next stored job gets a slot no listed item has. */
  lemma {:induction false} LoadSlotsBelow(st: Store, items: seq<Item>)
    requires SlotsBelow(st)
    ensures SlotsBelow(Load(st, items))
    decreases |items|
  {
    if items != [] {
      var before := Load(st, items[..|items| - 1]);
      var item := items[|items| - 1];
      LoadSlotsBelow(st, items[..|items| - 1]);
      match FindAnnotation(st.annotations, ResultName(item.slot))
      case None =>
      case Some(size) =>
        var r := Load(st, items);
        assert r.history == before.history + [item];
        assert r.slotIndex >= before.slotIndex && r.slotIndex > item.slot;
    }
  }

  /** An item is listed again exactly when its images are found. */
  lemma {:induction false} LoadKeepsFound(st: Store, items: seq<Item>)
    requires items != []
    ensures var last := items[|items| - 1];
            var r := Load(st, items);
            FindAnnotation(st.annotations, ResultName(last.slot)).Some? <==>
              |r.history| == |Load(st, items[..|items| - 1]).history| + 1
  {
  }
}

=== FILE: history_list.dfy ===
/** The generation docker's history list: its rows and the tooltip title of
    a job. A job contributes a header row (the job id and a non-empty text,
    no image index) when its parameters differ from the previous job's, then
    one row per result image (the job id, the image index, no text).
    Removing a job or one of its images edits the job's run of rows and then
    drops header rows that ended up directly above another header. */
module HistoryList {
  import opened Text

  // ---------------------------------------------------------------- title

  const NoPrompt := "<no prompt>"

  /** The display name of a job as the first line of its tooltip: an empty
      name reads `<no prompt>`, and a name over 70 characters keeps its first
      66 and gains `...`. */
  function Heading(name: string): (h: string)
    ensures |h| <= 70
    ensures name == "" ==> h == NoPrompt
    ensures 0 < |name| <= 70 ==> h == name
    ensures |name| > 70 ==> |h| == 69 && h[..66] == name[..66] && EndsWith(h, "...")
  {
    var title := if name != "" then name else NoPrompt;
    if |title| > 70 then title[..66] + "..." else title
  }

  /** The title adds the strength, formatted by `{:.0f}`, when it is not 1. */
  function Title(name: string, strength: real, percent: real -> string): (t: string)
    ensures StartsWith(t, Heading(name))
    ensures t == Heading(name) <==> strength == 1.0
  {
    if strength != 1.0 then Heading(name) + " @ " + percent(strength * 100.0) + "%" else Heading(name)
  }

  // ---------------------------------------------------------------- rows

  /** A list row: the job id, the image index (`None` on a header) and the
      text (empty on an image). */
  datatype Row = Row(job: string, index: Option<int>, text: string)

  predicate IsHeader(r: Row) { r.index.None? }

  /** The first row of the job. */
  function FindJob(rows: seq<Row>, id: string): (r: Option<nat>)
    ensures r.Some? ==> r.value < |rows| && rows[r.value].job == id
    ensures r.Some? ==> forall j :: 0 <= j < r.value ==> rows[j].job != id
    ensures r.None? ==> forall j :: 0 <= j < |rows| ==> rows[j].job != id
  {
    if rows == [] then None
    else if rows[0].job == id then Some(0)
    else match FindJob(rows[1..], id)
      case None => None
      case Some(i) => Some(i + 1)
  }

  /** Whether the row goes: the image with the given index, or every image
      when the index is -1. A header never goes. */
  predicate Removed(r: Row, k: int) {
    r.index == Some(k) || (r.index.Some? && k == -1)
  }

  /** A kept image after the removed one moves up one place. An image index
      of 0 is falsy in the source's test and is never renumbered. */
  function Renumber(r: Row, k: int): Row {
    if r.index.Some? && r.index.value != 0 && r.index.value > k
    then r.(index := Some(r.index.value - 1)) else r
  }

  /** The walk down the job's run of rows, from its first row to the first
      row of another job. */
  function Pass(rows: seq<Row>, id: string, k: int): (r: seq<Row>)
    ensures |r| <= |rows|
  {
    if rows == [] || rows[0].job != id then rows
    else if Removed(rows[0], k) then Pass(rows[1..], id, k)
    else [Renumber(rows[0], k)] + Pass(rows[1..], id, k)
  }

  predicate AllOf(rows: seq<Row>, id: string) {
    forall i :: 0 <= i < |rows| ==> rows[i].job == id
  }

  /** The walk stops at the end of the run: what follows is untouched. */
  lemma {:induction false} PassStops(run: seq<Row>, tail: seq<Row>, id: string, k: int)
    requires AllOf(run, id)
    requires tail == [] || tail[0].job != id
    ensures Pass(run + tail, id, k) == Pass(run, id, k) + tail
    ensures AllOf(Pass(run, id, k), id)
  {
    if run != [] {
      assert (run + tail)[1..] == run[1..] + tail;
      PassStops(run[1..], tail, id, k);
    } else {
      assert run + tail == tail;
    }
  }

  function Headers(rows: seq<Row>): seq<Row> {
    if rows == [] then [] else (if IsHeader(rows[0]) then [rows[0]] else []) + Headers(rows[1..])
  }

  /** Removing the whole job keeps exactly the run's header rows. */
  lemma {:induction false} WholeJob(run: seq<Row>, id: string)
    requires AllOf(run, id)
    ensures Pass(run, id, -1) == Headers(run)
  {
    if run != [] {
      WholeJob(run[1..], id);
    }
  }

  /** The image indices of the rows, in order. */
  function Indices(rows: seq<Row>): seq<int> {
    if rows == [] then []
    else (if rows[0].index.Some? then [rows[0].index.value] else []) + Indices(rows[1..])
  }

  /** `[a, a+1, ..., n-1]`. */
  function Range(a: int, n: int): (r: seq<int>)
    decreases n - a
    ensures |r| == if a < n then n - a else 0
  {
    if a >= n then [] else [a] + Range(a + 1, n)
  }

  /** The first image of a run numbered from `a` is image `a`. */
  lemma {:induction false} HeadIndex(run: seq<Row>, a: int, n: int)
    requires run != [] && run[0].index.Some?
    requires Indices(run) == Range(a, n)
    ensures a < n && run[0].index.value == a && Indices(run[1..]) == Range(a + 1, n)
  {
    var x := run[0].index.value;
    var rest := Indices(run[1..]);
    assert Indices(run) == [x] + rest;
    assert a < n;
    assert Range(a, n) == [a] + Range(a + 1, n);
    assert ([x] + rest)[0] == x && ([a] + Range(a + 1, n))[0] == a;
    assert ([x] + rest)[1..] == rest && ([a] + Range(a + 1, n))[1..] == Range(a + 1, n);
  }

  /** A run whose images are all after the removed one is shifted down by
      one, headers untouched. */
  lemma {:induction false} ShiftDown(run: seq<Row>, id: string, k: int, a: int, n: int)
    requires AllOf(run, id) && 0 <= k < a
    requires Indices(run) == Range(a, n)
    ensures Indices(Pass(run, id, k)) == Range(a - 1, n - 1)
    ensures Headers(Pass(run, id, k)) == Headers(run)
  {
    if run != [] {
      var r := run[0];
      assert Indices(run) == (if r.index.Some? then [r.index.value] else []) + Indices(run[1..]);
      if r.index.Some? {
        HeadIndex(run, a, n);
        ShiftDown(run[1..], id, k, a + 1, n);
      } else {
        ShiftDown(run[1..], id, k, a, n);
      }
    }
  }

  /** Removing image k of a job whose images are numbered a, a+1, ..., n-1
      in order leaves them numbered a, ..., n-2, headers untouched: the
      removed image is gone and the later ones close the gap. */
  lemma {:induction false} Renumbering(run: seq<Row>, id: string, k: int, a: int, n: int)
    requires AllOf(run, id) && 0 <= a <= k < n
    requires Indices(run) == Range(a, n)
    ensures Indices(Pass(run, id, k)) == Range(a, n - 1)
    ensures Headers(Pass(run, id, k)) == Headers(run)
  {
    if run != [] {
      var r := run[0];
      assert Indices(run) == (if r.index.Some? then [r.index.value] else []) + Indices(run[1..]);
      if r.index.Some? {
        HeadIndex(run, a, n);
        if a == k {
          ShiftDown(run[1..], id, k, a + 1, n);
        } else {
          Renumbering(run[1..], id, k, a + 1, n);
        }
      } else {
        Renumbering(run[1..], id, k, a, n);
      }
    } else {
      assert false;
    }
  }

  // ---------------------------------------------------------------- cleanup

  /** A header directly above another header. */
  predicate PairAt(rows: seq<Row>, i: int) {
    0 <= i && i + 1 < |rows| && rows[i].text != "" && rows[i + 1].text != ""
  }

  /** The rows without text: the images. */
  function Images(rows: seq<Row>): seq<Row> {
    if rows == [] then [] else (if rows[0].text == "" then [rows[0]] else []) + Images(rows[1..])
  }

  lemma {:induction false} ImagesAppend(a: seq<Row>, b: seq<Row>)
    ensures Images(a + b) == Images(a) + Images(b)
  {
    if a != [] {
      assert (a + b)[1..] == a[1..] + b;
      ImagesAppend(a[1..], b);
    } else {
      assert a + b == b;
    }
  }

  /** Dropping a row with text keeps the images. */
  lemma {:induction false} DropText(rows: seq<Row>, i: nat)
    requires i < |rows| && rows[i].text != ""
    ensures Images(rows[..i] + rows[i + 1..]) == Images(rows)
  {
    var a, x, b := rows[..i], [rows[i]], rows[i + 1..];
    assert rows == (a + x) + b;
    ImagesAppend(a + x, b);
    ImagesAppend(a, x);
    HeaderHasNoImage(rows[i]);
    assert Images(a + x) == Images(a);
    ImagesAppend(a, b);
  }

  lemma {:induction false} HeaderHasNoImage(r: Row)
    requires r.text != ""
    ensures Images([r]) == []
  {
    assert [r][1..] == [];
  }

  /** The single pass over positions `i` up to the row count `n` taken before
      the pass: a header above a header is dropped, and the pass moves on to
      the next position either way. It only drops headers. */
  function Cleanup(rows: seq<Row>, i: nat, n: nat): (r: seq<Row>)
    decreases n - i
    ensures Images(r) == Images(rows)
    ensures |r| <= |rows|
    ensures (forall j :: i <= j ==> !PairAt(rows, j)) ==> r == rows
  {
    if i >= n then rows
    else if PairAt(rows, i) then
      DropText(rows, i);
      Cleanup(rows[..i] + rows[i + 1..], i + 1, n)
    else Cleanup(rows, i + 1, n)
  }

  /** Because the pass moves on after a drop, it can leave a header above a
      header: of three headers in a row, two remain. */
  lemma {:induction false} CleanupLeavesPair(h1: Row, h2: Row, h3: Row)
    requires h1.text != "" && h2.text != "" && h3.text != ""
    ensures Cleanup([h1, h2, h3], 0, 3) == [h2, h3]
    ensures PairAt(Cleanup([h1, h2, h3], 0, 3), 0)
  {
    var rows := [h1, h2, h3];
    assert PairAt(rows, 0);
    assert rows[..0] + rows[1..] == [h2, h3];
    assert !PairAt([h2, h3], 1);
    assert !PairAt([h2, h3], 2);
  }

  /** `_remove_items`: remove image `k` of the job (or all its images when
      `k` is -1), renumber, then run the clean-up pass. */
  function RemoveItems(rows: seq<Row>, id: string, k: int): (r: seq<Row>)
    ensures |r| <= |rows|
    ensures FindJob(rows, id).None? ==> Images(r) == Images(rows)
  {
    var edited := match FindJob(rows, id)
      case None => rows
      case Some(s) => rows[..s] + Pass(rows[s..], id, k);
    Cleanup(edited, 0, |edited|)
  }

  /** The longest run of the job's rows from position `s`. */
  function RunLength(rows: seq<Row>, id: string, s: nat): (m: nat)
    requires s <= |rows|
    decreases |rows| - s
    ensures s + m <= |rows|
    ensures forall j :: s <= j < s + m ==> rows[j].job == id
    ensures s + m == |rows| || rows[s + m].job != id
  {
    if s == |rows| || rows[s].job != id then 0 else 1 + RunLength(rows, id, s + 1)
  }

  /** Before the clean-up, only the job's run is edited: the rows after it
      are untouched (and those above it are not visited at all). */
  lemma {:induction false} EditShape(rows: seq<Row>, id: string, k: int, s: nat)
    requires s <= |rows|
    ensures var m := RunLength(rows, id, s);
            Pass(rows[s..], id, k) == Pass(rows[s..s + m], id, k) + rows[s + m..]
  {
    var m := RunLength(rows, id, s);
    RunBounds(rows, id, s, m);
    SliceSplit(rows, s, s + m);
    PassSplit(rows[s..], rows[s..s + m], rows[s + m..], id, k);
  }

  /** The run found by `RunLength` is all the job's, and what follows it is
      not. */
  lemma {:induction false} RunBounds(rows: seq<Row>, id: string, s: nat, m: nat)
    requires s <= |rows| && m == RunLength(rows, id, s)
    ensures AllOf(rows[s..s + m], id)
    ensures rows[s + m..] == [] || rows[s + m..][0].job != id
  {
    var run := rows[s..s + m];
    forall i | 0 <= i < |run| ensures run[i].job == id {
      assert run[i] == rows[s + i];
    }
  }

  lemma {:induction false} SliceSplit<T>(rows: seq<T>, s: nat, e: nat)
    requires s <= e <= |rows|
    ensures rows[s..] == rows[s..e] + rows[e..]
  {
  }

  lemma {:induction false} PassSplit(whole: seq<Row>, run: seq<Row>, tail: seq<Row>, id: string, k: int)
    requires whole == run + tail && AllOf(run, id) && (tail == [] || tail[0].job != id)
    ensures Pass(whole, id, k) == Pass(run, id, k) + tail
  {
    PassStops(run, tail, id, k);
  }
}

=== FILE: job_display.dfy ===
/** The text the generation docker's metadata panel shows for the selected
    job: a PROMPT section, a NAME section when the display name says
    something the prompt does not, PARAMETERS, a TECHNICAL section listing the
    job's metadata when there is any, and INFORMATION. Each section is a
    title, a rule of forty box-drawing characters and its lines; sections
    after the first are preceded by an empty line. */
module JobDisplay {
  import opened Text
  import opened Json
  import opened Jobs
  import opened Clock
  import Dict

  /** The rule under every section title. */
  function Rule(): (r: string)
    ensures |r| == 40 && forall i :: 0 <= i < 40 ==> r[i] == '─'
  {
    seq(40, _ => '─')
  }

  /** `_get_translation`: the labels of the well-known metadata keys. */
  const Translations: Dict.Dict<string, string> :=
    [("checkpoint", "Model"), ("sampler", "Sampler"), ("steps", "Steps"), ("cfg", "CFG"),
     ("loras", "LoRA"), ("negative_prompt", "Negative prompt"), ("strength", "Strength"),
     ("style", "Style")]

  /** A key is shown under its label; a key without one is shown as is. No
      label equals its key, so the key comes back unchanged exactly when it
      has no label. */
  function Translate(key: string): (shown: string)
    ensures Dict.Get(Translations, key).Some? ==> shown == Dict.Get(Translations, key).value
    ensures shown == key <==> !Dict.HasKey(Translations, key)
  {
    match Dict.Get(Translations, key)
    case Some(l) =>
      assert forall i :: 0 <= i < |Translations| ==> Translations[i].0 != Translations[i].1;
      l
    case None => key
  }

  /** The job-kind label: only animation and upscaling are named, everything
      else shows as diffusion. */
  function KindLabel(k: JobKind): (shown: string)
    ensures shown == "Animation" <==> k.Animation?
    ensures shown == "Upscaling" <==> k.Upscaling?
    ensures shown == "Diffusion" <==> !k.Animation? && !k.Upscaling?
  {
    if k.Animation? then "Animation" else if k.Upscaling? then "Upscaling" else "Diffusion"
  }

  datatype Section = Section(title: string, lines: seq<string>)

  /** The foreign pieces of the display: `Styles.list().find` (the name of the
      job's style, if the style file is known), the `{:.1f}` rendering of a
      percentage, and Python's `repr`/`str` for floats and containers. */
  datatype Host = Host(style: string -> Option<string>, percent: real -> string, fmt: Fmt)

  /** One enabled LoRA entry as `name (strength)`, with `Unknown` and `1.0`
      for a missing name or strength. */
  function LoraText(fields: Dict.Dict<string, Json>, fmt: Fmt): string {
    PyStr(Dict.GetOr(fields, "name", JStr("Unknown")), fmt) + " ("
    + PyStr(Dict.GetOr(fields, "strength", JFloat(1.0)), fmt) + ")"
  }

  /** The enabled entries of a list of dictionaries (an entry without an
      `enabled` key counts as enabled). An entry that is not a dictionary
      has no `.get` and raises. */
  function LoraTexts(entries: seq<Json>, fmt: Fmt): (r: Result<seq<string>>)
    ensures r.Ok? <==> forall i :: 0 <= i < |entries| ==> entries[i].JObj?
    ensures r.Ok? ==> |r.value| <= |entries|
  {
    if entries == [] then Ok([])
    else if !entries[0].JObj? then Err("AttributeError")
    else
      var fields := entries[0].fields;
      match LoraTexts(entries[1..], fmt)
      case Err(e) => Err(e)
      case Ok(rest) =>
        if Truthy(Dict.GetOr(fields, "enabled", JBool(true)))
        then Ok([LoraText(fields, fmt)] + rest) else Ok(rest)
  }

  /** The entries are rendered one by one: the texts for `a + b` are those
      for `a` followed by those for `b`, and rendering fails exactly when
      either part fails. */
  lemma {:induction false} LoraTextsAppend(a: seq<Json>, b: seq<Json>, fmt: Fmt)
    ensures LoraTexts(a + b, fmt).Ok? <==> LoraTexts(a, fmt).Ok? && LoraTexts(b, fmt).Ok?
    ensures LoraTexts(a + b, fmt).Ok? ==> LoraTexts(a + b, fmt).value == LoraTexts(a, fmt).value + LoraTexts(b, fmt).value
    decreases |a|
  {
    if a == [] {
      assert a + b == b;
    } else {
      assert (a + b)[0] == a[0] && (a + b)[1..] == a[1..] + b;
      LoraTextsAppend(a[1..], b, fmt);
    }
  }

  /** One entry: a non-dictionary raises; a switched-off dictionary gives no
      text; an enabled one gives `name (strength)`. */
  lemma {:induction false} LoraTextsOne(x: Json, fmt: Fmt)
    ensures !x.JObj? ==> LoraTexts([x], fmt).Err?
    ensures x.JObj? && !Truthy(Dict.GetOr(x.fields, "enabled", JBool(true))) ==> LoraTexts([x], fmt) == Ok([])
    ensures x.JObj? && Truthy(Dict.GetOr(x.fields, "enabled", JBool(true))) ==>
              LoraTexts([x], fmt) == Ok([PyStr(Dict.GetOr(x.fields, "name", JStr("Unknown")), fmt) + " ("
                                         + PyStr(Dict.GetOr(x.fields, "strength", JFloat(1.0)), fmt) + ")"])
  {
    var e := [x];
    assert e[0] == x && e[1..] == [];
    assert LoraTexts(e[1..], fmt) == Ok([]);
    if x.JObj? {
      assert [LoraText(x.fields, fmt)] + [] == [LoraText(x.fields, fmt)];
    }
  }

  /** A non-empty list whose first element is a dictionary: the metadata
      shape of a LoRA list. */
  predicate IsDictList(v: Json) {
    v.JArr? && |v.items| > 0 && v.items[0].JObj?
  }

  /** The line one metadata entry contributes to TECHNICAL, if any: the style
      entry is dropped when the style is known (PARAMETERS names it), an empty
      list is dropped, a list of dictionaries lists its enabled entries, a
      non-empty negative prompt gets its own short label, and anything else is
      `label: value`. */
  function TechnicalLine(key: string, value: Json, styleKnown: bool, fmt: Fmt): (r: Result<Option<string>>)
    ensures r.Ok? && r.value.None? <==> (key == "style" && styleKnown) || value == JArr([])
    ensures r.Err? ==> IsDictList(value)
    ensures r.Ok? && r.value.Some? && !(key == "negative_prompt" && Truthy(value)) ==>
              StartsWith(r.value.value, Translate(key) + ": ")
    ensures !(key == "style" && styleKnown) && IsDictList(value) ==>
              match LoraTexts(value.items, fmt)
              case Err(_) => r.Err?
              case Ok(texts) => r == Ok(Some(Translate(key) + ": " + (if texts == [] then "None" else Join(", ", texts))))
    ensures key == "negative_prompt" && Truthy(value) && !IsDictList(value) ==>
              r == Ok(Some("Negative: " + PyStr(value, fmt)))
    ensures !(key == "style" && styleKnown) && value != JArr([]) && !IsDictList(value)
            && !(key == "negative_prompt" && Truthy(value)) ==>
              r == Ok(Some(Translate(key) + ": " + PyStr(value, fmt)))
  {
    if key == "style" && styleKnown then Ok(None)
    else if value.JArr? && |value.items| == 0 then Ok(None)
    else if value.JArr? && value.items[0].JObj? then
      match LoraTexts(value.items, fmt)
      case Err(e) => Err(e)
      case Ok(texts) => Ok(Some(Translate(key) + ": " + (if texts == [] then "None" else Join(", ", texts))))
    else if key == "negative_prompt" && Truthy(value) then Ok(Some("Negative: " + PyStr(value, fmt)))
    else Ok(Some(Translate(key) + ": " + PyStr(value, fmt)))
  }

  /** The TECHNICAL lines, one entry at a time; at most one line per entry. */
  function TechnicalLines(items: Dict.Dict<string, Json>, styleKnown: bool, fmt: Fmt): (r: Result<seq<string>>)
    ensures r.Ok? ==> |r.value| <= |items|
    ensures r.Ok? <==> forall i :: 0 <= i < |items| ==> TechnicalLine(items[i].0, items[i].1, styleKnown, fmt).Ok?
  {
    if items == [] then Ok([])
    else
      match TechnicalLine(items[0].0, items[0].1, styleKnown, fmt)
      case Err(e) => Err(e)
      case Ok(line) =>
        match TechnicalLines(items[1..], styleKnown, fmt)
        case Err(e) => Err(e)
        case Ok(rest) => Ok((if line.Some? then [line.value] else []) + rest)
  }

  /** The metadata is rendered entry by entry: the lines for `a + b` are
      those for `a` followed by those for `b`, and rendering fails exactly
      when either part fails. */
  lemma {:induction false} TechnicalLinesAppend(a: Dict.Dict<string, Json>, b: Dict.Dict<string, Json>, styleKnown: bool, fmt: Fmt)
    ensures TechnicalLines(a + b, styleKnown, fmt).Ok? <==> TechnicalLines(a, styleKnown, fmt).Ok? && TechnicalLines(b, styleKnown, fmt).Ok?
    ensures TechnicalLines(a + b, styleKnown, fmt).Ok? ==>
              TechnicalLines(a + b, styleKnown, fmt).value == TechnicalLines(a, styleKnown, fmt).value + TechnicalLines(b, styleKnown, fmt).value
    decreases |a|
  {
    if a == [] {
      assert a + b == b;
    } else {
      assert (a + b)[0] == a[0] && (a + b)[1..] == a[1..] + b;
      TechnicalLinesAppend(a[1..], b, styleKnown, fmt);
    }
  }

  /** One entry contributes exactly its own line, nothing when it has none,
      and fails when its line does. */
  lemma {:induction false} TechnicalLinesOne(key: string, value: Json, styleKnown: bool, fmt: Fmt)
    ensures var line := TechnicalLine(key, value, styleKnown, fmt);
            && (line.Err? <==> TechnicalLines([(key, value)], styleKnown, fmt).Err?)
            && (line.Ok? && line.value.None? ==> TechnicalLines([(key, value)], styleKnown, fmt) == Ok([]))
            && (line.Ok? && line.value.Some? ==> TechnicalLines([(key, value)], styleKnown, fmt) == Ok([line.value.value]))
  {
    var d := [(key, value)];
    assert d[0] == (key, value) && d[1..] == [];
    assert TechnicalLines(d[1..], styleKnown, fmt) == Ok([]);
    var line := TechnicalLine(key, value, styleKnown, fmt);
    if line.Ok? && line.value.Some? {
      assert [line.value.value] + [] == [line.value.value];
    }
  }

  /** INFORMATION: the kind, the date, and the image count when there is more
      than one image. */
  function Information(job: Job): (lines: seq<string>)
    ensures |lines| == 2 || |lines| == 3
    ensures lines[0] == "Type: " + KindLabel(job.kind)
    ensures |lines| == 3 <==> |job.results| > 1
    ensures lines[1] == "Generated: " + DisplayStamp(job.timestamp)
    ensures |lines| == 3 ==> lines[2] == "Images: " + NatToString(|job.results|)
  {
    ["Type: " + KindLabel(job.kind), "Generated: " + DisplayStamp(job.timestamp)]
    + (if |job.results| > 1 then ["Images: " + NatToString(|job.results|)] else [])
  }

  /** Whether the NAME section is shown. */
  predicate ShowsName(p: JobParams) {
    p.name != "" && p.name != p.prompt
  }

  function Titles(sections: seq<Section>): seq<string> {
    seq(|sections|, i requires 0 <= i < |sections| => sections[i].title)
  }

  lemma {:induction false} TitlesAppend(a: seq<Section>, b: seq<Section>)
    ensures Titles(a + b) == Titles(a) + Titles(b)
  {
  }

  /** PROMPT, NAME when shown, and PARAMETERS (seed, strength, and the style
      when its file is known). */
  function Head(p: JobParams, style: Option<string>, host: Host): (h: seq<Section>)
    ensures Titles(h) == ["PROMPT"] + (if ShowsName(p) then ["NAME"] else []) + ["PARAMETERS"]
    ensures h[0] == Section("PROMPT", [p.prompt])
    ensures ShowsName(p) ==> h[1] == Section("NAME", [p.name])
    ensures h[|h| - 1].title == "PARAMETERS" && 2 <= |h[|h| - 1].lines| <= 3
    ensures h[|h| - 1].lines[..2] == ["Seed: " + IntToString(p.seed), "Strength: " + host.percent(p.strength * 100.0) + "%"]
    ensures |h[|h| - 1].lines| == 3 <==> style.Some?
    ensures style.Some? ==> h[|h| - 1].lines[2] == "Style: " + style.value
  {
    var prompt := [Section("PROMPT", [p.prompt])];
    var name := if ShowsName(p) then [Section("NAME", [p.name])] else [];
    var params := [Section("PARAMETERS",
                           ["Seed: " + IntToString(p.seed), "Strength: " + host.percent(p.strength * 100.0) + "%"]
                           + (if style.Some? then ["Style: " + style.value] else []))];
    TitlesAppend(prompt, name);
    TitlesAppend(prompt + name, params);
    prompt + name + params
  }

  /** The sections, in display order; only a metadata entry that is a list
      of dictionaries with a non-dictionary in it makes the display fail. */
  function Sections(job: Job, host: Host): (r: Result<seq<Section>>)
    ensures r.Ok? ==> (Titles(r.value) ==
                       ["PROMPT"] + (if ShowsName(job.params) then ["NAME"] else []) + ["PARAMETERS"]
                       + (if job.params.metadata != [] then ["TECHNICAL"] else []) + ["INFORMATION"])
    ensures r.Ok? ==> r.value[0] == Section("PROMPT", [job.params.prompt])
    ensures r.Ok? ==> r.value[|r.value| - 1] == Section("INFORMATION", Information(job))
    ensures r.Ok? <==> job.params.metadata == [] || TechnicalLines(job.params.metadata, host.style(job.params.style).Some?, host.fmt).Ok?
  {
    var p := job.params;
    var style := host.style(p.style);
    var head := Head(p, style, host);
    var info := [Section("INFORMATION", Information(job))];
    if p.metadata == [] then
      TitlesAppend(head, info);
      Ok(head + info)
    else
      match TechnicalLines(p.metadata, style.Some?, host.fmt)
      case Err(e) => Err(e)
      case Ok(lines) =>
        var tech := [Section("TECHNICAL", lines)];
        TitlesAppend(head, tech);
        TitlesAppend(head + tech, info);
        Ok(head + tech + info)
  }

  /** The lines of the panel: each section's title, rule and lines, with an
      empty line before every section but the first. */
  function Render(sections: seq<Section>, first: bool): seq<string>
    decreases |sections|
  {
    if sections == [] then []
    else (if first then [] else [""]) + [sections[0].title, Rule()] + sections[0].lines
         + Render(sections[1..], false)
  }

  /** `_format_metadata_for_display`. */
  function Display(job: Job, host: Host): (r: Result<string>)
    ensures r.Ok? <==> Sections(job, host).Ok?
  {
    match Sections(job, host)
    case Err(e) => Err(e)
    case Ok(sections) => Ok(Join("\n", Render(sections, true)))
  }

  /** The panel always opens with the prompt: its first three lines are the
      title, the rule and the prompt itself. */
  lemma {:induction false} DisplayOpensWithPrompt(job: Job, host: Host)
    requires Sections(job, host).Ok?
    ensures Render(Sections(job, host).value, true)[..3] == ["PROMPT", Rule(), job.params.prompt]
  {
    var s := Sections(job, host).value;
    assert s[0] == Section("PROMPT", [job.params.prompt]);
  }
}

=== FILE: jobs.dfy ===
/** The generation jobs the metadata code reads: kind, state, parameters,
    creation time and result images. Only the fields the metadata core
    looks at are kept. */
module Jobs {
  import opened Json
  import opened Clock
  import Dict

  /** `JobKind`. The three kinds the metadata code tests for are spelled
      out; the others (control layer, live preview) keep their enum name. */
  datatype JobKind = Diffusion | Animation | Upscaling | OtherKind(kindName: string)

  /** `job.kind.name`. */
  function KindName(k: JobKind): string {
    match k
    case Diffusion => "diffusion"
    case Animation => "animation"
    case Upscaling => "upscaling"
    case OtherKind(n) => n
  }

  /** The kinds whose results are kept in the history and saved in bulk:
      diffusion, animation and upscaling. */
  predicate HasImages(k: JobKind) {
    k.Diffusion? || k.Animation? || k.Upscaling?
  }

  /** Only `finished` is ever compared against. */
  datatype JobState = Finished | Unfinished

  /** A result image; its pixels are never inspected by the metadata code. */
  datatype Image = Image(handle: nat)

  /** `JobParams`: the prompt, the display name, the seed, the denoising
      strength, the style file name and the free-form metadata dictionary. */
  datatype JobParams = JobParams(prompt: string, name: string, seed: int, strength: real,
                                 style: string, metadata: Dict.Dict<string, Json>)

  datatype Job = Job(id: string, kind: JobKind, state: JobState, params: JobParams,
                     timestamp: DateTime, results: seq<Image>)
}

=== FILE: json.dfy ===
/** JSON values as the metadata code handles them, with the compact
    serialiser `json.dumps(v, ensure_ascii=False, separators=(',', ':'))`
    spelled out, the string escaping it uses and its inverse, and the Python
    conversions `str(v)` and truthiness. */
module Json {
  import opened Text
  import Dict

  /** A JSON value; Python floats are reals, objects keep insertion order. */
  datatype Json =
    | JNull
    | JBool(b: bool)
    | JInt(i: int)
    | JFloat(x: real)
    | JStr(s: string)
    | JArr(items: seq<Json>)
    | JObj(fields: Dict.Dict<string, Json>)

  /** The two pieces of Python value formatting this model does not spell
      out: `repr` of a float, and `str` of a list or dict. */
  datatype Fmt = Fmt(float: real -> string, container: Json -> string)

  /** Python truthiness: `None`, `False`, zero, and empty strings and
      containers are false. */
  predicate Truthy(j: Json) {
    match j
    case JNull => false
    case JBool(b) => b
    case JInt(i) => i != 0
    case JFloat(x) => x != 0.0
    case JStr(s) => s != ""
    case JArr(items) => items != []
    case JObj(fields) => fields != []
  }

  /** Python `str(v)`. */
  function PyStr(j: Json, fmt: Fmt): string {
    match j
    case JNull => "None"
    case JBool(b) => if b then "True" else "False"
    case JInt(i) => IntToString(i)
    case JFloat(x) => fmt.float(x)
    case JStr(s) => s
    case JArr(_) => fmt.container(j)
    case JObj(_) => fmt.container(j)
  }

  function HexDigit(d: nat): (c: char)
    requires d < 16
  {
    "0123456789abcdef"[d]
  }

  /** The escape `json.dumps` writes for one character when `ensure_ascii`
      is off: the quote, the backslash and the control characters below
      U+0020 are escaped, everything else is written as is. */
  function EscapeChar(c: char): string {
    if c == '"' then "\\\""
    else if c == '\\' then "\\\\"
    else if c == '\n' then "\\n"
    else if c == '\r' then "\\r"
    else if c == '\t' then "\\t"
    else if c as int == 0x08 then "\\b"
    else if c as int == 0x0C then "\\f"
    else if c as int < 0x20 then "\\u00" + [HexDigit(c as int / 16), HexDigit(c as int % 16)]
    else [c]
  }

  function Escape(s: string): string {
    if s == [] then "" else EscapeChar(s[0]) + Escape(s[1..])
  }

  /** A JSON string literal. */
  function Quote(s: string): string {
    "\"" + Escape(s) + "\""
  }

  function HexValue(c: char): Option<nat> {
    if '0' <= c <= '9' then Some(c as int - '0' as int)
    else if 'a' <= c <= 'f' then Some(c as int - 'a' as int + 10)
    else if 'A' <= c <= 'F' then Some(c as int - 'A' as int + 10)
    else None
  }

  /** Reads the body of a JSON string literal back (the decoder's view of
      `Escape`); `None` on a malformed escape. */
  function Unescape(e: string): Option<string>
    decreases |e|
  {
    if e == [] then Some("")
    else if e[0] != '\\' then
      match Unescape(e[1..])
      case None => None
      case Some(rest) => Some([e[0]] + rest)
    else if |e| < 2 then None
    else
      var k := e[1];
      var simple :=
        if k == '"' then Some('"') else if k == '\\' then Some('\\')
        else if k == '/' then Some('/') else if k == 'n' then Some('\n')
        else if k == 'r' then Some('\r') else if k == 't' then Some('\t')
        else if k == 'b' then Some(8 as char) else if k == 'f' then Some(12 as char)
        else None;
      if simple.Some? then
        match Unescape(e[2..])
        case None => None
        case Some(rest) => Some([simple.value] + rest)
      else if k == 'u' && |e| >= 6 then
        var h := [HexValue(e[2]), HexValue(e[3]), HexValue(e[4]), HexValue(e[5])];
        if h[0].Some? && h[1].Some? && h[2].Some? && h[3].Some? then
          var n := ((h[0].value * 16 + h[1].value) * 16 + h[2].value) * 16 + h[3].value;
          if n < 0xD800 then
            match Unescape(e[6..])
            case None => None
            case Some(rest) => Some([n as char] + rest)
          else None
        else None
      else None
  }

  lemma {:induction false} UnescapeChar(c: char, rest: string)
    ensures Unescape(EscapeChar(c) + rest) ==
      match Unescape(rest)
      case None => None
      case Some(r) => Some([c] + r)
  {
    if c as int < 0x20 && c != '\n' && c != '\r' && c != '\t' && c as int != 0x08 && c as int != 0x0C {
      UnescapeHex(c, rest);
    } else if c == '"' || c == '\\' || c == '\n' || c == '\r' || c == '\t' || c as int == 0x08 || c as int == 0x0C {
      UnescapeShort(c, rest);
    } else {
      var e := EscapeChar(c) + rest;
      assert e[1..] == rest;
    }
  }

  /** A `\u00XX` escape reads back as its character. */
  lemma {:induction false} UnescapeHex(c: char, rest: string)
    requires c as int < 0x20 && c != '\n' && c != '\r' && c != '\t' && c as int != 0x08 && c as int != 0x0C
    ensures Unescape(EscapeChar(c) + rest) ==
      match Unescape(rest)
      case None => None
      case Some(r) => Some([c] + r)
  {
    var e := EscapeChar(c) + rest;
    var hi, lo := c as int / 16, c as int % 16;
    assert e[..6] == "\\u00" + [HexDigit(hi), HexDigit(lo)];
    assert e[6..] == rest;
    assert HexValue(e[4]) == Some(hi);
    assert HexValue(e[5]) == Some(lo);
  }

  /** A two-character escape reads back as its character. */
  lemma {:induction false} UnescapeShort(c: char, rest: string)
    requires c == '"' || c == '\\' || c == '\n' || c == '\r' || c == '\t' || c as int == 0x08 || c as int == 0x0C
    ensures Unescape(EscapeChar(c) + rest) ==
      match Unescape(rest)
      case None => None
      case Some(r) => Some([c] + r)
  {
    var e := EscapeChar(c) + rest;
    assert e[2..] == rest;
  }

  /** Decoding a string literal's body gives back the escaped string. */
  lemma {:induction false} UnescapeEscape(s: string)
    ensures Unescape(Escape(s)) == Some(s)
  {
    if s != [] {
      UnescapeEscape(s[1..]);
      UnescapeChar(s[0], Escape(s[1..]));
      assert [s[0]] + s[1..] == s;
    }
  }

  /** Text with no quote, backslash or control character is written as is. */
  lemma {:induction false} EscapePlain(s: string)
    requires forall i :: 0 <= i < |s| ==> s[i] != '"' && s[i] != '\\' && s[i] as int >= 0x20
    ensures Escape(s) == s
  {
    if s != [] {
      EscapePlain(s[1..]);
      assert [s[0]] + s[1..] == s;
    }
  }

  lemma {:induction false} EscapeLength(s: string)
    ensures |Escape(s)| >= |s|
  {
    if s != [] {
      EscapeLength(s[1..]);
    }
  }

  /** The compact serialisation of a value; `fmt.float` is Python's float
      `repr`. */
  function Serialize(j: Json, fmt: Fmt): string
    decreases j, 1
  {
    match j
    case JNull => "null"
    case JBool(b) => if b then "true" else "false"
    case JInt(i) => IntToString(i)
    case JFloat(x) => fmt.float(x)
    case JStr(s) => Quote(s)
    case JArr(items) => "[" + SerializeItems(j, items, fmt) + "]"
    case JObj(fields) => "{" + SerializeFields(j, fields, fmt) + "}"
  }

  function SerializeItems(ghost parent: Json, items: seq<Json>, fmt: Fmt): string
    requires parent.JArr? && forall i :: 0 <= i < |items| ==> items[i] < parent
    decreases parent, 0, |items|
  {
    if items == [] then ""
    else if |items| == 1 then Serialize(items[0], fmt)
    else Serialize(items[0], fmt) + "," + SerializeItems(parent, items[1..], fmt)
  }

  function SerializeFields(ghost parent: Json, fields: Dict.Dict<string, Json>, fmt: Fmt): string
    requires parent.JObj? && forall i :: 0 <= i < |fields| ==> fields[i].1 < parent
    decreases parent, 0, |fields|
  {
    if fields == [] then ""
    else
      var member := Quote(fields[0].0) + ":" + Serialize(fields[0].1, fmt);
      if |fields| == 1 then member
      else member + "," + SerializeFields(parent, fields[1..], fmt)
  }
}

=== FILE: naming.dfy ===
/** Where an auto-saved image goes: the category folder, the file name and
    the per-document folder. */
module Naming {
  import opened Text
  import opened Jobs

  /** The category an image is filed under. */
  datatype Category = Upscale | Refine | ImgGenerate

  /** Upscaling jobs are `Upscale`; any other job is `Refine` when its
      strength is below 1 and `ImgGenerate` otherwise. */
  function CategoryOf(kind: JobKind, strength: real): (c: Category)
    ensures c == Upscale <==> kind == Upscaling
    ensures c == Refine <==> kind != Upscaling && strength < 1.0
    ensures c == ImgGenerate <==> kind != Upscaling && strength >= 1.0
  {
    if kind.Upscaling? then Upscale
    else if strength < 1.0 then Refine
    else ImgGenerate
  }

  /** The folder and file-name label of a category. */
  function Label(c: Category): (s: string)
    ensures s != [] && '_' !in s && '/' !in s
  {
    match c
    case Upscale => "Upscale"
    case Refine => "Refine"
    case ImgGenerate => "ImgGenerate"
  }

  /** `str(name).replace(' ', '_')[:50]`: the name with every space turned
      into an underscore, cut to at most 50 characters. */
  function FilePrefix(name: string): (r: string)
    ensures |r| <= 50
    ensures |r| == if |name| <= 50 then |name| else 50
    ensures forall i :: 0 <= i < |r| ==> r[i] != ' '
    ensures forall i :: 0 <= i < |r| ==> r[i] == (if name[i] == ' ' then '_' else name[i])
  {
    Take(ReplaceChar(name, ' ', '_'), 50)
  }

  /** `f"{prefix}_{timestamp}_{image_type}_{i}.png"`. */
  function FileName(prefix: string, stamp: string, tag: string, i: nat): string {
    prefix + "_" + stamp + "_" + tag + "_" + NatToString(i) + ".png"
  }

  /** With the prefix and the tag fixed and time stamps of one length,
      equal file names mean equal batch indices (and equal stamps), so the
      images of one batch never share a name, even when saved within the
      same millisecond. */
  lemma {:induction false} FileNameIndexInjective(prefix: string, stamp: string, stamp': string, tag: string, i: nat, j: nat)
    requires |stamp| == |stamp'|
    requires FileName(prefix, stamp, tag, i) == FileName(prefix, stamp', tag, j)
    ensures i == j && stamp == stamp'
  {
    var a := FileName(prefix, stamp, tag, i);
    var b := FileName(prefix, stamp', tag, j);
    var head := prefix + "_" + stamp + "_" + tag + "_";
    var head' := prefix + "_" + stamp' + "_" + tag + "_";
    assert a == head + NatToString(i) + ".png";
    assert b == head' + NatToString(j) + ".png";
    assert |head| == |head'|;
    assert head == a[..|head|] && head' == b[..|head|];
    assert stamp == head[|prefix| + 1..|prefix| + 1 + |stamp|];
    assert stamp' == head'[|prefix| + 1..|prefix| + 1 + |stamp|];
    assert NatToString(i) == a[|head|..|a| - 4];
    assert NatToString(j) == b[|head|..|b| - 4];
    NatToStringInjective(i, j);
  }

  /** The last component of a `/`-separated path. */
  function BaseName(path: string): (r: string)
    ensures '/' !in r
    ensures EndsWith(path, r)
  {
    match LastIndex(path, '/')
    case None => path
    case Some(i) => path[i + 1..]
  }

  /** `PurePath.stem` of a single component: the name without its last
      suffix, where a suffix starts at a dot that is neither the first nor
      the last character. */
  function Stem(name: string): (r: string)
    ensures StartsWith(name, r)
  {
    match LastIndex(name, '.')
    case None => name
    case Some(i) => if 0 < i < |name| - 1 then name[..i] else name
  }

  /** The document sub-folder: the stem of the document's file name, or
      `fallback` for a document that was never saved. */
  function DocFolder(filename: string, fallback: string): (r: string)
    ensures filename == "" ==> r == fallback
    ensures filename != "" ==> '/' !in r
  {
    if filename == "" then fallback else Stem(BaseName(filename))
  }

  /** The fallback folder used by `AutoSaveManager`. */
  const UnsavedFolder := "unsaved_document"

  /** The fallback folder used by the history save in the document
      synchroniser. */
  const UnsavedFolderHistory := "document_non_sauvegarde"

  /** A document saved as `dir/base.ext`, where the base name holds no
      slash or dot and the extension is not empty, gets the folder `base`. */
  lemma {:induction false} DocFolderOfSavedFile(dir: string, base: string, ext: string)
    requires base != [] && '/' !in base && '.' !in base
    requires ext != [] && '/' !in ext && '.' !in ext
    ensures DocFolder(dir + "/" + base + "." + ext, UnsavedFolder) == base
  {
    var name := base + "." + ext;
    LastIndexOfJoin(dir, '/', name);
    assert dir + "/" + base + "." + ext == dir + ['/'] + name;
    LastIndexOfJoin(base, '.', ext);
    assert name == base + ['.'] + ext;
    assert (dir + ['/'] + name)[|dir| + 1..] == name;
    assert name[..|base|] == base;
  }

  /** The full path of a saved image: `base / doc / category / file`. */
  function ImagePath(base: string, doc: string, tag: string, file: string): string {
    base + "/" + doc + "/" + tag + "/" + file
  }
}

=== FILE: panel_metadata.dfy ===
/** The stand-alone metadata panel's view of an external image: the
    dictionary it extracts from an image reader (the PNG text entries, the
    size and the format) and the text it shows for that dictionary, with the
    plugin's own JSON record, if any, shown first. */
module PanelMetadata {
  import opened Text
  import opened Json
  import opened PngText
  import Dict

  /** What `QImageReader.format()` reports: nothing, a UTF-8 name, or bytes
      that are not UTF-8 (which makes `str(..., 'utf-8')` raise). */
  datatype FormatName = NoFormat | Named(name: string) | Undecodable

  /** An image reader: the text entry under a key (`""` when absent), the
      text keys in reader order, the size when valid, and the format. */
  datatype ImageReader = ImageReader(text: string -> string, keys: seq<string>,
                                     size: Option<(nat, nat)>, format: FormatName)

  /** The keys the extraction writes itself. */
  predicate OwnKey(k: string) {
    k == JsonKey || k == "Dimensions" || k == "Format"
  }

  /** What `json.loads` does with a text: a value, a `JSONDecodeError`,
      or another exception (a `RecursionError` for deeply nested input, a
      `ValueError` for an integer beyond the digit limit). */
  datatype Loaded = Decoded(json: Json) | DecodeError | OtherError

  /** The `metadata` text the extraction parses: only for a `.png` path,
      and only when it is non-empty. */
  predicate ReadsJson(path: string, reader: ImageReader) {
    EndsWith(AsciiLower(path), ".png") && reader.text(LegacyKeyword) != ""
  }

  /** Parsing raises an exception the inner handler does not catch. */
  predicate Escapes(path: string, reader: ImageReader, loads: string -> Loaded) {
    ReadsJson(path, reader) && loads(reader.text(LegacyKeyword)).OtherError?
  }

  /** The parsed `metadata` text becomes the `AI_METADATA_JSON` entry; a
      `JSONDecodeError` is ignored; any other exception escapes (`None`). */
  function PngJson(path: string, reader: ImageReader, loads: string -> Loaded): (r: Option<Metadata>)
    ensures r.None? <==> Escapes(path, reader, loads)
    ensures r.Some? ==> forall k :: k != JsonKey ==> Dict.Get(r.value, k).None?
    ensures r.Some? ==> (Dict.Get(r.value, JsonKey).Some? <==>
                           ReadsJson(path, reader) && loads(reader.text(LegacyKeyword)).Decoded?)
    ensures r.Some? && Dict.Get(r.value, JsonKey).Some? ==>
              Dict.Get(r.value, JsonKey) == Some(Parsed(loads(reader.text(LegacyKeyword)).json))
  {
    if ReadsJson(path, reader) then
      match loads(reader.text(LegacyKeyword))
      case Decoded(j) => Some(Dict.Set([], JsonKey, Parsed(j)))
      case DecodeError => Some([])
      case OtherError => None
    else Some([])
  }

  /** Every text entry except `metadata`, copied verbatim in reader order. */
  function CopyKeys(md: Metadata, reader: ImageReader, keys: seq<string>): (r: Metadata)
    decreases |keys|
    ensures forall k :: k in keys && k != LegacyKeyword ==> Dict.Get(r, k) == Some(Note(reader.text(k)))
    ensures forall k :: k !in keys ==> Dict.Get(r, k) == Dict.Get(md, k)
    ensures Dict.Get(r, LegacyKeyword) == Dict.Get(md, LegacyKeyword)
  {
    if keys == [] then md
    else
      var md' := if keys[0] != LegacyKeyword then Dict.Set(md, keys[0], Note(reader.text(keys[0]))) else md;
      CopyKeys(md', reader, keys[1..])
  }

  /** The `Dimensions` entry, when the reader's size is valid. */
  function WithSize(md: Metadata, size: Option<(nat, nat)>): (r: Metadata)
    ensures size.Some? ==> Dict.Get(r, "Dimensions") == Some(Note(NatToString(size.value.0) + "x" + NatToString(size.value.1)))
    ensures size.None? ==> r == md
    ensures forall k :: k != "Dimensions" ==> Dict.Get(r, k) == Dict.Get(md, k)
  {
    match size
    case Some((w, h)) => Dict.Set(md, "Dimensions", Note(NatToString(w) + "x" + NatToString(h)))
    case None => md
  }

  /** The `Format` entry, when the reader names a format; a name that is not
      UTF-8 raises, which the extraction catches, keeping what it has. */
  function WithFormat(md: Metadata, format: FormatName): (r: Metadata)
    ensures format.Named? ==> Dict.Get(r, "Format") == Some(Note(format.name))
    ensures !format.Named? ==> r == md
    ensures forall k :: k != "Format" ==> Dict.Get(r, k) == Dict.Get(md, k)
  {
    match format
    case Named(n) => Dict.Set(md, "Format", Note(n))
    case _ => md
  }

  /** `_extract_image_metadata`. An exception escaping the JSON parse is
      caught by the outer handler before anything else is written, so the
      result is then empty. */
  function Extract(path: string, reader: ImageReader, loads: string -> Loaded): (md: Metadata)
    ensures Escapes(path, reader, loads) ==> md == []
    ensures Dict.Get(md, LegacyKeyword).None?
    ensures !Escapes(path, reader, loads) ==>
              forall k :: k in reader.keys && k != LegacyKeyword && k != "Dimensions" && k != "Format" ==>
                Dict.Get(md, k) == Some(Note(reader.text(k)))
    ensures !Escapes(path, reader, loads) && reader.size.Some? ==>
              Dict.Get(md, "Dimensions") == Some(Note(NatToString(reader.size.value.0) + "x" + NatToString(reader.size.value.1)))
    ensures !Escapes(path, reader, loads) && reader.format.Named? ==> Dict.Get(md, "Format") == Some(Note(reader.format.name))
  {
    match PngJson(path, reader, loads)
    case None => []
    case Some(md0) => WithFormat(WithSize(CopyKeys(md0, reader, reader.keys), reader.size), reader.format)
  }

  /** Nothing else is in the dictionary: a key the reader does not list is
      present only if the extraction writes it itself, and the record entry
      is the reader's own entry of that name if it lists one, or else the
      parsed `metadata` text. */
  lemma {:induction false} ExtractOnly(path: string, reader: ImageReader, loads: string -> Loaded, k: string)
    ensures k !in reader.keys && !OwnKey(k) ==> Dict.Get(Extract(path, reader, loads), k).None?
    ensures reader.size.None? && "Dimensions" !in reader.keys ==> Dict.Get(Extract(path, reader, loads), "Dimensions").None?
    ensures !reader.format.Named? && "Format" !in reader.keys ==> Dict.Get(Extract(path, reader, loads), "Format").None?
    ensures !Escapes(path, reader, loads) && JsonKey in reader.keys ==>
              Dict.Get(Extract(path, reader, loads), JsonKey) == Some(Note(reader.text(JsonKey)))
    ensures !Escapes(path, reader, loads) && JsonKey !in reader.keys ==>
              Dict.Get(Extract(path, reader, loads), JsonKey) == Dict.Get(PngJson(path, reader, loads).value, JsonKey)
  {
    if !Escapes(path, reader, loads) {
      var md0 := PngJson(path, reader, loads).value;
      var md1 := CopyKeys(md0, reader, reader.keys);
      var md2 := WithSize(md1, reader.size);
      assert Extract(path, reader, loads) == WithFormat(md2, reader.format);
    }
  }

  // ---------------------------------------------------------------- display

  /** Python's `key in value` on the stored record: key lookup on a
      dictionary, element test on a list, substring test on a string; a
      number, boolean or `None` raises. */
  function HasField(v: Value, key: string): Result<bool> {
    match v
    case Note(s) => Ok(Contains(s, key))
    case Parsed(j) =>
      match j
      case JObj(f) => Ok(Dict.HasKey(f, key))
      case JArr(items) => Ok(JStr(key) in items)
      case JStr(s) => Ok(Contains(s, key))
      case _ => Err("TypeError")
  }

  /** `value[key]` after a successful `key in value`: only a dictionary can
      be indexed by a string. */
  function Field(v: Value, key: string): Result<Json> {
    if v.Parsed? && v.json.JObj? && Dict.HasKey(v.json.fields, key)
    then Ok(Dict.Get(v.json.fields, key).value) else Err("TypeError")
  }

  /** A line appended as is: joining the lines later needs a string. */
  function AsLine(j: Json): Result<string> {
    if j.JStr? then Ok(j.s) else Err("TypeError")
  }

  /** A titled block for a string field: the title, the value and an empty
      line, when the field is present (and, if `needTruthy`, not empty). */
  function Block(v: Value, key: string, title: string, needTruthy: bool): (r: Result<seq<string>>)
    ensures v.Parsed? && v.json.JObj? && Dict.Get(v.json.fields, key).None? ==> r == Ok([])
    ensures v.Parsed? && v.json.JObj? && Dict.Get(v.json.fields, key) == Some(JStr("")) && needTruthy ==> r == Ok([])
    ensures v.Parsed? && v.json.JObj? && Dict.Get(v.json.fields, key).Some? && Dict.Get(v.json.fields, key).value.JStr?
            && (!needTruthy || Dict.Get(v.json.fields, key).value.s != "") ==>
              r == Ok([title, Dict.Get(v.json.fields, key).value.s, ""])
  {
    match HasField(v, key)
    case Err(e) => Err(e)
    case Ok(false) => Ok([])
    case Ok(true) =>
      match Field(v, key)
      case Err(e) => Err(e)
      case Ok(j) =>
        if needTruthy && !Truthy(j) then Ok([])
        else match AsLine(j)
          case Err(e) => Err(e)
          case Ok(s) => Ok([title, s, ""])
  }

  /** A numeric strength times a hundred, formatted by `{:.1f}`; any other
      value raises. */
  function StrengthLine(j: Json, percent: real -> string): Result<string> {
    match j
    case JInt(i) => Ok("Strength: " + percent(i as real * 100.0) + "%")
    case JFloat(x) => Ok("Strength: " + percent(x * 100.0) + "%")
    case JBool(b) => Ok("Strength: " + percent(if b then 100.0 else 0.0) + "%")
    case _ => Err("TypeError")
  }

  /** The PARAMETERS block: the seed, and the strength when present. */
  function ParametersBlock(v: Value, fmt: Fmt, percent: real -> string): Result<seq<string>> {
    match HasField(v, "seed")
    case Err(e) => Err(e)
    case Ok(false) => Ok([])
    case Ok(true) =>
      match Field(v, "seed")
      case Err(e) => Err(e)
      case Ok(seed) =>
        var head := ["PARAMETERS:", "Seed: " + PyStr(seed, fmt)];
        match HasField(v, "strength")
        case Err(e) => Err(e)
        case Ok(false) => Ok(head + [""])
        case Ok(true) =>
          match Field(v, "strength")
          case Err(e) => Err(e)
          case Ok(s) =>
            match StrengthLine(s, percent)
            case Err(e) => Err(e)
            case Ok(line) => Ok(head + [line, ""])
  }

  /** The plugin record's blocks: prompt, negative prompt, parameters, style
      and checkpoint. */
  function RecordBlocks(v: Value, fmt: Fmt, percent: real -> string): Result<seq<string>> {
    match Block(v, "prompt", "PROMPT:", false)
    case Err(e) => Err(e)
    case Ok(a) =>
      match Block(v, "negative_prompt", "NEGATIVE PROMPT:", true)
      case Err(e) => Err(e)
      case Ok(b) =>
        match ParametersBlock(v, fmt, percent)
        case Err(e) => Err(e)
        case Ok(c) =>
          match Block(v, "style", "STYLE:", true)
          case Err(e) => Err(e)
          case Ok(d) =>
            match Block(v, "checkpoint", "CHECKPOINT:", true)
            case Err(e) => Err(e)
            case Ok(e') => Ok(a + b + c + d + e')
  }

  function ValueText(v: Value, fmt: Fmt): string {
    match v
    case Note(s) => s
    case Parsed(j) => PyStr(j, fmt)
  }

  /** Every entry but the plugin record, as `key: value`, in dictionary
      order. */
  function Listing(md: Metadata, fmt: Fmt): (lines: seq<string>)
    ensures |lines| <= |md|
    ensures !Dict.HasKey(md, JsonKey) ==> |lines| == |md|
    ensures forall i :: 0 <= i < |md| && md[i].0 != JsonKey ==> md[i].0 + ": " + ValueText(md[i].1, fmt) in lines
    ensures forall l :: l in lines ==> exists i :: 0 <= i < |md| && md[i].0 != JsonKey && l == md[i].0 + ": " + ValueText(md[i].1, fmt)
  {
    if md == [] then []
    else
      var rest := Listing(md[1..], fmt);
      assert forall i :: 1 <= i < |md| ==> md[i] == md[1..][i - 1];
      if md[0].0 != JsonKey then [md[0].0 + ": " + ValueText(md[0].1, fmt)] + rest else rest
  }

  const EmptyMessage := "No metadata found in this image"
  const RecordHeader := "=== AI METADATA (Krita Extension) ==="

  /** The lines of the dialog's text box. The record's blocks come first when
      there is one; an entry that is not a dictionary with string fields
      makes the dialog raise. */
  function PanelLines(md: Metadata, fmt: Fmt, percent: real -> string): (r: Result<seq<string>>)
    ensures md == [] ==> r == Ok([EmptyMessage])
    ensures md != [] && !Dict.HasKey(md, JsonKey) ==>
              r == Ok(["", "=== AVAILABLE METADATA ===", ""] + Listing(md, fmt))
    ensures Dict.HasKey(md, JsonKey) && r.Ok? ==>
              && |r.value| >= 5 + |Listing(md, fmt)|
              && r.value[..2] == [RecordHeader, ""]
              && r.value[|r.value| - |Listing(md, fmt)| - 3..] == ["", "=== DETECTED AI METADATA ===", ""] + Listing(md, fmt)
  {
    if md == [] then Ok([EmptyMessage])
    else if !Dict.HasKey(md, JsonKey) then Ok(["", "=== AVAILABLE METADATA ===", ""] + Listing(md, fmt))
    else
      match RecordBlocks(Dict.Get(md, JsonKey).value, fmt, percent)
      case Err(e) => Err(e)
      case Ok(blocks) =>
        var tail := ["", "=== DETECTED AI METADATA ===", ""] + Listing(md, fmt);
        var lines := [RecordHeader, ""] + blocks + tail;
        assert lines[|lines| - |tail|..] == tail;
        assert lines[..2] == [RecordHeader, ""];
        Ok(lines)
  }

  /** `_show_image_metadata`'s text. */
  function PanelText(md: Metadata, fmt: Fmt, percent: real -> string): (r: Result<string>)
    ensures md == [] ==> r == Ok(EmptyMessage)
  {
    match PanelLines(md, fmt, percent)
    case Err(e) => Err(e)
    case Ok(lines) => Ok(Join("\n", lines))
  }

  /** A record that is a dictionary with a string prompt, a numeric seed and
      nothing else opens with its prompt block, then its parameters. */
  lemma {:induction false} RecordPromptFirst(prompt: string, seed: int, fmt: Fmt, percent: real -> string)
    ensures var v := Parsed(JObj([("prompt", JStr(prompt)), ("seed", JInt(seed))]));
            RecordBlocks(v, fmt, percent) == Ok(["PROMPT:", prompt, "", "PARAMETERS:", "Seed: " + IntToString(seed), ""])
  {
    var f: Dict.Dict<string, Json> := [("prompt", JStr(prompt)), ("seed", JInt(seed))];
    var v := Parsed(JObj(f));
    assert Dict.IndexOf(f, "prompt") == Some(0);
    assert Dict.IndexOf(f, "seed") == Some(1);
    assert Dict.HasKey(f, "seed") && Dict.Get(f, "seed") == Some(JInt(seed));
    assert HasField(v, "seed") == Ok(true) && Field(v, "seed") == Ok(JInt(seed));
    assert HasField(v, "strength") == Ok(false);
    var head := ["PARAMETERS:", "Seed: " + PyStr(JInt(seed), fmt)];
    assert PyStr(JInt(seed), fmt) == IntToString(seed);
    assert head + [""] == ["PARAMETERS:", "Seed: " + IntToString(seed), ""];
    assert Dict.Get(f, "negative_prompt").None?;
    assert Dict.Get(f, "strength").None?;
    assert Dict.Get(f, "style").None?;
    assert Dict.Get(f, "checkpoint").None?;
    assert Block(v, "prompt", "PROMPT:", false) == Ok(["PROMPT:", prompt, ""]);
    assert ParametersBlock(v, fmt, percent) == Ok(["PARAMETERS:", "Seed: " + IntToString(seed), ""]);
    assert Block(v, "negative_prompt", "NEGATIVE PROMPT:", true) == Ok([]);
    assert Block(v, "style", "STYLE:", true) == Ok([]);
    assert Block(v, "checkpoint", "CHECKPOINT:", true) == Ok([]);
    var none: seq<string> := [];
    assert ["PROMPT:", prompt, ""] + none + ["PARAMETERS:", "Seed: " + IntToString(seed), ""] + none + none
           == ["PROMPT:", prompt, "", "PARAMETERS:", "Seed: " + IntToString(seed), ""];
  }
}

=== FILE: png_text.dfy ===
/** How the metadata dialog of the generation docker reads the textual
    chunks of a PNG file into its metadata dictionary: every `tEXt` chunk,
    then every `zTXt` chunk, then every `iTXt` chunk, each one storing an
    entry keyed by its keyword. A chunk whose keyword names the plugin's JSON
    (`AI_METADATA_JSON`, `AI`, `AI_META`, or the older `metadata`) is parsed
    and stored as `AI_METADATA_JSON`, so a later such chunk overwrites an
    earlier one. Chunk layouts follow sections 11.3.4.3 to 11.3.4.5 of the
    W3C PNG Specification (Second Edition). */
module PngText {
  import opened Text
  import opened Json
  import Dict

  type Byte = b: int | 0 <= b < 256

  /** The three library calls the dispatch makes: `bytes.decode('utf-8',
      errors='ignore')`, `zlib.decompress` and `json.loads`; a failing call
      carries the text of its exception. */
  datatype Codec = Codec(decode: seq<Byte> -> string,
                         inflate: seq<Byte> -> Result<seq<Byte>>,
                         parse: string -> Result<Json>)

  /** A dictionary value: parsed JSON, or a text. */
  datatype Value = Parsed(json: Json) | Note(text: string)

  type Metadata = Dict.Dict<string, Value>

  const JsonKey := "AI_METADATA_JSON"

  /** The keywords whose chunk holds the plugin's JSON in the current format. */
  predicate IsAiKeyword(k: string) {
    k == "AI_METADATA_JSON" || k == "AI" || k == "AI_META"
  }

  /** The keyword of the older format. */
  const LegacyKeyword := "metadata"

  /** `chunk.find(b'\0', from)`. */
  function FindNul(chunk: seq<Byte>, from: nat): (r: Option<nat>)
    decreases |chunk| - from
    ensures r.Some? ==> from <= r.value < |chunk| && chunk[r.value] == 0
    ensures r.Some? ==> forall j :: from <= j < r.value ==> chunk[j] != 0
    ensures r.None? ==> forall j :: from <= j < |chunk| ==> chunk[j] != 0
  {
    if from >= |chunk| then None
    else if chunk[from] == 0 then Some(from)
    else FindNul(chunk, from + 1)
  }

  /** The first NUL at or after `from` in `a + [0] + b`, when `a` has none
      from `from` on, is the one joining them. */
  lemma {:induction false} FindNulJoin(a: seq<Byte>, b: seq<Byte>, from: nat)
    requires from <= |a|
    requires forall j :: from <= j < |a| ==> a[j] != 0
    ensures FindNul(a + [0] + b, from) == Some(|a|)
    decreases |a| - from
  {
    var c := a + [0] + b;
    if from < |a| {
      assert c[from] == a[from];
      FindNulJoin(a, b, from + 1);
    } else {
      assert c[from] == 0;
    }
  }

  predicate NoNul(s: seq<Byte>) {
    forall j :: 0 <= j < |s| ==> s[j] != 0
  }

  /** `json.loads(text.strip())` stored as `AI_METADATA_JSON`, or `fallback`
      stored under `failKey` when parsing fails; `fallback` receives the
      exception text. */
  function StoreJson(md: Metadata, codec: Codec, text: string, failKey: string,
                     fallback: string -> string): (r: Metadata)
    ensures codec.parse(Strip(text)).Ok? ==> Dict.Get(r, JsonKey) == Some(Parsed(codec.parse(Strip(text)).value))
    ensures codec.parse(Strip(text)).Err? ==> Dict.Get(r, failKey) == Some(Note(fallback(codec.parse(Strip(text)).msg)))
  {
    match codec.parse(Strip(text))
    case Ok(j) => Dict.Set(md, JsonKey, Parsed(j))
    case Err(e) => Dict.Set(md, failKey, Note(fallback(e)))
  }

  // ---------------------------------------------------------------- tEXt

  /** One `tEXt` chunk: `keyword NUL text`. A chunk without a NUL is skipped. */
  function TextChunk(md: Metadata, codec: Codec, chunk: seq<Byte>): (r: Metadata)
    ensures FindNul(chunk, 0).None? ==> r == md
  {
    match FindNul(chunk, 0)
    case None => md
    case Some(p) =>
      var keyword := codec.decode(chunk[..p]);
      var text := codec.decode(chunk[p + 1..]);
      var key := "PNG_tEXt_" + keyword;
      if IsAiKeyword(keyword) then
        StoreJson(md, codec, text, key, e => "Error parsing JSON: " + e)
      else if keyword == LegacyKeyword then
        StoreJson(md, codec, text, key, e => text)
      else
        Dict.Set(md, key, Note(text))
  }

  function TextChunks(md: Metadata, codec: Codec, chunks: seq<seq<Byte>>): Metadata
    decreases |chunks|
  {
    if chunks == [] then md
    else TextChunks(TextChunk(md, codec, chunks[0]), codec, chunks[1..])
  }

  /** The chunk a writer produces: keyword, NUL separator, text. */
  function EncodeText(keyword: seq<Byte>, text: seq<Byte>): seq<Byte> {
    keyword + [0] + text
  }

  /** Decoding an encoded chunk splits it back at the separator. */
  lemma {:induction false} TextSplit(keyword: seq<Byte>, text: seq<Byte>)
    requires NoNul(keyword)
    ensures FindNul(EncodeText(keyword, text), 0) == Some(|keyword|)
    ensures EncodeText(keyword, text)[..|keyword|] == keyword
    ensures EncodeText(keyword, text)[|keyword| + 1..] == text
  {
    FindNulJoin(keyword, text, 0);
    assert EncodeText(keyword, text) == keyword + [0] + text;
  }

  /** An encoded `tEXt` chunk under an ordinary keyword stores its text under
      `PNG_tEXt_<keyword>`, and no other entry changes. */
  lemma {:induction false} TextRoundTrip(md: Metadata, codec: Codec, keyword: seq<Byte>, text: seq<Byte>)
    requires NoNul(keyword)
    requires !IsAiKeyword(codec.decode(keyword)) && codec.decode(keyword) != LegacyKeyword
    ensures var r := TextChunk(md, codec, EncodeText(keyword, text));
            && Dict.Get(r, "PNG_tEXt_" + codec.decode(keyword)) == Some(Note(codec.decode(text)))
            && forall k :: k != "PNG_tEXt_" + codec.decode(keyword) ==> Dict.Get(r, k) == Dict.Get(md, k)
  {
    TextSplit(keyword, text);
  }

  /** An encoded `tEXt` chunk under a JSON keyword stores the parsed JSON as
      `AI_METADATA_JSON` when it parses; otherwise the failure lands under
      `PNG_tEXt_<keyword>`: the exception text for the current keywords, the
      raw text for `metadata`. */
  lemma {:induction false} TextJson(md: Metadata, codec: Codec, keyword: seq<Byte>, text: seq<Byte>)
    requires NoNul(keyword)
    requires IsAiKeyword(codec.decode(keyword)) || codec.decode(keyword) == LegacyKeyword
    ensures var r := TextChunk(md, codec, EncodeText(keyword, text));
            var parsed := codec.parse(Strip(codec.decode(text)));
            var key := "PNG_tEXt_" + codec.decode(keyword);
            && (parsed.Ok? ==> Dict.Get(r, JsonKey) == Some(Parsed(parsed.value)))
            && (parsed.Err? && IsAiKeyword(codec.decode(keyword)) ==>
                  Dict.Get(r, key) == Some(Note("Error parsing JSON: " + parsed.msg)))
            && (parsed.Err? && !IsAiKeyword(codec.decode(keyword)) ==>
                  Dict.Get(r, key) == Some(Note(codec.decode(text))))
  {
    TextSplit(keyword, text);
  }

  /** Of two JSON `tEXt` chunks that both parse, the later one is the one
      kept as `AI_METADATA_JSON`. */
  lemma {:induction false} LaterTextWins(md: Metadata, codec: Codec, k1: seq<Byte>, t1: seq<Byte>,
                                         k2: seq<Byte>, t2: seq<Byte>)
    requires NoNul(k1) && NoNul(k2)
    requires IsAiKeyword(codec.decode(k1)) || codec.decode(k1) == LegacyKeyword
    requires IsAiKeyword(codec.decode(k2)) || codec.decode(k2) == LegacyKeyword
    requires codec.parse(Strip(codec.decode(t1))).Ok? && codec.parse(Strip(codec.decode(t2))).Ok?
    ensures Dict.Get(TextChunks(md, codec, [EncodeText(k1, t1), EncodeText(k2, t2)]), JsonKey)
            == Some(Parsed(codec.parse(Strip(codec.decode(t2))).value))
  {
    var cs: seq<seq<Byte>> := [EncodeText(k1, t1), EncodeText(k2, t2)];
    var md1 := TextChunk(md, codec, cs[0]);
    TextJson(md1, codec, k2, t2);
    assert |cs[1..][1..]| == 0;
    assert TextChunks(md, codec, cs) == TextChunks(md1, codec, cs[1..]);
    assert TextChunks(md1, codec, cs[1..]) == TextChunks(TextChunk(md1, codec, cs[1]), codec, []);
  }

  // ---------------------------------------------------------------- zTXt

  /** The JSON branch of one `zTXt` chunk, after the keyword's NUL at `p`:
      a compression-method byte, then the compressed text. A chunk ending at
      the NUL raises an index error, reported like any other failure under
      `key` with the prefix `errorPrefix`. */
  function CompressedJson(md: Metadata, codec: Codec, chunk: seq<Byte>, p: nat, key: string,
                          errorPrefix: string): (r: Metadata)
    requires p < |chunk|
    ensures p + 1 < |chunk| && chunk[p + 1] != 0 ==>
              Dict.Get(r, key) == Some(Note("Compression non supportée: " + NatToString(chunk[p + 1])))
    ensures p + 1 >= |chunk| ==>
              Dict.Get(r, key) == Some(Note(errorPrefix + "index out of range"))
    ensures p + 1 < |chunk| && chunk[p + 1] == 0 && codec.inflate(chunk[p + 2..]).Err? ==>
              Dict.Get(r, key) == Some(Note(errorPrefix + codec.inflate(chunk[p + 2..]).msg))
    ensures p + 1 < |chunk| && chunk[p + 1] == 0 && codec.inflate(chunk[p + 2..]).Ok? ==>
              var parsed := codec.parse(Strip(codec.decode(codec.inflate(chunk[p + 2..]).value)));
              && (parsed.Ok? ==> Dict.Get(r, JsonKey) == Some(Parsed(parsed.value)))
              && (parsed.Err? ==> Dict.Get(r, key) == Some(Note(errorPrefix + parsed.msg)))
    ensures forall k :: k != key && k != JsonKey ==> Dict.Get(r, k) == Dict.Get(md, k)
  {
    if p + 1 >= |chunk| then
      Dict.Set(md, key, Note(errorPrefix + "index out of range"))
    else if chunk[p + 1] != 0 then
      Dict.Set(md, key, Note("Compression non supportée: " + NatToString(chunk[p + 1])))
    else
      match codec.inflate(chunk[p + 2..])
      case Err(e) => Dict.Set(md, key, Note(errorPrefix + e))
      case Ok(data) => StoreJson(md, codec, codec.decode(data), key, e => errorPrefix + e)
  }

  /** One `zTXt` chunk: `keyword NUL method data`. Chunks under other keywords
      are only recorded as compressed data. */
  function CompressedChunk(md: Metadata, codec: Codec, chunk: seq<Byte>): (r: Metadata)
    ensures FindNul(chunk, 0).None? ==> r == md
    ensures FindNul(chunk, 0).Some? ==>
              var keyword := codec.decode(chunk[..FindNul(chunk, 0).value]);
              && (!IsAiKeyword(keyword) && keyword != LegacyKeyword ==>
                    Dict.Get(r, "PNG_zTXt_" + keyword) == Some(Note("Données compressées")))
              && forall k :: k != "PNG_zTXt_" + keyword && k != JsonKey ==> Dict.Get(r, k) == Dict.Get(md, k)
  {
    match FindNul(chunk, 0)
    case None => md
    case Some(p) =>
      var keyword := codec.decode(chunk[..p]);
      var key := "PNG_zTXt_" + keyword;
      if IsAiKeyword(keyword) then
        CompressedJson(md, codec, chunk, p, key, "Error parsing JSON: ")
      else if keyword == LegacyKeyword then
        CompressedJson(md, codec, chunk, p, key, "Erreur décompression/parsing: ")
      else
        Dict.Set(md, key, Note("Données compressées"))
  }

  function CompressedChunks(md: Metadata, codec: Codec, chunks: seq<seq<Byte>>): Metadata
    decreases |chunks|
  {
    if chunks == [] then md
    else CompressedChunks(CompressedChunk(md, codec, chunks[0]), codec, chunks[1..])
  }

  /** The chunk a writer produces: keyword, NUL, compression method, data. */
  function EncodeCompressed(keyword: seq<Byte>, compression: Byte, data: seq<Byte>): seq<Byte> {
    keyword + [0] + ([compression] + data)
  }

  lemma {:induction false} CompressedSplit(keyword: seq<Byte>, compression: Byte, data: seq<Byte>)
    requires NoNul(keyword)
    ensures var c := EncodeCompressed(keyword, compression, data);
            && FindNul(c, 0) == Some(|keyword|)
            && c[..|keyword|] == keyword
            && |keyword| + 1 < |c| && c[|keyword| + 1] == compression
            && c[|keyword| + 2..] == data
  {
    FindNulJoin(keyword, [compression] + data, 0);
  }

  /** An encoded `zTXt` chunk under a JSON keyword, with method 0 and data
      that inflates to text that parses, stores that JSON as
      `AI_METADATA_JSON`. */
  lemma {:induction false} CompressedRoundTrip(md: Metadata, codec: Codec, keyword: seq<Byte>, data: seq<Byte>)
    requires NoNul(keyword)
    requires IsAiKeyword(codec.decode(keyword)) || codec.decode(keyword) == LegacyKeyword
    requires codec.inflate(data).Ok?
    requires codec.parse(Strip(codec.decode(codec.inflate(data).value))).Ok?
    ensures Dict.Get(CompressedChunk(md, codec, EncodeCompressed(keyword, 0, data)), JsonKey)
            == Some(Parsed(codec.parse(Strip(codec.decode(codec.inflate(data).value))).value))
  {
    CompressedSplit(keyword, 0, data);
  }

  /** A compression method other than 0 is reported, never inflated. */
  lemma {:induction false} CompressedUnsupported(md: Metadata, codec: Codec, keyword: seq<Byte>, compression: Byte, data: seq<Byte>)
    requires NoNul(keyword) && compression != 0
    requires IsAiKeyword(codec.decode(keyword)) || codec.decode(keyword) == LegacyKeyword
    ensures Dict.Get(CompressedChunk(md, codec, EncodeCompressed(keyword, compression, data)),
                     "PNG_zTXt_" + codec.decode(keyword))
            == Some(Note("Compression non supportée: " + NatToString(compression)))
  {
    CompressedSplit(keyword, compression, data);
  }

  /** An encoded `zTXt` chunk under any other keyword is only recorded as
      compressed data; its bytes are never inflated. */
  lemma {:induction false} CompressedOther(md: Metadata, codec: Codec, keyword: seq<Byte>, compression: Byte, data: seq<Byte>)
    requires NoNul(keyword)
    requires !IsAiKeyword(codec.decode(keyword)) && codec.decode(keyword) != LegacyKeyword
    ensures var r := CompressedChunk(md, codec, EncodeCompressed(keyword, compression, data));
            && Dict.Get(r, "PNG_zTXt_" + codec.decode(keyword)) == Some(Note("Données compressées"))
            && forall k :: k != "PNG_zTXt_" + codec.decode(keyword) ==> Dict.Get(r, k) == Dict.Get(md, k)
  {
    CompressedSplit(keyword, compression, data);
  }

  /** An encoded `zTXt` chunk with method 0 whose data does not inflate
      records the exception text under `PNG_zTXt_<keyword>`, with the prefix
      of its keyword: `Error parsing JSON: ` for the current keywords,
      `Erreur décompression/parsing: ` for `metadata`. */
  lemma {:induction false} CompressedInflateFails(md: Metadata, codec: Codec, keyword: seq<Byte>, data: seq<Byte>)
    requires NoNul(keyword)
    requires IsAiKeyword(codec.decode(keyword)) || codec.decode(keyword) == LegacyKeyword
    requires codec.inflate(data).Err?
    ensures var r := CompressedChunk(md, codec, EncodeCompressed(keyword, 0, data));
            var prefix := if IsAiKeyword(codec.decode(keyword)) then "Error parsing JSON: "
                          else "Erreur décompression/parsing: ";
            Dict.Get(r, "PNG_zTXt_" + codec.decode(keyword)) == Some(Note(prefix + codec.inflate(data).msg))
  {
    CompressedSplit(keyword, 0, data);
  }

  // ---------------------------------------------------------------- iTXt

  /** The chunk a writer produces: keyword, NUL, compression flag,
      compression method, language tag, NUL, translated keyword, NUL, text. */
  function EncodeInternational(keyword: seq<Byte>, flag: Byte, compression: Byte, language: seq<Byte>,
                               translated: seq<Byte>, text: seq<Byte>): seq<Byte> {
    keyword + [0] + ([flag, compression] + language + [0] + translated + [0] + text)
  }

  /** The text bytes the dialog decodes from an `iTXt` chunk, as written:
      everything after the first NUL that follows the keyword's NUL. */
  function InternationalTextAsWritten(chunk: seq<Byte>): (r: Option<(seq<Byte>, seq<Byte>)>)
    ensures r.Some? ==> FindNul(chunk, 0).Some? && r.value.0 == chunk[..FindNul(chunk, 0).value]
  {
    match FindNul(chunk, 0)
    case None => None
    case Some(p) =>
      match FindNul(chunk, p + 1)
      case None => None
      case Some(t) => Some((chunk[..p], chunk[t + 1..]))
  }

  /** With an uncompressed chunk the flag byte itself is that NUL, so the
      bytes decoded begin with the compression method, the language tag and
      the translated keyword. */
  lemma {:induction false} InternationalAsWrittenKeepsHeader(keyword: seq<Byte>, compression: Byte, language: seq<Byte>,
                                          translated: seq<Byte>, text: seq<Byte>)
    requires NoNul(keyword)
    ensures InternationalTextAsWritten(EncodeInternational(keyword, 0, compression, language, translated, text))
            == Some((keyword, [compression] + language + [0] + translated + [0] + text))
  {
    var tail := [0, compression] + language + [0] + translated + [0] + text;
    var c := EncodeInternational(keyword, 0, compression, language, translated, text);
    FindNulJoin(keyword, tail, 0);
    assert c == keyword + [0] + tail;
    assert c[..|keyword|] == keyword;
    assert c[|keyword| + 1] == 0;
    assert FindNul(c, |keyword| + 1) == Some(|keyword| + 1);
    assert c[|keyword| + 2..] == [compression] + language + [0] + translated + [0] + text;
  }

  /** The smallest instance: keyword `k`, no language tag, no translated
      keyword, text `hi`; the decoded bytes carry three extra NULs. */
  lemma {:induction false} InternationalAsWrittenExample()
    ensures InternationalTextAsWritten([107, 0, 0, 0, 0, 0, 104, 105]) == Some(([107], [0, 0, 0, 104, 105]))
  {
    InternationalAsWrittenKeepsHeader([107], 0, [], [], [104, 105]);
    assert EncodeInternational([107], 0, 0, [], [], [104, 105]) == [107, 0, 0, 0, 0, 0, 104, 105];
  }

  /** The text bytes of an `iTXt` chunk, reading the layout: after the
      keyword's NUL come the compression flag and method, then the language
      tag and the translated keyword, each ending in a NUL; the text is what
      follows. Like the code, this does not inflate a compressed text. */
  function InternationalText(chunk: seq<Byte>): (r: Option<(seq<Byte>, seq<Byte>)>)
    ensures r.Some? ==> FindNul(chunk, 0).Some? && r.value.0 == chunk[..FindNul(chunk, 0).value]
  {
    match FindNul(chunk, 0)
    case None => None
    case Some(p) =>
      if p + 3 > |chunk| then None
      else
        match FindNul(chunk, p + 3)
        case None => None
        case Some(l) =>
          match FindNul(chunk, l + 1)
          case None => None
          case Some(t) => Some((chunk[..p], chunk[t + 1..]))
  }

  /** A field without NULs that starts at `|prefix|` ends at the next NUL. */
  lemma {:induction false} FieldEnd(prefix: seq<Byte>, field: seq<Byte>, rest: seq<Byte>)
    requires NoNul(field)
    ensures FindNul(prefix + field + [0] + rest, |prefix|) == Some(|prefix| + |field|)
  {
    var a := prefix + field;
    assert forall j :: |prefix| <= j < |a| ==> a[j] == field[j - |prefix|];
    FindNulJoin(a, rest, |prefix|);
  }

  /** Where the three NULs of an encoded chunk sit: after the keyword, after
      the language tag (searched from past the two flag bytes) and after the
      translated keyword. */
  lemma {:induction false} InternationalLayout(keyword: seq<Byte>, flag: Byte, compression: Byte, language: seq<Byte>,
                            translated: seq<Byte>, text: seq<Byte>)
    requires NoNul(keyword) && NoNul(language) && NoNul(translated)
    ensures var c := EncodeInternational(keyword, flag, compression, language, translated, text);
            var p := |keyword|;
            var l := p + 3 + |language|;
            && FindNul(c, 0) == Some(p) && FindNul(c, p + 3) == Some(l)
            && FindNul(c, l + 1) == Some(l + 1 + |translated|)
            && c[p + 1] == flag && c[..p] == keyword && c[l + 2 + |translated|..] == text
  {
    var c := EncodeInternational(keyword, flag, compression, language, translated, text);
    var head := keyword + [0, flag, compression];
    var upToTranslated := head + language + [0] + translated;
    var none: seq<Byte> := [];
    assert c == none + keyword + [0] + ([flag, compression] + language + [0] + translated + [0] + text);
    FieldEnd(none, keyword, [flag, compression] + language + [0] + translated + [0] + text);
    assert c == head + language + [0] + (translated + [0] + text);
    FieldEnd(head, language, translated + [0] + text);
    assert c == (head + language + [0]) + translated + [0] + text;
    FieldEnd(head + language + [0], translated, text);
    assert c[|keyword| + 1] == head[|keyword| + 1];
    assert c[..|keyword|] == keyword;
    assert c == upToTranslated + [0] + text;
    assert c[|upToTranslated| + 1..] == text;
  }

  /** Reading an encoded chunk gives back exactly its keyword and text. */
  lemma {:induction false} InternationalRoundTrip(keyword: seq<Byte>, flag: Byte, compression: Byte, language: seq<Byte>,
                               translated: seq<Byte>, text: seq<Byte>)
    requires NoNul(keyword) && NoNul(language) && NoNul(translated)
    ensures InternationalText(EncodeInternational(keyword, flag, compression, language, translated, text))
            == Some((keyword, text))
  {
    InternationalLayout(keyword, flag, compression, language, translated, text);
  }

  /** The as-written reading disagrees with the layout on every uncompressed
      chunk: it hands the decoder more bytes than the text. */
  lemma {:induction false} InternationalAsWrittenDiffers(keyword: seq<Byte>, compression: Byte, language: seq<Byte>,
                                      translated: seq<Byte>, text: seq<Byte>)
    requires NoNul(keyword) && NoNul(language) && NoNul(translated)
    ensures var c := EncodeInternational(keyword, 0, compression, language, translated, text);
            InternationalTextAsWritten(c) != InternationalText(c)
  {
    InternationalAsWrittenKeepsHeader(keyword, compression, language, translated, text);
    InternationalRoundTrip(keyword, 0, compression, language, translated, text);
    assert |[compression] + language + [0] + translated + [0] + text| > |text|;
  }

  /** With the flag set and compression method 0, the NUL found is the
      method byte, so the bytes decoded begin with the language tag and the
      translated keyword. */
  lemma {:induction false} InternationalAsWrittenFlagged(keyword: seq<Byte>, flag: Byte, language: seq<Byte>,
                                      translated: seq<Byte>, text: seq<Byte>)
    requires NoNul(keyword) && flag != 0
    ensures InternationalTextAsWritten(EncodeInternational(keyword, flag, 0, language, translated, text))
            == Some((keyword, language + [0] + translated + [0] + text))
  {
    var c := EncodeInternational(keyword, flag, 0, language, translated, text);
    var rest := language + [0] + translated + [0] + text;
    FindNulJoin(keyword, [flag, 0] + rest, 0);
    assert c == keyword + [0] + ([flag, 0] + rest);
    assert c == (keyword + [0, flag]) + [0] + rest;
    FindNulJoin(keyword + [0, flag], rest, |keyword| + 1);
    assert c[..|keyword|] == keyword;
    assert c[|keyword| + 3..] == rest;
  }

  /** One `iTXt` chunk, read as the dialog does: everything after the first
      NUL that follows the keyword's NUL is decoded and stored under
      `PNG_iTXt_<keyword>`; a chunk with fewer than two NULs adds nothing. */
  function InternationalChunk(md: Metadata, codec: Codec, chunk: seq<Byte>): (r: Metadata)
    ensures InternationalTextAsWritten(chunk).None? ==> r == md
    ensures InternationalTextAsWritten(chunk).Some? ==>
              var kt := InternationalTextAsWritten(chunk).value;
              Dict.Get(r, "PNG_iTXt_" + codec.decode(kt.0)) == Some(Note(codec.decode(kt.1)))
              && forall k :: k != "PNG_iTXt_" + codec.decode(kt.0) ==> Dict.Get(r, k) == Dict.Get(md, k)
  {
    match InternationalTextAsWritten(chunk)
    case None => md
    case Some((k, t)) => Dict.Set(md, "PNG_iTXt_" + codec.decode(k), Note(codec.decode(t)))
  }

  /** An encoded uncompressed `iTXt` chunk stores, under
      `PNG_iTXt_<keyword>`, the decoding of its method byte, language tag,
      translated keyword and text with their NULs, and no other entry
      changes. */
  lemma {:induction false} InternationalChunkStores(md: Metadata, codec: Codec, keyword: seq<Byte>, compression: Byte,
                                 language: seq<Byte>, translated: seq<Byte>, text: seq<Byte>)
    requires NoNul(keyword)
    ensures var r := InternationalChunk(md, codec, EncodeInternational(keyword, 0, compression, language, translated, text));
            var stored := [compression] + language + [0] + translated + [0] + text;
            && Dict.Get(r, "PNG_iTXt_" + codec.decode(keyword)) == Some(Note(codec.decode(stored)))
            && forall k :: k != "PNG_iTXt_" + codec.decode(keyword) ==> Dict.Get(r, k) == Dict.Get(md, k)
  {
    InternationalAsWrittenKeepsHeader(keyword, compression, language, translated, text);
  }

  /** The four-byte chunk `k NUL 0 h` (keyword `k`, flag 0, text `h`, every
      other field cut off) stores the decoding of `h`. */
  lemma {:induction false} InternationalChunkShort(md: Metadata, codec: Codec)
    ensures Dict.Get(InternationalChunk(md, codec, [107, 0, 0, 104]), "PNG_iTXt_" + codec.decode([107]))
            == Some(Note(codec.decode([104])))
  {
    var c: seq<Byte> := [107, 0, 0, 104];
    assert FindNul(c, 0) == Some(1) by {
      assert c[0] != 0 && c[1] == 0;
    }
    assert FindNul(c, 2) == Some(2);
    assert c[..1] == [107] && c[3..] == [104];
  }

  function InternationalChunks(md: Metadata, codec: Codec, chunks: seq<seq<Byte>>): Metadata
    decreases |chunks|
  {
    if chunks == [] then md
    else InternationalChunks(InternationalChunk(md, codec, chunks[0]), codec, chunks[1..])
  }

  // ---------------------------------------------------------------- all

  /** The three passes in the order the dialog runs them. */
  function ReadChunks(md: Metadata, codec: Codec, text: seq<seq<Byte>>, compressed: seq<seq<Byte>>,
                      international: seq<seq<Byte>>): Metadata
  {
    InternationalChunks(CompressedChunks(TextChunks(md, codec, text), codec, compressed), codec, international)
  }

  /** Chunks without any NUL add nothing. */
  lemma {:induction false} NoKeywordNoEntry(md: Metadata, codec: Codec, chunks: seq<seq<Byte>>)
    requires forall i :: 0 <= i < |chunks| ==> NoNul(chunks[i])
    ensures TextChunks(md, codec, chunks) == md
    ensures CompressedChunks(md, codec, chunks) == md
    ensures InternationalChunks(md, codec, chunks) == md
  {
    if chunks != [] {
      assert NoNul(chunks[0]);
      NoKeywordNoEntry(md, codec, chunks[1..]);
    }
  }
}

=== FILE: prompt_import.dfy ===
/** `import_prompt_from_file`: when a document opened from an image has no
    prompt yet, the prompts are read back from the image's text metadata,
    either in the A1111 `parameters` format or from a ComfyUI `prompt`
    workflow. Any exception inside the import is caught and logged, so
    whatever was assigned before it stays. */
module PromptImport {
  import opened Text
  import opened Json
  import Dict

  /** The positive and negative prompt of the document's root region. */
  datatype Prompts = Prompts(positive: string, negative: string)

  /** The image file as the import sees it: `QImageReader.text(key)` (the
      empty text when the key is absent) and `json.loads` (`None` when it
      raises). */
  datatype Reader = Reader(text: string -> string, parse: string -> Option<Json>)

  const Extensions: seq<string> := [".png", ".jpg", ".jpeg", ".webp"]

  /** `filename.endswith(exts)`. */
  predicate HasImageExtension(filename: string) {
    exists e :: e in Extensions && EndsWith(filename, e)
  }

  const NegativeMarker := "Negative prompt:"
  const StepsMarker := "Steps:"

  /** The A1111 `parameters` text: with a negative-prompt marker, the text
      before it is the positive prompt and the text after it, up to the first
      `Steps:`, the negative one, both stripped; without the marker nothing
      changes. */
  function A1111(p: Prompts, text: string): (r: Prompts)
    ensures !Contains(text, NegativeMarker) ==> r == p
    ensures Contains(text, NegativeMarker) ==> Trimmed(r.positive) && Trimmed(r.negative)
  {
    match SplitOnce(text, NegativeMarker)
    case (_, None) => p
    case (before, Some(after)) =>
      StripEnds(before);
      StripEnds(SplitOnce(after, StepsMarker).0);
      Prompts(Strip(before), Strip(SplitOnce(after, StepsMarker).0))
  }

  /** For any text with the marker first at `i`: the positive prompt is the
      stripped text before `i`; the negative one is the stripped text after
      the marker up to `j`, where `j` is the first `Steps:` in that rest or
      its end when there is none. */
  lemma {:induction false} A1111Split(p: Prompts, text: string, i: nat, j: nat)
    requires FirstAt(text, NegativeMarker, i)
    requires var after := text[i + |NegativeMarker|..];
             FirstAt(after, StepsMarker, j) || (j == |after| && !Contains(after, StepsMarker))
    ensures A1111(p, text) == Prompts(Strip(text[..i]), Strip(text[i + |NegativeMarker|..][..j]))
  {
    FindIsFirst(text, NegativeMarker, i);
    var after := text[i + |NegativeMarker|..];
    assert SplitOnce(text, NegativeMarker) == (text[..i], Some(after));
    if FirstAt(after, StepsMarker, j) {
      FindIsFirst(after, StepsMarker, j);
    } else {
      assert after[..j] == after;
    }
    assert SplitOnce(after, StepsMarker).0 == after[..j];
  }

  /** The text A1111 writes: the prompt, a line with the negative prompt,
      and a line starting with the step count. */
  function A1111Text(positive: string, negative: string, rest: string): string {
    positive + "\n" + NegativeMarker + " " + negative + "\n" + StepsMarker + " " + rest
  }

  /** Reading back what A1111 wrote recovers both prompts, provided they are
      trimmed and hold no marker. */
  lemma {:induction false} A1111RoundTrip(p: Prompts, positive: string, negative: string, rest: string)
    requires Trimmed(positive) && Trimmed(negative)
    requires !Contains(positive, NegativeMarker) && !Contains(negative, StepsMarker)
    ensures A1111(p, A1111Text(positive, negative, rest)) == Prompts(positive, negative)
  {
    SplitAtNegative(positive, negative, rest);
    PositiveStripped(positive);
    NegativeStripped(negative, rest);
  }

  /** The positive prompt comes back from the text before the marker. */
  lemma {:induction false} PositiveStripped(positive: string)
    requires Trimmed(positive)
    ensures Strip(positive + ['\n']) == positive
  {
    StripPadded("", positive, "\n");
    assert "" + positive + "\n" == positive + ['\n'];
  }

  /** The negative prompt comes back from the text between the markers. */
  lemma {:induction false} NegativeStripped(negative: string, rest: string)
    requires Trimmed(negative) && !Contains(negative, StepsMarker)
    ensures Strip(SplitOnce(NegativeLine(negative, rest), StepsMarker).0) == negative
  {
    SplitAtSteps(negative, rest);
    StripPadded(" ", negative, "\n");
    assert " " + negative + "\n" == " " + negative + ['\n'];
  }

  /** What follows the negative-prompt marker. */
  function NegativeLine(negative: string, rest: string): string {
    " " + negative + "\n" + StepsMarker + " " + rest
  }

  lemma {:induction false} SplitAtNegative(positive: string, negative: string, rest: string)
    requires !Contains(positive, NegativeMarker)
    ensures SplitOnce(A1111Text(positive, negative, rest), NegativeMarker)
            == (positive + ['\n'], Some(NegativeLine(negative, rest)))
  {
    var after := NegativeLine(negative, rest);
    assert A1111Text(positive, negative, rest) == positive + ['\n'] + NegativeMarker + after;
    SplitOnceAfter(positive, '\n', NegativeMarker, after);
  }

  lemma {:induction false} SplitAtSteps(negative: string, rest: string)
    requires !Contains(negative, StepsMarker)
    ensures SplitOnce(NegativeLine(negative, rest), StepsMarker).0 == " " + negative + ['\n']
  {
    ContainsCons(' ', negative, StepsMarker);
    var tail := " " + rest;
    assert NegativeLine(negative, rest) == " " + negative + ['\n'] + StepsMarker + tail;
    SplitOnceAfter(" " + negative, '\n', StepsMarker, tail);
  }

  /** The node types whose inputs name the prompts. */
  const SamplerTypes: seq<string> := ["KSampler", "KSamplerAdvanced", "SamplerCustom", "SamplerCustomAdvanced"]

  /** `x[0]` of a JSON value: the first item of a list, the first character
      of a string; anything else raises. */
  function First(j: Json): Option<Json> {
    match j
    case JArr(items) => if items != [] then Some(items[0]) else None
    case JStr(s) => if s != "" then Some(JStr([s[0]])) else None
    case _ => None
  }

  /** `d.get(key, {})` of a node's `inputs`: the value must be a dict (or be
      missing) for `.get` and `.values` to work on it. */
  function InputsOf(node: Dict.Dict<string, Json>): Option<Dict.Dict<string, Json>> {
    match Dict.Get(node, "inputs")
    case None => Some([])
    case Some(v) => if v.JObj? then Some(v.fields) else None
  }

  /** The first list among a node's input values. */
  function FirstList(inputs: Dict.Dict<string, Json>): (r: Option<Json>)
    ensures r.Some? ==> r.value.JArr? && r.value in Dict.Values(inputs)
    ensures r.None? ==> forall i :: 0 <= i < |inputs| ==> !inputs[i].1.JArr?
  {
    if inputs == [] then None
    else if inputs[0].1.JArr? then Some(inputs[0].1)
    else
      var r := FirstList(inputs[1..]);
      assert forall i :: 0 <= i < |inputs| - 1 ==> inputs[1..][i] == inputs[i + 1];
      assert r.Some? ==> r.value in Dict.Values(inputs[1..]) ==> r.value in Dict.Values(inputs);
      r
  }

  /** `_find_text_prompt(workflow, key)`: follows the first list input of
      each node until a `CLIPTextEncode` node, whose `text` input is the
      prompt; the empty text when the key names no node, or a node with no
      list input, or a text that is not a string. `Err` is an exception: an
      unhashable key, a node that is not a dict or has no `class_type`, a
      non-dict `inputs`, an empty list input, or running out of `fuel`
      (Python's recursion limit on a cyclic workflow). */
  function FindTextPrompt(workflow: Dict.Dict<string, Json>, key: Json, fuel: nat): (r: Result<string>)
    ensures key.JArr? || key.JObj? ==> r.Err?
    ensures key.JStr? && !Dict.HasKey(workflow, key.s) ==> r == Ok("")
    decreases fuel
  {
    if key.JArr? || key.JObj? then Err("unhashable type")
    else if !key.JStr? then Ok("")
    else match Dict.Get(workflow, key.s)
      case None => Ok("")
      case Some(node) =>
        if !Truthy(node) then Ok("")
        else if !node.JObj? || !Dict.HasKey(node.fields, "class_type") then Err("class_type")
        else if Dict.Get(node.fields, "class_type") == Some(JStr("CLIPTextEncode")) then
          match InputsOf(node.fields)
          case None => Err("inputs")
          case Some(inputs) =>
            match Dict.Get(inputs, "text")
            case Some(t) => if t.JStr? then Ok(t.s) else Ok("")
            case None => Ok("")
        else
          match InputsOf(node.fields)
          case None => Err("inputs")
          case Some(inputs) =>
            match FirstList(inputs)
            case None => Ok("")
            case Some(l) =>
              match First(l)
              case None => Err("list index out of range")
              case Some(next) =>
                if fuel == 0 then Err("maximum recursion depth exceeded")
                else FindTextPrompt(workflow, next, fuel - 1)
  }

  /** A text-encoder node: its class and its `text` input. */
  function TextNode(text: string): Json {
    JObj([("class_type", JStr("CLIPTextEncode")), ("inputs", JObj([("text", JStr(text))]))])
  }

  /** A node that only forwards its first input `[target, 0]`. */
  function LinkNode(cls: string, target: string): Json {
    JObj([("class_type", JStr(cls)), ("inputs", JObj([("conditioning", JArr([JStr(target), JInt(0)]))]))])
  }

  /** A key naming a text-encoder node gives its text. */
  lemma {:induction false} FindTextNode(workflow: Dict.Dict<string, Json>, key: string, text: string, fuel: nat)
    requires Dict.Get(workflow, key) == Some(TextNode(text))
    ensures FindTextPrompt(workflow, JStr(key), fuel) == Ok(text)
  {
    var fields := TextNode(text).fields;
    Dict.IndexOfIs(fields, "class_type", Some(0));
    Dict.IndexOfIs(fields, "inputs", Some(1));
    Dict.IndexOfIs(TextNode(text).fields[1].1.fields, "text", Some(0));
  }

  /** A forwarding node that is not a text encoder is followed: its target's
      prompt is found, with one level of fuel spent. */
  lemma {:induction false} FindThroughLink(workflow: Dict.Dict<string, Json>, key: string, cls: string, target: string, fuel: nat)
    requires cls != "CLIPTextEncode"
    requires Dict.Get(workflow, key) == Some(LinkNode(cls, target))
    ensures FindTextPrompt(workflow, JStr(key), fuel + 1) == FindTextPrompt(workflow, JStr(target), fuel)
  {
    var fields := LinkNode(cls, target).fields;
    Dict.IndexOfIs(fields, "class_type", Some(0));
    Dict.IndexOfIs(fields, "inputs", Some(1));
    assert Dict.Get(fields, "class_type") != Some(JStr("CLIPTextEncode"));
  }

  /** A workflow whose nodes forward to each other in a circle has no
      prompt: the search runs out of fuel, as Python runs out of stack. */
  lemma {:induction false} CycleFails(workflow: Dict.Dict<string, Json>, key: string, fuel: nat)
    requires Dict.Get(workflow, key) == Some(LinkNode("Reroute", key))
    ensures FindTextPrompt(workflow, JStr(key), fuel).Err?
    decreases fuel
  {
    if fuel > 0 {
      FindThroughLink(workflow, key, "Reroute", key, fuel - 1);
      CycleFails(workflow, key, fuel - 1);
    } else {
      var fields := LinkNode("Reroute", key).fields;
      Dict.IndexOfIs(fields, "class_type", Some(0));
      Dict.IndexOfIs(fields, "inputs", Some(1));
    }
  }

  /** The outcome of the import: the prompts as they are when it ends, and
      whether it ended with an exception. */
  datatype Outcome = Outcome(prompts: Prompts, failed: bool)

  /** One sampler node: `inputs["positive"][0]` is looked up and assigned,
      then `inputs["negative"][0]`. An exception in the second lookup leaves
      the first assignment in place; the negative prompt is only assigned
      when both lookups succeed. */
  function SamplerNode(workflow: Dict.Dict<string, Json>, node: Dict.Dict<string, Json>, p: Prompts, fuel: nat)
    : (o: Outcome)
    ensures o.failed ==> o.prompts.negative == p.negative
    ensures !Dict.HasKey(node, "inputs") ==> o == Outcome(p, true)
  {
    match Dict.Get(node, "inputs")
    case Some(v) =>
      if !v.JObj? then Outcome(p, true)
      else
      var inputs := v.fields;
      (match Lookup(workflow, inputs, "positive", fuel)
       case Err(_) => Outcome(p, true)
       case Ok(positive) =>
         var p' := p.(positive := positive);
         match Lookup(workflow, inputs, "negative", fuel)
         case Err(_) => Outcome(p', true)
         case Ok(negative) => Outcome(p'.(negative := negative), false))
    case None => Outcome(p, true)
  }

  /** `_find_text_prompt(prompt, inputs[name][0])`, raising when the input
      is missing or has no first item. */
  function Lookup(workflow: Dict.Dict<string, Json>, inputs: Dict.Dict<string, Json>, name: string, fuel: nat)
    : (r: Result<string>)
    ensures !Dict.HasKey(inputs, name) ==> r.Err?
  {
    match Dict.Get(inputs, name)
    case None => Err(name)
    case Some(v) =>
      match First(v)
      case None => Err("list index out of range")
      case Some(key) => FindTextPrompt(workflow, key, fuel)
  }

  /** `node["class_type"] in _comfy_sampler_types`. */
  predicate IsSampler(j: Json) {
    j.JStr? && j.s in SamplerTypes
  }

  /** The loop over `prompt.values()`: every sampler node assigns the
      prompts in turn, so the last one wins; a node that is not a dict with
      a `class_type`, or a failing sampler, ends the loop with an
      exception. */
  function ComfyNodes(workflow: Dict.Dict<string, Json>, nodes: seq<Json>, p: Prompts, fuel: nat): (o: Outcome)
    decreases |nodes|
  {
    if nodes == [] then Outcome(p, false)
    else
      var node := nodes[0];
      if !node.JObj? || !Dict.HasKey(node.fields, "class_type") then Outcome(p, true)
      else if IsSampler(Dict.Get(node.fields, "class_type").value) then
        var o := SamplerNode(workflow, node.fields, p, fuel);
        if o.failed then o else ComfyNodes(workflow, nodes[1..], o.prompts, fuel)
      else ComfyNodes(workflow, nodes[1..], p, fuel)
  }

  /** Nodes that are all dicts of other classes leave the prompts alone. */
  lemma {:induction false} ComfyWithoutSampler(workflow: Dict.Dict<string, Json>, nodes: seq<Json>, p: Prompts, fuel: nat)
    requires forall i :: 0 <= i < |nodes| ==>
               nodes[i].JObj? && Dict.HasKey(nodes[i].fields, "class_type")
               && !IsSampler(Dict.Get(nodes[i].fields, "class_type").value)
    ensures ComfyNodes(workflow, nodes, p, fuel) == Outcome(p, false)
    decreases |nodes|
  {
    if nodes != [] {
      ComfyWithoutSampler(workflow, nodes[1..], p, fuel);
    }
  }

  /** `import_prompt_from_file`: only for a document without prompts whose
      file name has an image extension. A non-empty `parameters` text is read
      the A1111 way (and the `prompt` text is then ignored); otherwise a
      non-empty `prompt` text is parsed as a ComfyUI workflow, which must be
      a dict. */
  function ImportPrompt(p: Prompts, filename: string, reader: Reader, fuel: nat): (o: Outcome)
    ensures !(p.positive == "" && p.negative == "" && HasImageExtension(filename)) ==> o == Outcome(p, false)
    ensures reader.text("parameters") != "" ==> !o.failed
    ensures reader.text("parameters") == "" && reader.text("prompt") == "" ==> o == Outcome(p, false)
  {
    if !(p.positive == "" && p.negative == "" && HasImageExtension(filename)) then Outcome(p, false)
    else
      var params := reader.text("parameters");
      if params != "" then Outcome(A1111(p, params), false)
      else
        var text := reader.text("prompt");
        if text == "" then Outcome(p, false)
        else match reader.parse(text)
          case Some(j) =>
            if j.JObj? then ComfyNodes(j.fields, Dict.Values(j.fields), p, fuel) else Outcome(p, true)
          case None => Outcome(p, true)
  }

  /** An empty document opened from a PNG written by A1111 gets both
      prompts back. */
  lemma {:induction false} ImportA1111(filename: string, reader: Reader, positive: string, negative: string, rest: string, fuel: nat)
    requires EndsWith(filename, ".png")
    requires reader.text("parameters") == A1111Text(positive, negative, rest)
    requires Trimmed(positive) && Trimmed(negative)
    requires !Contains(positive, NegativeMarker) && !Contains(negative, StepsMarker)
    ensures ImportPrompt(Prompts("", ""), filename, reader, fuel) == Outcome(Prompts(positive, negative), false)
  {
    assert Extensions[0] == ".png";
    A1111RoundTrip(Prompts("", ""), positive, negative, rest);
  }

  /** The usual ComfyUI graph: a sampler whose `positive` and `negative`
      inputs point at two text encoders. */
  function SamplerGraph(sampler: string, a: string, b: string): Dict.Dict<string, Json> {
    [("3", JObj([("class_type", JStr(sampler)),
                 ("inputs", JObj([("positive", JArr([JStr("6"), JInt(0)])),
                                  ("negative", JArr([JStr("7"), JInt(0)]))]))])),
     ("6", TextNode(a)),
     ("7", TextNode(b))]
  }

  /** The sampler node of that graph and its inputs. */
  function SamplerInputs(): Dict.Dict<string, Json> {
    [("positive", JArr([JStr("6"), JInt(0)])), ("negative", JArr([JStr("7"), JInt(0)]))]
  }

  lemma {:induction false} GraphLookups(sampler: string, a: string, b: string, fuel: nat)
    ensures Lookup(SamplerGraph(sampler, a, b), SamplerInputs(), "positive", fuel) == Ok(a)
    ensures Lookup(SamplerGraph(sampler, a, b), SamplerInputs(), "negative", fuel) == Ok(b)
  {
    GraphPositive(sampler, a, b, fuel);
    GraphNegative(sampler, a, b, fuel);
  }

  lemma {:induction false} GraphPositive(sampler: string, a: string, b: string, fuel: nat)
    ensures Lookup(SamplerGraph(sampler, a, b), SamplerInputs(), "positive", fuel) == Ok(a)
  {
    var wf := SamplerGraph(sampler, a, b);
    Dict.IndexOfIs(SamplerInputs(), "positive", Some(0));
    assert Dict.Get(SamplerInputs(), "positive") == Some(JArr([JStr("6"), JInt(0)]));
    Dict.IndexOfIs(wf, "6", Some(1));
    FindTextNode(wf, "6", a, fuel);
  }

  lemma {:induction false} GraphNegative(sampler: string, a: string, b: string, fuel: nat)
    ensures Lookup(SamplerGraph(sampler, a, b), SamplerInputs(), "negative", fuel) == Ok(b)
  {
    var wf := SamplerGraph(sampler, a, b);
    Dict.IndexOfIs(SamplerInputs(), "negative", Some(1));
    assert Dict.Get(SamplerInputs(), "negative") == Some(JArr([JStr("7"), JInt(0)]));
    Dict.IndexOfIs(wf, "7", Some(2));
    FindTextNode(wf, "7", b, fuel);
  }

  lemma {:induction false} GraphSampler(sampler: string, a: string, b: string, p: Prompts, fuel: nat)
    ensures SamplerNode(SamplerGraph(sampler, a, b), SamplerGraph(sampler, a, b)[0].1.fields, p, fuel)
            == Outcome(Prompts(a, b), false)
  {
    var fields := SamplerGraph(sampler, a, b)[0].1.fields;
    Dict.IndexOfIs(fields, "inputs", Some(1));
    assert fields[1].1 == JObj(SamplerInputs());
    GraphLookups(sampler, a, b, fuel);
  }

  lemma {:induction false} GraphNodes(sampler: string, a: string, b: string, fuel: nat)
    requires sampler in SamplerTypes
    ensures var wf := SamplerGraph(sampler, a, b);
            ComfyNodes(wf, Dict.Values(wf), Prompts("", ""), fuel) == Outcome(Prompts(a, b), false)
  {
    var wf := SamplerGraph(sampler, a, b);
    var nodes := Dict.Values(wf);
    var fields := wf[0].1.fields;
    assert nodes[0] == wf[0].1;
    Dict.IndexOfIs(fields, "class_type", Some(0));
    assert Dict.Get(fields, "class_type") == Some(JStr(sampler));
    GraphSampler(sampler, a, b, Prompts("", ""), fuel);
    assert ComfyNodes(wf, nodes, Prompts("", ""), fuel) == ComfyNodes(wf, nodes[1..], Prompts(a, b), fuel);
    TextNodesNotSamplers(wf, nodes[1..], a, b, fuel);
  }

  lemma {:induction false} TextNodesNotSamplers(wf: Dict.Dict<string, Json>, nodes: seq<Json>, a: string, b: string, fuel: nat)
    requires nodes == [TextNode(a), TextNode(b)]
    ensures ComfyNodes(wf, nodes, Prompts(a, b), fuel) == Outcome(Prompts(a, b), false)
  {
    Dict.IndexOfIs(TextNode(a).fields, "class_type", Some(0));
    Dict.IndexOfIs(TextNode(b).fields, "class_type", Some(0));
    assert !IsSampler(JStr("CLIPTextEncode"));
    ComfyWithoutSampler(wf, nodes, Prompts(a, b), fuel);
  }

  /** Importing that graph gives the two encoders' texts, for every sampler
      class the import knows. */
  lemma {:induction false} ImportComfy(filename: string, reader: Reader, sampler: string, a: string, b: string, fuel: nat)
    requires HasImageExtension(filename) && sampler in SamplerTypes
    requires reader.text("parameters") == "" && reader.text("prompt") != ""
    requires reader.parse(reader.text("prompt")) == Some(JObj(SamplerGraph(sampler, a, b)))
    ensures ImportPrompt(Prompts("", ""), filename, reader, fuel) == Outcome(Prompts(a, b), false)
  {
    GraphNodes(sampler, a, b, fuel);
  }
}

=== FILE: record.dfy ===
/** The metadata record written into every auto-saved image, and the
    4000-character rule that decides whether the full record or its
    essential part is written. */
module Record {
  import opened Text
  import opened Json
  import opened Clean
  import opened Clock
  import opened Jobs
  import Dict

  /** The metadata keys the builder handles itself; every other metadata
      key is copied under a `param_` name. */
  const Reserved: seq<string> := ["prompt", "negative_prompt", "style", "checkpoint", "sampler", "loras"]

  /** The twelve keys every record starts with, in this order. */
  const BaseKeys: seq<string> := ["prompt", "negative_prompt", "seed", "strength", "style", "checkpoint",
                                  "sampler", "generation_type", "job_kind", "timestamp", "batch_index",
                                  "total_images"]

  const ParamCap: nat := 500
  const PayloadCap: nat := 4000

  predicate IsParamKey(k: string) {
    StartsWith(k, "param_")
  }

  /** Every `param_` entry holds a text of at most 500 characters. */
  predicate ParamsCapped(d: Dict.Dict<string, Json>) {
    forall i :: 0 <= i < |d| && IsParamKey(d[i].0) ==> d[i].1.JStr? && |d[i].1.s| <= ParamCap
  }

  /** A copied value longer than 500 characters keeps its first 497 and
      gets `...`. */
  function CapParam(v: string): (r: string)
    ensures |r| <= ParamCap
    ensures |v| <= ParamCap ==> r == v
    ensures |v| > ParamCap ==> |r| == ParamCap && r[..497] == v[..497] && r[497..] == "..."
  {
    if |v| > 500 then v[..497] + "..." else v
  }

  /** The LoRA entries that are dictionaries and not switched off
      (`enabled` missing counts as on). */
  predicate IsEnabledLora(j: Json) {
    j.JObj? && Truthy(Dict.GetOr(j.fields, "enabled", JBool(true)))
  }

  /** The two fields a kept LoRA entry is reduced to. */
  function LoraEntry(fields: Dict.Dict<string, Json>, fmt: Fmt): Json {
    JObj([("name", JStr(CleanValue(Dict.GetOr(fields, "name", JStr("Unknown")), fmt))),
          ("strength", Dict.GetOr(fields, "strength", JFloat(1.0)))])
  }

  /** A kept LoRA entry: exactly `name`, a cleaned text, then `strength`. */
  predicate ReducedLora(j: Json) {
    j.JObj? && |j.fields| == 2 && j.fields[0].0 == "name" && j.fields[1].0 == "strength"
    && j.fields[0].1.JStr? && JunkFree(j.fields[0].1.s)
  }

  /** The `loras` list of the record: the enabled entries, in order, each
      reduced to its cleaned name and its strength. */
  function EnabledLoras(loras: seq<Json>, fmt: Fmt): (r: seq<Json>)
    ensures |r| <= |loras|
    ensures forall k :: 0 <= k < |r| ==> ReducedLora(r[k])
    ensures (forall k :: 0 <= k < |loras| ==> IsEnabledLora(loras[k])) ==> |r| == |loras|
    ensures (forall k :: 0 <= k < |loras| ==> !IsEnabledLora(loras[k])) ==> r == []
  {
    if loras == [] then []
    else
      var rest := EnabledLoras(loras[1..], fmt);
      if IsEnabledLora(loras[0]) then
        LoraEntryReduced(loras[0].fields, fmt);
        [LoraEntry(loras[0].fields, fmt)] + rest
      else rest
  }

  /** The list is filtered entry by entry: the result for `a + b` is the
      result for `a` followed by the result for `b`. */
  lemma {:induction false} EnabledLorasAppend(a: seq<Json>, b: seq<Json>, fmt: Fmt)
    ensures EnabledLoras(a + b, fmt) == EnabledLoras(a, fmt) + EnabledLoras(b, fmt)
    decreases |a|
  {
    if a == [] {
      assert a + b == b;
    } else {
      assert (a + b)[0] == a[0] && (a + b)[1..] == a[1..] + b;
      EnabledLorasAppend(a[1..], b, fmt);
    }
  }

  /** One entry: dropped unless it is an enabled dictionary; otherwise kept
      as its cleaned name (`Unknown` when absent) and its strength (`1.0`
      when absent). */
  lemma {:induction false} EnabledLorasOne(x: Json, fmt: Fmt)
    ensures !IsEnabledLora(x) ==> EnabledLoras([x], fmt) == []
    ensures IsEnabledLora(x) ==>
              EnabledLoras([x], fmt)
              == [JObj([("name", JStr(CleanValue(Dict.GetOr(x.fields, "name", JStr("Unknown")), fmt))),
                        ("strength", Dict.GetOr(x.fields, "strength", JFloat(1.0)))])]
  {
    assert [x][1..] == [];
  }

  lemma {:induction false} LoraEntryReduced(fields: Dict.Dict<string, Json>, fmt: Fmt)
    ensures ReducedLora(LoraEntry(fields, fmt))
  {
  }

  /** The dictionary with keys `ks` and values `vs`, in that order. */
  function Zip(ks: seq<string>, vs: seq<Json>): (d: Dict.Dict<string, Json>)
    requires |ks| == |vs|
    ensures |d| == |ks| && forall j :: 0 <= j < |d| ==> d[j] == (ks[j], vs[j])
  {
    if ks == [] then [] else [(ks[0], vs[0])] + Zip(ks[1..], vs[1..])
  }

  /** The values of the twelve fixed entries. */
  datatype Fixed = Fixed(prompt: string, negativePrompt: string, seed: int, strength: real,
                         style: string, checkpoint: string, sampler: string, generationType: string,
                         jobKind: string, timestamp: string, batchIndex: int, totalImages: int)

  /** The fixed values in the order of `BaseKeys`. */
  function FixedValues(f: Fixed): (vs: seq<Json>)
    ensures |vs| == |BaseKeys|
  {
    [JStr(f.prompt), JStr(f.negativePrompt), JInt(f.seed), JFloat(f.strength), JStr(f.style),
     JStr(f.checkpoint), JStr(f.sampler), JStr(f.generationType), JStr(f.jobKind),
     JStr(f.timestamp), JInt(f.batchIndex), JInt(f.totalImages)]
  }

  /** The fixed values for image `i` of `job`, filed under the label `tag`:
      the cleaned texts, the seed and strength, the label, the kind name,
      the creation time, the index and the batch size. */
  function FixedOf(job: Job, i: nat, tag: string, fmt: Fmt): Fixed {
    var p := job.params;
    var md := p.metadata;
    Fixed(CleanText(p.prompt),
          CleanValue(Dict.GetOr(md, "negative_prompt", JStr("")), fmt),
          p.seed, p.strength,
          CleanValue(Dict.GetOr(md, "style", JStr("")), fmt),
          CleanValue(Dict.GetOr(md, "checkpoint", JStr("")), fmt),
          CleanValue(Dict.GetOr(md, "sampler", JStr("")), fmt),
          tag, KindName(job.kind), RecordStamp(job.timestamp), i, |job.results|)
  }

  /** The twelve fixed entries. */
  function BaseRecord(f: Fixed): Dict.Dict<string, Json> {
    Zip(BaseKeys, FixedValues(f))
  }

  /** The twelve fixed keys are distinct, none is a `param_` key and none
      is `loras`. */
  lemma {:induction false} BaseKeyFacts()
    ensures forall a, b :: 0 <= a < b < |BaseKeys| ==> BaseKeys[a] != BaseKeys[b]
    ensures forall a :: 0 <= a < |BaseKeys| ==> !IsParamKey(BaseKeys[a]) && BaseKeys[a] != "loras"
  {
    var sig := [(6, 'p'), (15, 'n'), (4, 's'), (8, 's'), (5, 's'), (10, 'c'),
                (7, 's'), (15, 'g'), (8, 'j'), (9, 't'), (11, 'b'), (12, 't')];
    assert forall a :: 0 <= a < 12 ==> |BaseKeys[a]| == sig[a].0 && BaseKeys[a][0] == sig[a].1;
    forall a | 0 <= a < |BaseKeys| ensures !IsParamKey(BaseKeys[a]) {
      if a == 0 {
        assert BaseKeys[0][1] == 'r';
      }
    }
  }

  /** What `loras` is stored as: the enabled entries when the metadata
      holds a list, and `str(loras)` otherwise. */
  function LorasValue(lo: Json, fmt: Fmt): Json {
    if lo.JArr? then JArr(EnabledLoras(lo.items, fmt)) else JStr(PyStr(lo, fmt))
  }

  /** The `loras` entry, present only when the metadata has one. */
  function WithLoras(rec: Dict.Dict<string, Json>, md: Dict.Dict<string, Json>, fmt: Fmt): Dict.Dict<string, Json> {
    match Dict.Get(md, "loras")
    case None => rec
    case Some(lo) => Dict.Set(rec, "loras", LorasValue(lo, fmt))
  }

  /** The value a metadata entry is copied with. */
  function ParamValue(v: Json, fmt: Fmt): Json {
    JStr(CapParam(CleanValue(v, fmt)))
  }

  /** The loop over the job metadata: each entry whose key is not reserved
      is stored, cleaned and capped, under `param_<key>`. Nothing else
      changes, the keys already present keep their places, and every new
      key is a `param_` key. */
  function AddParams(rec: Dict.Dict<string, Json>, md: Dict.Dict<string, Json>, fmt: Fmt): (r: Dict.Dict<string, Json>)
    ensures forall k :: !IsParamKey(k) ==> Dict.Get(r, k) == Dict.Get(rec, k)
    ensures |r| >= |rec| && forall j :: 0 <= j < |rec| ==> r[j].0 == rec[j].0
    ensures forall j :: |rec| <= j < |r| ==> IsParamKey(r[j].0)
    ensures Dict.UniqueKeys(rec) ==> Dict.UniqueKeys(r)
    ensures ParamsCapped(rec) ==> ParamsCapped(r)
    decreases |md|
  {
    if md == [] then rec
    else
      var (k, v) := md[0];
      var next := if k in Reserved then rec else Dict.Set(rec, "param_" + k, ParamValue(v, fmt));
      AddStepFacts(rec, md[0], next, fmt);
      AddParams(next, md[1..], fmt)
  }

  lemma {:induction false} AddStepFacts(rec: Dict.Dict<string, Json>, item: (string, Json), next: Dict.Dict<string, Json>, fmt: Fmt)
    requires next == if item.0 in Reserved then rec else Dict.Set(rec, "param_" + item.0, ParamValue(item.1, fmt))
    ensures forall k :: !IsParamKey(k) ==> Dict.Get(next, k) == Dict.Get(rec, k)
    ensures |next| >= |rec| && forall j :: 0 <= j < |rec| ==> next[j].0 == rec[j].0
    ensures forall j :: |rec| <= j < |next| ==> IsParamKey(next[j].0)
    ensures ParamsCapped(rec) ==> ParamsCapped(next)
  {
    if item.0 !in Reserved {
      var key := "param_" + item.0;
      assert IsParamKey(key) by {
        assert key[..6] == "param_";
      }
      Dict.SetPositions(rec, key, ParamValue(item.1, fmt));
      SetCapped(rec, key, ParamValue(item.1, fmt));
    }
  }

  /** Storing a capped text, or any value under a key that is not a
      `param_` key, keeps every `param_` value capped. */
  lemma {:induction false} SetCapped(rec: Dict.Dict<string, Json>, key: string, v: Json)
    requires IsParamKey(key) ==> v.JStr? && |v.s| <= ParamCap
    ensures ParamsCapped(rec) ==> ParamsCapped(Dict.Set(rec, key, v))
  {
    var next := Dict.Set(rec, key, v);
    if ParamsCapped(rec) {
      forall i | 0 <= i < |next| && IsParamKey(next[i].0)
        ensures next[i].1.JStr? && |next[i].1.s| <= ParamCap
      {
        if next[i] != (key, v) {
          assert next[i] in rec;
          var j :| 0 <= j < |rec| && rec[j] == next[i];
        }
      }
    }
  }

  /** The record assembled from fixed values `f` and the job metadata
      `md`. */
  function Assemble(f: Fixed, md: Dict.Dict<string, Json>, fmt: Fmt): Dict.Dict<string, Json> {
    AddParams(WithLoras(BaseRecord(f), md, fmt), md, fmt)
  }

  /** `all_metadata` of the history save: the fixed entries, the LoRAs and
      the copied metadata. */
  function BuildRecord(job: Job, i: nat, tag: string, fmt: Fmt): Dict.Dict<string, Json> {
    Assemble(FixedOf(job, i, tag, fmt), job.params.metadata, fmt)
  }

  lemma {:induction false} LorasNotParam()
    ensures !IsParamKey("loras")
  {
    assert "loras"[0] == 'l';
  }

  /** The fixed record has unique keys, no `param_` entry and no `loras`. */
  lemma {:induction false} BaseRecordFacts(f: Fixed)
    ensures var base := BaseRecord(f);
            Dict.UniqueKeys(base) && ParamsCapped(base) && !Dict.HasKey(base, "loras")
            && forall j :: 0 <= j < |BaseKeys| ==> Dict.Get(base, BaseKeys[j]) == Some(FixedValues(f)[j])
  {
    var base := BaseRecord(f);
    BaseKeyFacts();
    forall j | 0 <= j < |BaseKeys|
      ensures Dict.Get(base, BaseKeys[j]) == Some(FixedValues(f)[j])
    {
      Dict.IndexOfIs(base, BaseKeys[j], Some(j));
    }
  }

  /** The `loras` entry goes after the fixed ones and changes nothing else. */
  lemma {:induction false} WithLorasFacts(base: Dict.Dict<string, Json>, md: Dict.Dict<string, Json>, fmt: Fmt)
    requires Dict.UniqueKeys(base) && ParamsCapped(base) && !Dict.HasKey(base, "loras")
    ensures var w := WithLoras(base, md, fmt);
            Dict.UniqueKeys(w) && ParamsCapped(w)
            && (forall k :: k != "loras" ==> Dict.Get(w, k) == Dict.Get(base, k))
            && (Dict.Get(md, "loras").None? ==> !Dict.HasKey(w, "loras"))
            && (Dict.Get(md, "loras").Some? ==>
                  Dict.Get(w, "loras") == Some(LorasValue(Dict.Get(md, "loras").value, fmt)))
  {
    match Dict.Get(md, "loras")
    case None =>
    case Some(lo) =>
      LorasNotParam();
      SetCapped(base, "loras", LorasValue(lo, fmt));
  }

  /** The record starts with the twelve fixed keys; after them come at most
      `loras` and `param_` keys; no key repeats; every copied value is
      capped at 500 characters. */
  lemma {:induction false} RecordShape(f: Fixed, md: Dict.Dict<string, Json>, fmt: Fmt)
    ensures var r := Assemble(f, md, fmt);
            |r| >= |BaseKeys| && (forall j :: 0 <= j < |BaseKeys| ==> r[j].0 == BaseKeys[j])
            && (forall j :: |BaseKeys| <= j < |r| ==> r[j].0 == "loras" || IsParamKey(r[j].0))
            && Dict.UniqueKeys(r) && ParamsCapped(r)
  {
    RecordKeyOrder(f, md, fmt);
    RecordWellFormed(f, md, fmt);
  }

  lemma {:induction false} RecordKeyOrder(f: Fixed, md: Dict.Dict<string, Json>, fmt: Fmt)
    ensures var r := Assemble(f, md, fmt);
            |r| >= |BaseKeys| && (forall j :: 0 <= j < |BaseKeys| ==> r[j].0 == BaseKeys[j])
            && (forall j :: |BaseKeys| <= j < |r| ==> r[j].0 == "loras" || IsParamKey(r[j].0))
  {
    WithLorasPositions(BaseRecord(f), md, fmt);
  }

  lemma {:induction false} WithLorasPositions(base: Dict.Dict<string, Json>, md: Dict.Dict<string, Json>, fmt: Fmt)
    ensures var w := WithLoras(base, md, fmt);
            |w| >= |base| && (forall j :: 0 <= j < |base| ==> w[j].0 == base[j].0)
            && (forall j :: |base| <= j < |w| ==> w[j].0 == "loras")
  {
    match Dict.Get(md, "loras")
    case None =>
    case Some(lo) =>
      Dict.SetPositions(base, "loras", LorasValue(lo, fmt));
  }

  lemma {:induction false} RecordWellFormed(f: Fixed, md: Dict.Dict<string, Json>, fmt: Fmt)
    ensures var r := Assemble(f, md, fmt);
            Dict.UniqueKeys(r) && ParamsCapped(r)
  {
    BaseRecordFacts(f);
    WithLorasFacts(BaseRecord(f), md, fmt);
  }

  /** Each fixed entry survives the `loras` entry and the copied metadata. */
  lemma {:induction false} FixedEntries(f: Fixed, md: Dict.Dict<string, Json>, fmt: Fmt)
    ensures forall j :: 0 <= j < |BaseKeys| ==> Dict.Get(Assemble(f, md, fmt), BaseKeys[j]) == Some(FixedValues(f)[j])
  {
    BaseRecordFacts(f);
    WithLorasFacts(BaseRecord(f), md, fmt);
    BaseKeyFacts();
  }

  /** The fixed entries of a record hold the fixed values it was built
      from: the prompt, the seed, the strength, the label, the time stamp,
      the index and the batch size. */
  lemma {:induction false} RecordValues(f: Fixed, md: Dict.Dict<string, Json>, fmt: Fmt)
    ensures var r := Assemble(f, md, fmt);
            Dict.Get(r, "prompt") == Some(JStr(f.prompt))
            && Dict.Get(r, "seed") == Some(JInt(f.seed))
            && Dict.Get(r, "strength") == Some(JFloat(f.strength))
            && Dict.Get(r, "generation_type") == Some(JStr(f.generationType))
            && Dict.Get(r, "timestamp") == Some(JStr(f.timestamp))
            && Dict.Get(r, "batch_index") == Some(JInt(f.batchIndex))
            && Dict.Get(r, "total_images") == Some(JInt(f.totalImages))
  {
    BaseKeyNames();
    var vs := FixedValues(f);
    assert vs[0] == JStr(f.prompt) && vs[2] == JInt(f.seed) && vs[3] == JFloat(f.strength);
    assert vs[7] == JStr(f.generationType) && vs[9] == JStr(f.timestamp);
    assert vs[10] == JInt(f.batchIndex) && vs[11] == JInt(f.totalImages);
    FixedEntryAt(f, md, fmt, 0, "prompt", vs[0]);
    FixedEntryAt(f, md, fmt, 2, "seed", vs[2]);
    FixedEntryAt(f, md, fmt, 3, "strength", vs[3]);
    FixedEntryAt(f, md, fmt, 7, "generation_type", vs[7]);
    FixedEntryAt(f, md, fmt, 9, "timestamp", vs[9]);
    FixedEntryAt(f, md, fmt, 10, "batch_index", vs[10]);
    FixedEntryAt(f, md, fmt, 11, "total_images", vs[11]);
  }

  lemma {:induction false} FixedEntryAt(f: Fixed, md: Dict.Dict<string, Json>, fmt: Fmt, j: nat, key: string, v: Json)
    requires j < |BaseKeys| && BaseKeys[j] == key && FixedValues(f)[j] == v
    ensures Dict.Get(Assemble(f, md, fmt), key) == Some(v)
  {
    FixedEntries(f, md, fmt);
  }

  lemma {:induction false} BaseKeyNames()
    ensures BaseKeys[0] == "prompt" && BaseKeys[2] == "seed" && BaseKeys[3] == "strength"
    ensures BaseKeys[7] == "generation_type" && BaseKeys[9] == "timestamp"
    ensures BaseKeys[10] == "batch_index" && BaseKeys[11] == "total_images"
  {
  }

  /** The `loras` entry follows the metadata's `loras` entry: absent when
      the metadata has none, the reduced list or `str()` otherwise. */
  lemma {:induction false} LorasEntry(f: Fixed, md: Dict.Dict<string, Json>, fmt: Fmt)
    ensures var r := Assemble(f, md, fmt);
            var lo := Dict.Get(md, "loras");
            (lo.None? ==> !Dict.HasKey(r, "loras"))
            && (lo.Some? ==> Dict.Get(r, "loras") == Some(LorasValue(lo.value, fmt)))
  {
    var w := WithLoras(BaseRecord(f), md, fmt);
    BaseRecordFacts(f);
    WithLorasFacts(BaseRecord(f), md, fmt);
    LorasNotParam();
    assert Dict.Get(Assemble(f, md, fmt), "loras") == Dict.Get(w, "loras");
  }

  /** For metadata without repeated keys, every entry whose key is not
      reserved appears as `param_<key>` with its cleaned, capped value. */
  lemma {:induction false} RecordParams(f: Fixed, md: Dict.Dict<string, Json>, fmt: Fmt)
    requires Dict.UniqueKeys(md)
    ensures var r := Assemble(f, md, fmt);
            forall j :: 0 <= j < |md| && md[j].0 !in Reserved ==>
              Dict.Get(r, "param_" + md[j].0) == Some(ParamValue(md[j].1, fmt))
    ensures var r := Assemble(f, md, fmt);
            forall k :: IsParamKey(k) && Dict.Get(r, k).Some? ==> ParamFrom(md, k)
  {
    var w := WithLoras(BaseRecord(f), md, fmt);
    AddParamsValues(w, md, fmt);
    AddParamsOnly(w, md, fmt);
    BaseNoParams(f, md, fmt);
  }

  /** `k` is the `param_` key of a metadata entry whose key is not
      reserved. */
  predicate ParamFrom(md: Dict.Dict<string, Json>, k: string) {
    exists j :: 0 <= j < |md| && md[j].0 !in Reserved && k == "param_" + md[j].0
  }

  /** Before the metadata loop the record holds no `param_` key. */
  lemma {:induction false} BaseNoParams(f: Fixed, md: Dict.Dict<string, Json>, fmt: Fmt)
    ensures forall k :: IsParamKey(k) ==> Dict.Get(WithLoras(BaseRecord(f), md, fmt), k).None?
  {
    var base := BaseRecord(f);
    BaseRecordFacts(f);
    BaseKeyFacts();
    WithLorasFacts(base, md, fmt);
    LorasNotParam();
    forall k | IsParamKey(k) ensures Dict.Get(base, k).None? {
    }
  }

  /** The loop adds no key but the `param_` keys of non-reserved metadata
      entries. */
  lemma {:induction false} AddParamsOnly(rec: Dict.Dict<string, Json>, md: Dict.Dict<string, Json>, fmt: Fmt)
    ensures forall k :: Dict.Get(AddParams(rec, md, fmt), k).Some? ==> Dict.Get(rec, k).Some? || ParamFrom(md, k)
    decreases |md|
  {
    if md != [] {
      var next := if md[0].0 in Reserved then rec else Dict.Set(rec, "param_" + md[0].0, ParamValue(md[0].1, fmt));
      assert AddParams(rec, md, fmt) == AddParams(next, md[1..], fmt);
      AddParamsOnly(next, md[1..], fmt);
      AddStepOnly(rec, md, next, fmt);
    }
  }

  /** One step of the loop: a key present afterwards was present before,
      or comes from the first entry, or from the entries still to come. */
  lemma {:induction false} AddStepOnly(rec: Dict.Dict<string, Json>, md: Dict.Dict<string, Json>,
                                       next: Dict.Dict<string, Json>, fmt: Fmt)
    requires md != []
    requires next == if md[0].0 in Reserved then rec else Dict.Set(rec, "param_" + md[0].0, ParamValue(md[0].1, fmt))
    ensures forall k :: (Dict.Get(next, k).Some? ==> Dict.Get(rec, k).Some? || ParamFrom(md, k))
                        && (ParamFrom(md[1..], k) ==> ParamFrom(md, k))
  {
    forall k ensures Dict.Get(next, k).Some? ==> Dict.Get(rec, k).Some? || ParamFrom(md, k) {
      if Dict.Get(next, k).Some? && Dict.Get(rec, k).None? {
        assert md[0].0 !in Reserved && k == "param_" + md[0].0;
      }
    }
    forall k | ParamFrom(md[1..], k) ensures ParamFrom(md, k) {
      var j :| 0 <= j < |md[1..]| && md[1..][j].0 !in Reserved && k == "param_" + md[1..][j].0;
      assert md[j + 1] == md[1..][j];
    }
  }

  lemma {:induction false} AddParamsValues(rec: Dict.Dict<string, Json>, md: Dict.Dict<string, Json>, fmt: Fmt)
    requires Dict.UniqueKeys(md)
    ensures forall j :: 0 <= j < |md| && md[j].0 !in Reserved ==>
              Dict.Get(AddParams(rec, md, fmt), "param_" + md[j].0) == Some(ParamValue(md[j].1, fmt))
    decreases |md|
  {
    if md != [] {
      var (k, v) := md[0];
      var next := if k in Reserved then rec else Dict.Set(rec, "param_" + k, ParamValue(v, fmt));
      var r := AddParams(rec, md, fmt);
      assert r == AddParams(next, md[1..], fmt);
      AddParamsValues(next, md[1..], fmt);
      if k !in Reserved {
        AddParamsHead(rec, md, fmt);
      }
      forall j | 1 <= j < |md| && md[j].0 !in Reserved
        ensures Dict.Get(r, "param_" + md[j].0) == Some(ParamValue(md[j].1, fmt))
      {
        assert md[j] == md[1..][j - 1];
      }
    }
  }

  /** The first entry's value survives the rest of the loop, because no
      later key maps to the same `param_` key. */
  lemma {:induction false} AddParamsHead(rec: Dict.Dict<string, Json>, md: Dict.Dict<string, Json>, fmt: Fmt)
    requires Dict.UniqueKeys(md) && md != [] && md[0].0 !in Reserved
    ensures Dict.Get(AddParams(rec, md, fmt), "param_" + md[0].0) == Some(ParamValue(md[0].1, fmt))
  {
    var (k, v) := md[0];
    var key := "param_" + k;
    var next := Dict.Set(rec, key, ParamValue(v, fmt));
    assert AddParams(rec, md, fmt) == AddParams(next, md[1..], fmt);
    forall j' | 0 <= j' < |md[1..]| && md[1..][j'].0 !in Reserved
      ensures "param_" + md[1..][j'].0 != key
    {
      assert md[1..][j'] == md[j' + 1];
      if "param_" + md[1..][j'].0 == key {
        ParamKeyInjective(md[1..][j'].0, k);
      }
    }
    AddParamsOther(next, md[1..], key, fmt);
  }

  /** A `param_` key not produced by any entry of `md` keeps its value. */
  lemma {:induction false} AddParamsOther(rec: Dict.Dict<string, Json>, md: Dict.Dict<string, Json>, key: string, fmt: Fmt)
    requires forall j :: 0 <= j < |md| && md[j].0 !in Reserved ==> "param_" + md[j].0 != key
    ensures Dict.Get(AddParams(rec, md, fmt), key) == Dict.Get(rec, key)
    decreases |md|
  {
    if md != [] {
      var (k, v) := md[0];
      var next := if k in Reserved then rec else Dict.Set(rec, "param_" + k, ParamValue(v, fmt));
      assert AddParams(rec, md, fmt) == AddParams(next, md[1..], fmt);
      forall j | 0 <= j < |md[1..]| && md[1..][j].0 !in Reserved
        ensures "param_" + md[1..][j].0 != key
      {
        assert md[1..][j] == md[j + 1];
      }
      AddParamsOther(next, md[1..], key, fmt);
    }
  }

  lemma {:induction false} ParamKeyInjective(a: string, b: string)
    requires "param_" + a == "param_" + b
    ensures a == b
  {
    assert a == ("param_" + a)[6..];
    assert b == ("param_" + b)[6..];
  }

  /** The essential record holds `all.get(key, default)` under `key`:
      `all`'s value when it has one, `default` otherwise. */
  predicate TakenOver(r: Dict.Dict<string, Json>, all: Dict.Dict<string, Json>, key: string, default: Json) {
    Dict.Get(r, key) == Some(Dict.GetOr(all, key, default))
  }

  /** The six keys of the essential record, in this order. */
  const EssentialKeys: seq<string> := ["prompt", "seed", "strength", "generation_type", "timestamp", "truncated"]

  lemma {:induction false} EssentialKeyFacts()
    ensures forall a, b :: 0 <= a < b < |EssentialKeys| ==> EssentialKeys[a] != EssentialKeys[b]
  {
    var sig := [(6, 'p'), (4, 's'), (8, 's'), (15, 'g'), (9, 't'), (9, 't')];
    assert forall a :: 0 <= a < 6 ==> |EssentialKeys[a]| == sig[a].0 && EssentialKeys[a][0] == sig[a].1;
    assert EssentialKeys[4][1] != EssentialKeys[5][1];
  }

  /** In a dictionary built from distinct keys, each key maps to its own
      value. */
  lemma {:induction false} ZipGet(ks: seq<string>, vs: seq<Json>, j: nat)
    requires |ks| == |vs| && j < |ks|
    requires forall a, b :: 0 <= a < b < |ks| ==> ks[a] != ks[b]
    ensures Dict.Get(Zip(ks, vs), ks[j]) == Some(vs[j])
  {
    Dict.IndexOfIs(Zip(ks, vs), ks[j], Some(j));
  }

  /** The values of the essential record, in the order of `EssentialKeys`. */
  function EssentialValues(all: Dict.Dict<string, Json>): (vs: seq<Json>)
    ensures |vs| == |EssentialKeys|
  {
    [Dict.GetOr(all, "prompt", JStr("")), Dict.GetOr(all, "seed", JInt(0)),
     Dict.GetOr(all, "strength", JFloat(1.0)), Dict.GetOr(all, "generation_type", JStr("")),
     Dict.GetOr(all, "timestamp", JStr("")), JBool(true)]
  }

  lemma {:induction false} EssentialKeyOrder(all: Dict.Dict<string, Json>)
    ensures Dict.Keys(Zip(EssentialKeys, EssentialValues(all))) == EssentialKeys
  {
  }

  lemma {:induction false} EssentialEntries(all: Dict.Dict<string, Json>)
    ensures var r := Zip(EssentialKeys, EssentialValues(all));
            && Dict.Get(r, "truncated") == Some(JBool(true))
            && TakenOver(r, all, "prompt", JStr("")) && TakenOver(r, all, "seed", JInt(0))
            && TakenOver(r, all, "strength", JFloat(1.0))
            && TakenOver(r, all, "generation_type", JStr("")) && TakenOver(r, all, "timestamp", JStr(""))
  {
    var vs := EssentialValues(all);
    EssentialKeyFacts();
    ZipGet(EssentialKeys, vs, 0);
    ZipGet(EssentialKeys, vs, 1);
    ZipGet(EssentialKeys, vs, 2);
    ZipGet(EssentialKeys, vs, 3);
    ZipGet(EssentialKeys, vs, 4);
    ZipGet(EssentialKeys, vs, 5);
  }

  /** The reduced record: prompt, seed, strength, label and time stamp
      taken over (or `""`, `0`, `1.0`, `""`, `""` when absent), and
      `truncated` set. */
  function Essential(all: Dict.Dict<string, Json>): (r: Dict.Dict<string, Json>)
    ensures Dict.Keys(r) == EssentialKeys
    ensures Dict.Get(r, "truncated") == Some(JBool(true))
    ensures TakenOver(r, all, "prompt", JStr("")) && TakenOver(r, all, "seed", JInt(0))
    ensures TakenOver(r, all, "strength", JFloat(1.0))
    ensures TakenOver(r, all, "generation_type", JStr("")) && TakenOver(r, all, "timestamp", JStr(""))
  {
    EssentialKeyOrder(all);
    EssentialEntries(all);
    Zip(EssentialKeys, EssentialValues(all))
  }

  /** `json.dumps(d, ensure_ascii=False, separators=(',', ':'))`. */
  function Compact(d: Dict.Dict<string, Json>, fmt: Fmt): string {
    Serialize(JObj(d), fmt)
  }

  /** The text written under the `metadata` key, as the code does it: the
      full record when its compact form has at most 4000 characters, the
      essential record otherwise, with no second check. */
  function Payload(all: Dict.Dict<string, Json>, fmt: Fmt): (p: string)
    ensures |Compact(all, fmt)| <= PayloadCap ==> p == Compact(all, fmt)
    ensures |Compact(all, fmt)| > PayloadCap ==> p == Compact(Essential(all), fmt)
  {
    var full := Compact(all, fmt);
    if |full| > 4000 then Compact(Essential(all), fmt) else full
  }

  /** A record whose first entry is a text is at least as long as that
      text. */
  lemma {:induction false} CompactFirstText(d: Dict.Dict<string, Json>, fmt: Fmt)
    requires d != [] && d[0].1.JStr?
    ensures |Compact(d, fmt)| > |d[0].1.s| + |d[0].0|
  {
    var parent := JObj(d);
    assert d[0].1 < parent;
    var member := Quote(d[0].0) + ":" + Serialize(d[0].1, fmt);
    EscapeLength(d[0].0);
    EscapeLength(d[0].1.s);
    assert Serialize(d[0].1, fmt) == Quote(d[0].1.s);
    assert |SerializeFields(parent, d, fmt)| >= |member|;
  }

  /** As written, a cleaned prompt of 4000 characters or more makes the
      payload longer than 4000 characters, whichever record is chosen: the
      essential record also starts with the whole prompt. */
  lemma {:induction false} LongPromptOverflows(job: Job, i: nat, tag: string, fmt: Fmt)
    requires |CleanText(job.params.prompt)| >= PayloadCap
    ensures |Payload(BuildRecord(job, i, tag, fmt), fmt)| > PayloadCap
  {
    var all := BuildRecord(job, i, tag, fmt);
    RecordValues(FixedOf(job, i, tag, fmt), job.params.metadata, fmt);
    RecordKeyOrder(FixedOf(job, i, tag, fmt), job.params.metadata, fmt);
    assert all[0].0 == "prompt";
    assert all[0].1 == JStr(CleanText(job.params.prompt)) by {
      RecordWellFormed(FixedOf(job, i, tag, fmt), job.params.metadata, fmt);
      Dict.IndexOfIs(all, "prompt", Some(0));
    }
    CompactFirstText(all, fmt);
    var ess := Essential(all);
    assert ess[0] == ("prompt", JStr(CleanText(job.params.prompt)));
    CompactFirstText(ess, fmt);
  }

  /** The one-entry record the corrected rule falls back to last. */
  const Minimal: Dict.Dict<string, Json> := [("truncated", JBool(true))]

  /** The rule with the second check the 4000-character budget needs: the
      full record if it fits, else the essential record if it fits, else a
      record holding only `truncated`. */
  function BoundedPayload(all: Dict.Dict<string, Json>, fmt: Fmt): (p: string)
    ensures |p| <= PayloadCap
    ensures |Compact(all, fmt)| <= PayloadCap ==> p == Compact(all, fmt)
    ensures |Compact(all, fmt)| > PayloadCap && |Compact(Essential(all), fmt)| <= PayloadCap
            ==> p == Compact(Essential(all), fmt)
  {
    var full := Compact(all, fmt);
    var ess := Compact(Essential(all), fmt);
    if |full| <= 4000 then full
    else if |ess| <= 4000 then ess
    else
      MinimalLength(fmt);
      Compact(Minimal, fmt)
  }

  lemma {:induction false} MinimalLength(fmt: Fmt)
    ensures |Compact(Minimal, fmt)| == 18
  {
    var parent := JObj(Minimal);
    assert Minimal[0].1 < parent;
    EscapePlain("truncated");
    assert Serialize(JBool(true), fmt) == "true";
    assert SerializeFields(parent, Minimal, fmt) == Quote("truncated") + ":" + "true";
    assert |Quote("truncated")| == 11;
  }

  /** Whenever the code's payload is within the budget, the corrected rule
      writes the same text. */
  lemma {:induction false} BoundedAgrees(all: Dict.Dict<string, Json>, fmt: Fmt)
    requires |Payload(all, fmt)| <= PayloadCap
    ensures BoundedPayload(all, fmt) == Payload(all, fmt)
  {
  }
}

=== FILE: steppers.dfy ===
/** The size controls of the two metadata views (the panel under the
    generation docker and the stand-alone metadata panel): a font size that
    steps by one point and a view height that steps by twenty pixels, each
    clamped, with the text box kept ten pixels shorter than the view. Every
    step writes the new value back to the saved settings. The copy button
    that shares the toolbar is here too. */
module Steppers {
  import opened Text

  /** The one difference between the two views: the font-size range. */
  datatype Bounds = Bounds(fontMin: int, fontMax: int)

  /** The generation docker's panel: fonts from 6 to 16. */
  const DockerBounds := Bounds(6, 16)

  /** The stand-alone panel: fonts from 8 to 20. */
  const PanelBounds := Bounds(8, 20)

  const HeightMin := 120
  const HeightMax := 400
  const HeightStep := 20
  const TextMargin := 10

  /** The view's state, with the two saved settings it writes. */
  datatype View = View(font: int, height: int, textHeight: int, savedFont: int, savedHeight: int)

  /** The text box is ten pixels shorter than the view. */
  predicate Lockstep(v: View) {
    v.textHeight == v.height - TextMargin
  }

  /** The saved settings hold what the view shows. */
  predicate Persisted(v: View) {
    v.savedFont == v.font && v.savedHeight == v.height
  }

  /** Construction from the saved settings: the old defaults (font 10,
      height 220) are bumped to 12 and 280, and the bump is saved. */
  function Init(savedFont: int, savedHeight: int): (v: View)
    ensures Lockstep(v) && Persisted(v)
    ensures savedFont != 10 ==> v.font == savedFont
    ensures savedHeight != 220 ==> v.height == savedHeight
    ensures savedFont == 10 ==> v.font == 12
    ensures savedHeight == 220 ==> v.height == 280 && v.textHeight == 270
  {
    var font := if savedFont == 10 then 12 else savedFont;
    var height := if savedHeight == 220 then 280 else savedHeight;
    var text := if savedHeight == 220 then 270 else savedHeight - TextMargin;
    View(font, height, text, font, height)
  }

  function DecreaseFont(b: Bounds, v: View): View {
    if v.font > b.fontMin then v.(font := v.font - 1, savedFont := v.font - 1) else v
  }

  function IncreaseFont(b: Bounds, v: View): View {
    if v.font < b.fontMax then v.(font := v.font + 1, savedFont := v.font + 1) else v
  }

  function DecreaseHeight(v: View): View {
    if v.height > HeightMin then
      v.(height := v.height - HeightStep, textHeight := v.textHeight - HeightStep,
         savedHeight := v.height - HeightStep)
    else v
  }

  function IncreaseHeight(v: View): View {
    if v.height < HeightMax then
      v.(height := v.height + HeightStep, textHeight := v.textHeight + HeightStep,
         savedHeight := v.height + HeightStep)
    else v
  }

  /** The four buttons. */
  datatype Button = FontDown | FontUp | HeightDown | HeightUp

  /** Inside its range a font stays inside it. */
  predicate FontInRange(b: Bounds, v: View) {
    b.fontMin <= v.font <= b.fontMax
  }

  /** A height on the twenty-pixel grid between the limits stays there. */
  predicate HeightOnGrid(v: View) {
    HeightMin <= v.height <= HeightMax && v.height % HeightStep == 0
  }

  /** One press keeps the text box in step with the view, keeps the saved
      settings equal to the view, and keeps a font and height that start in
      range in range. Whatever the start, a press never takes the font
      further outside its range, nor the height to 100 or below or to 420 or
      above. */
  function Press(b: Bounds, v: View, button: Button): (w: View)
    ensures Lockstep(v) ==> Lockstep(w)
    ensures Persisted(v) ==> Persisted(w)
    ensures FontInRange(b, v) ==> FontInRange(b, w)
    ensures HeightOnGrid(v) ==> HeightOnGrid(w)
    ensures v.height > 100 ==> w.height > 100
    ensures v.height < 420 ==> w.height < 420
    ensures w.font < b.fontMin ==> w.font >= v.font
    ensures w.font > b.fontMax ==> w.font <= v.font
    ensures w.font == v.font || w.font == v.font + 1 || w.font == v.font - 1
  {
    match button
    case FontDown => DecreaseFont(b, v)
    case FontUp => IncreaseFont(b, v)
    case HeightDown => DecreaseHeight(v)
    case HeightUp => IncreaseHeight(v)
  }

  /** Any run of presses from the start state. */
  function PressAll(b: Bounds, v: View, buttons: seq<Button>): View
    decreases |buttons|
  {
    if buttons == [] then v else PressAll(b, Press(b, v, buttons[0]), buttons[1..])
  }

  /** The invariants hold after any run of presses from construction. */
  lemma {:induction false} PressAllKeeps(b: Bounds, v: View, buttons: seq<Button>)
    requires Lockstep(v) && Persisted(v)
    ensures Lockstep(PressAll(b, v, buttons)) && Persisted(PressAll(b, v, buttons))
    ensures FontInRange(b, v) ==> FontInRange(b, PressAll(b, v, buttons))
    ensures HeightOnGrid(v) ==> HeightOnGrid(PressAll(b, v, buttons))
    decreases |buttons|
  {
    if buttons != [] {
      PressAllKeeps(b, Press(b, v, buttons[0]), buttons[1..]);
    }
  }

  /** Up then down is no change while up is allowed, and down then up is no
      change while down is allowed; at a limit the blocked press does
      nothing. */
  lemma {:induction false} UpDown(b: Bounds, v: View)
    requires Persisted(v)
    ensures v.font < b.fontMax && v.font + 1 > b.fontMin ==> DecreaseFont(b, IncreaseFont(b, v)) == v
    ensures v.font > b.fontMin && v.font - 1 < b.fontMax ==> IncreaseFont(b, DecreaseFont(b, v)) == v
    ensures v.height < HeightMax && v.height + HeightStep > HeightMin ==> DecreaseHeight(IncreaseHeight(v)) == v
    ensures v.height > HeightMin && v.height - HeightStep < HeightMax ==> IncreaseHeight(DecreaseHeight(v)) == v
    ensures v.font >= b.fontMax ==> IncreaseFont(b, v) == v
    ensures v.font <= b.fontMin ==> DecreaseFont(b, v) == v
    ensures v.height >= HeightMax ==> IncreaseHeight(v) == v
    ensures v.height <= HeightMin ==> DecreaseHeight(v) == v
  {
  }

  /** The two messages the views show when no metadata is on display. */
  const Placeholders := ["Select an image to see its metadata", "Image not found"]

  /** The copy button: the shown text goes to the clipboard unless it is
      empty or a placeholder. */
  function Copy(shown: string): (clip: Option<string>)
    ensures clip.Some? <==> shown != "" && shown !in Placeholders
    ensures clip.Some? ==> clip.value == shown
  {
    if shown != "" && shown != Placeholders[0] && shown != Placeholders[1] then Some(shown) else None
  }
}

=== FILE: text.dfy ===
/** Python string behaviour the metadata core relies on: `str.isspace`,
    `strip`, `in`/`find`, `split(sep, 1)`, `replace`, `str(int)` and
    `"\n".join`, together with the small option/result wrappers used for
    Python's `None` and for exceptions. */
module Text {

  datatype Option<+T> = None | Some(value: T)

  /** A computation that either returns normally or raises; `msg` is the
      text `str(e)` of the exception. */
  datatype Result<+T> = Ok(value: T) | Err(msg: string)

  /** Python's `str.isspace` for one character (the characters that `strip()`
      removes): the ASCII separators and the Unicode space separators. */
  predicate IsSpace(c: char) {
    var n := c as int;
    n == 0x20 || (0x09 <= n <= 0x0D) || (0x1C <= n <= 0x1F)
    || n == 0x85 || n == 0xA0 || n == 0x1680
    || (0x2000 <= n <= 0x200A) || n == 0x2028 || n == 0x2029
    || n == 0x202F || n == 0x205F || n == 0x3000
  }

  predicate AllSpace(s: string) {
    forall i :: 0 <= i < |s| ==> IsSpace(s[i])
  }

  /** How many whitespace characters `s` starts with. */
  function LeadingSpace(s: string): (n: nat)
    ensures n <= |s| && AllSpace(s[..n])
    ensures n < |s| ==> !IsSpace(s[n])
  {
    if |s| > 0 && IsSpace(s[0]) then 1 + LeadingSpace(s[1..]) else 0
  }

  /** How many whitespace characters `s` ends with. */
  function TrailingSpace(s: string): (n: nat)
    ensures n <= |s| && AllSpace(s[|s| - n..])
    ensures n < |s| ==> !IsSpace(s[|s| - n - 1])
  {
    if |s| > 0 && IsSpace(s[|s| - 1]) then 1 + TrailingSpace(s[..|s| - 1]) else 0
  }

  /** `s.lstrip()`: drops the leading whitespace. */
  function LStrip(s: string): string {
    s[LeadingSpace(s)..]
  }

  /** `s.rstrip()`: drops the trailing whitespace. */
  function RStrip(s: string): string {
    s[..|s| - TrailingSpace(s)]
  }

  /** `s.strip()`: the longest slice of `s` with no whitespace at either end. */
  function Strip(s: string): (r: string)
  {
    RStrip(LStrip(s))
  }

  predicate Trimmed(s: string) {
    s == [] || (!IsSpace(s[0]) && !IsSpace(s[|s| - 1]))
  }

  /** Stripping leaves a slice of its input with no whitespace at its ends,
      and everything it removed was whitespace. */
  lemma {:induction false} StripSpec(s: string)
    ensures Trimmed(Strip(s))
    ensures exists i, j :: 0 <= i <= j <= |s| && Strip(s) == s[i..j]
                           && AllSpace(s[..i]) && AllSpace(s[j..])
  {
    var i := LeadingSpace(s);
    var l := s[i..];
    var t := TrailingSpace(l);
    var j := |s| - t;
    StripEnds(s);
    assert Strip(s) == s[i..j];
    assert l[|l| - t..] == s[j..];
  }

  lemma {:induction false} StripEnds(s: string)
    ensures Trimmed(Strip(s))
  {
    var i := LeadingSpace(s);
    var l := s[i..];
    assert LStrip(s) == l;
    var t := TrailingSpace(l);
    var r := l[..|l| - t];
    assert Strip(s) == r;
    if r != [] {
      assert !IsSpace(s[i]);
      assert r[0] == s[i];
      assert !IsSpace(l[|l| - t - 1]);
      assert r[|r| - 1] == l[|l| - t - 1];
    }
  }

  /** A string with no whitespace at its ends strips to itself. */
  lemma {:induction false} StripTrimmed(s: string)
    requires Trimmed(s)
    ensures Strip(s) == s
  {
  }

  /** Python's `pat in s` at a given position. */
  predicate OccursAt(s: string, pat: string, i: int) {
    0 <= i && i + |pat| <= |s| && s[i..i + |pat|] == pat
  }

  /** The first occurrence of `pat` in `s` starts at `i`. */
  predicate FirstAt(s: string, pat: string, i: nat) {
    OccursAt(s, pat, i) && forall k :: 0 <= k < i ==> !OccursAt(s, pat, k)
  }

  /** `s.find(pat)`, with `None` for Python's `-1`. */
  function Find(s: string, pat: string): (r: Option<nat>)
    ensures r.Some? ==> OccursAt(s, pat, r.value)
    ensures r.Some? ==> forall k :: 0 <= k < r.value ==> !OccursAt(s, pat, k)
    ensures r.None? ==> forall k :: 0 <= k <= |s| ==> !OccursAt(s, pat, k)
  {
    FindFrom(s, pat, 0)
  }

  function FindFrom(s: string, pat: string, from: nat): (r: Option<nat>)
    requires from <= |s| + 1
    ensures r.Some? ==> from <= r.value && OccursAt(s, pat, r.value)
    ensures r.Some? ==> forall k :: from <= k < r.value ==> !OccursAt(s, pat, k)
    ensures r.None? ==> forall k :: from <= k <= |s| ==> !OccursAt(s, pat, k)
    decreases |s| + 1 - from
  {
    if from + |pat| > |s| then None
    else if s[from..from + |pat|] == pat then Some(from)
    else FindFrom(s, pat, from + 1)
  }

  predicate Contains(s: string, pat: string) {
    Find(s, pat).Some?
  }

  /** `s.split(sep, 1)`: the text before the first `sep`, and the text after
      it when there is one. */
  function SplitOnce(s: string, sep: string): (r: (string, Option<string>))
  {
    match Find(s, sep)
    case None => (s, None)
    case Some(i) => (s[..i], Some(s[i + |sep|..]))
  }

  /** Splitting once and putting the separator back rebuilds the input; the
      part before contains no separator. */
  lemma {:induction false} SplitOnceRebuilds(s: string, sep: string)
    ensures var (before, after) := SplitOnce(s, sep);
            (after.None? ==> before == s && !Contains(s, sep))
            && (after.Some? ==> (before + sep + after.value == s
                                 && Find(before + sep, sep) == Some(|before|)))
  {
    match Find(s, sep)
    case None =>
    case Some(i) =>
      SplitAt(s, sep, i);
  }

  /** The pieces around the first separator. */
  lemma {:induction false} SplitAt(s: string, sep: string, i: nat)
    requires Find(s, sep) == Some(i)
    ensures s[..i] + sep + s[i + |sep|..] == s
    ensures Find(s[..i] + sep, sep) == Some(i)
  {
    var pre := s[..i] + sep;
    assert pre == s[..i + |sep|];
    forall k | 0 <= k < i
      ensures !OccursAt(pre, sep, k)
    {
      assert !OccursAt(s, sep, k);
    }
    assert OccursAt(pre, sep, i);
    FindIsFirst(pre, sep, i);
  }

  /** The first occurrence is the one `Find` reports. */
  lemma {:induction false} FindIsFirst(s: string, pat: string, i: nat)
    requires OccursAt(s, pat, i) && forall k :: 0 <= k < i ==> !OccursAt(s, pat, k)
    ensures Find(s, pat) == Some(i)
  {
  }

  /** Whitespace in front adds to the leading count. */
  lemma {:induction false} LeadingSpacePrefix(w: string, u: string)
    requires AllSpace(w)
    ensures LeadingSpace(w + u) == |w| + LeadingSpace(u)
    decreases |w|
  {
    if w != [] {
      assert (w + u)[1..] == w[1..] + u;
      LeadingSpacePrefix(w[1..], u);
    } else {
      assert w + u == u;
    }
  }

  /** Whitespace behind adds to the trailing count. */
  lemma {:induction false} TrailingSpaceSuffix(u: string, w: string)
    requires AllSpace(w)
    ensures TrailingSpace(u + w) == |w| + TrailingSpace(u)
    decreases |w|
  {
    if w != [] {
      assert (u + w)[..|u + w| - 1] == u + w[..|w| - 1];
      TrailingSpaceSuffix(u, w[..|w| - 1]);
    } else {
      assert u + w == u;
    }
  }

  /** Stripping a trimmed text padded with whitespace gives the text back. */
  lemma {:induction false} StripPadded(w1: string, t: string, w2: string)
    requires AllSpace(w1) && AllSpace(w2) && Trimmed(t)
    ensures Strip(w1 + t + w2) == t
  {
    var s := w1 + t + w2;
    assert s == w1 + (t + w2);
    LeadingSpacePrefix(w1, t + w2);
    if t == [] {
      assert t + w2 == w2 + [];
      LeadingSpacePrefix(w2, []);
      assert LStrip(s) == [];
    } else {
      assert LeadingSpace(t + w2) == 0;
      assert LStrip(s) == t + w2;
      TrailingSpaceSuffix(t, w2);
      assert TrailingSpace(t) == 0;
      assert (t + w2)[..|t|] == t;
    }
  }

  /** With `a` free of `pat` and a character `c` that `pat` does not hold
      between them, the first `pat` in `a + [c] + pat + b` is the one after
      `c`. */
  lemma {:induction false} FindAfter(a: string, c: char, pat: string, b: string)
    requires pat != [] && c !in pat && !Contains(a, pat)
    ensures Find(a + [c] + pat + b, pat) == Some(|a| + 1)
  {
    var s := a + [c] + pat + b;
    assert OccursAt(s, pat, |a| + 1) by {
      assert s[|a| + 1..|a| + 1 + |pat|] == pat;
    }
    forall k | 0 <= k <= |a|
      ensures !OccursAt(s, pat, k)
    {
      if k + |pat| <= |a| {
        assert s[k..k + |pat|] == a[k..k + |pat|];
        assert !OccursAt(a, pat, k);
      } else if k + |pat| <= |s| {
        assert s[k..k + |pat|][|a| - k] == c;
        assert pat[|a| - k] in pat;
      }
    }
  }

  /** Splitting `a + [c] + pat + b` once at `pat` gives `a + [c]` and `b`. */
  lemma {:induction false} SplitOnceAfter(a: string, c: char, pat: string, b: string)
    requires pat != [] && c !in pat && !Contains(a, pat)
    ensures SplitOnce(a + [c] + pat + b, pat) == (a + [c], Some(b))
  {
    var s := a + [c] + pat + b;
    FindAfter(a, c, pat, b);
    assert s[..|a| + 1] == a + [c];
    assert s[|a| + 1 + |pat|..] == b;
  }

  /** A character that does not start `pat` can be put in front of a text
      free of `pat` without creating one. */
  lemma {:induction false} ContainsCons(c: char, t: string, pat: string)
    requires pat != [] && pat[0] != c && !Contains(t, pat)
    ensures !Contains([c] + t, pat)
  {
    var s := [c] + t;
    forall k | 0 <= k <= |s|
      ensures !OccursAt(s, pat, k)
    {
      if k >= 1 && k + |pat| <= |s| {
        assert s[k..k + |pat|] == t[k - 1..k - 1 + |pat|];
        assert !OccursAt(t, pat, k - 1);
      }
    }
  }

  /** `s.replace(a, b)` for single characters. */
  function ReplaceChar(s: string, a: char, b: char): (r: string)
    ensures |r| == |s|
    ensures forall i :: 0 <= i < |s| ==> r[i] == (if s[i] == a then b else s[i])
  {
    if s == [] then [] else [if s[0] == a then b else s[0]] + ReplaceChar(s[1..], a, b)
  }

  /** `s[:n]` for a non-negative `n`. */
  function Take(s: string, n: nat): (r: string)
    ensures |r| == if |s| <= n then |s| else n
    ensures r == s[..|r|]
  {
    if |s| <= n then s else s[..n]
  }

  predicate IsDigit(c: char) {
    '0' <= c <= '9'
  }

  function DigitChar(d: nat): (c: char)
    requires d < 10
    ensures IsDigit(c)
  {
    ['0', '1', '2', '3', '4', '5', '6', '7', '8', '9'][d]
  }

  function DigitValue(c: char): (d: nat)
    requires IsDigit(c)
    ensures d < 10
  {
    (c as int - '0' as int) as nat
  }

  /** `str(n)` for a non-negative integer: decimal digits, no leading zero. */
  function NatToString(n: nat): (r: string)
    decreases n
  {
    if n < 10 then [DigitChar(n)] else NatToString(n / 10) + [DigitChar(n % 10)]
  }

  /** `str(i)` for any integer. */
  function IntToString(i: int): string {
    if i < 0 then "-" + NatToString(-i) else NatToString(i)
  }

  predicate AllDigits(s: string) {
    forall i :: 0 <= i < |s| ==> IsDigit(s[i])
  }

  /** The value of a string of decimal digits (the inverse of `NatToString`). */
  function ParseNat(s: string): nat
    requires AllDigits(s)
  {
    if s == [] then 0 else ParseNat(s[..|s| - 1]) * 10 + DigitValue(s[|s| - 1])
  }

  lemma {:induction false} NatToStringDigits(n: nat)
    ensures AllDigits(NatToString(n)) && |NatToString(n)| > 0
    decreases n
  {
    if n >= 10 {
      NatToStringDigits(n / 10);
    }
  }

  /** `ParseNat` undoes `NatToString`. */
  lemma {:induction false} ParseNatToString(n: nat)
    ensures AllDigits(NatToString(n))
    ensures ParseNat(NatToString(n)) == n
    decreases n
  {
    NatToStringDigits(n);
    var s := NatToString(n);
    if n < 10 {
      assert s[..0] == [];
    } else {
      ParseNatToString(n / 10);
      assert s[..|s| - 1] == NatToString(n / 10);
    }
  }

  /** Distinct numbers print differently. */
  lemma {:induction false} NatToStringInjective(a: nat, b: nat)
    requires NatToString(a) == NatToString(b)
    ensures a == b
  {
    ParseNatToString(a);
    ParseNatToString(b);
  }

  /** `sep.join(parts)`. */
  function Join(sep: string, parts: seq<string>): string {
    if parts == [] then ""
    else if |parts| == 1 then parts[0]
    else parts[0] + sep + Join(sep, parts[1..])
  }

  /** Python `s.lower()` restricted to ASCII letters. */
  function AsciiLower(s: string): (r: string)
    ensures |r| == |s|
  {
    if s == [] then []
    else [if 'A' <= s[0] <= 'Z' then (s[0] as int + 32) as char else s[0]] + AsciiLower(s[1..])
  }

  predicate EndsWith(s: string, suffix: string) {
    |suffix| <= |s| && s[|s| - |suffix|..] == suffix
  }

  predicate StartsWith(s: string, prefix: string) {
    |prefix| <= |s| && s[..|prefix|] == prefix
  }

  /** `s.rfind(c)` for one character, with `None` for Python's `-1`. */
  function LastIndex(s: string, c: char): (r: Option<nat>)
    ensures r.Some? ==> r.value < |s| && s[r.value] == c
    ensures r.Some? ==> forall k :: r.value < k < |s| ==> s[k] != c
    ensures r.None? ==> forall k :: 0 <= k < |s| ==> s[k] != c
  {
    if s == [] then None
    else if s[|s| - 1] == c then Some(|s| - 1)
    else LastIndex(s[..|s| - 1], c)
  }

  /** The last `c` of `a + [c] + b`, when `b` holds none, is the one
      between them. */
  lemma {:induction false} LastIndexOfJoin(a: string, c: char, b: string)
    requires c !in b
    ensures LastIndex(a + [c] + b, c) == Some(|a|)
    decreases |b|
  {
    var s := a + [c] + b;
    if b != [] {
      assert s[|s| - 1] == b[|b| - 1];
      assert s[..|s| - 1] == a + [c] + b[..|b| - 1];
      LastIndexOfJoin(a, c, b[..|b| - 1]);
    } else {
      assert s[|s| - 1] == c;
    }
  }
}
